=== FILE: README.md ===
# Expense approval workflow: a Dafny model

This project models the core of an expense-management backend (Node.js, Express, Sequelize) and proves properties of the model. The core is its multi-step approval workflow service and the domain models that service drives. Employees submit expenses. For each submitted expense the service does the following:

- picks an approval workflow template for the company;
- folds the company's condition → action approval rules over the template's steps;
- creates one pending approval step (a "task") per resolved approver;
- runs the lifecycle of those tasks: approve, reject, completion, skipping the remaining tasks, escalation of overdue tasks and reminders.

Around that engine the project also models:

- the legacy sequential `ApprovalRequest` record;
- the pure helpers in `src/utils/helpers.js`;
- the country table service;
- the authorization decisions of the Express auth middleware;
- the frontend's `authReducer` state machine;
- the notification model's flags and message builders.

Conventions of the model:

- Money is integer cents (`DECIMAL(15,2)`).
- Time is integer milliseconds, passed in as `now`.
- Text columns compared by the database (`where` clauses and unique indexes) match case-insensitively, as under MySQL's default collation (`Users.CollatedEq`); ASCII letters are folded.
- JavaScript values that the code compares loosely or strictly (rule condition values, action payloads, reducer payloads) are the `Json` datatype, where a `Date` object (`JDate`) is truthy, never strictly equal to anything and compared by its time value. JavaScript truthiness is written out (`Truthy`, `Present`): 0, "", null and undefined are falsy.
- The database is an explicit in-memory `Store` (module `ServiceState`). It holds:
  - expenses keyed by id;
  - the user table;
  - workflows, workflow steps and rules;
  - the approval-step table (tasks) with its next id;
  - the append-only history log;
  - the notification table.
- Every service operation is a pure function from a store to an `Outcome(store, result)`. The source uses no transactions, so an operation that throws part-way keeps the writes it already made. The model returns the partial store together with the error.
- `Valid(s)` is the store invariant that every service operation is proved to keep:
  - every task refers to an existing expense and user;
  - the (expense_id, step_number, approver_id) index is unique;
  - task ids are unique and below the next id.

Modules follow the source files:

- `Expenses`, `Users`, `History`, `ApprovalSteps`, `Rules`, `WorkflowSteps`, `Notifications` and `ApprovalRequests` model the Sequelize models.
- `WorkflowSelection`, `WorkflowRules`, `WorkflowTasks`, `WorkflowProcessing` and `WorkflowSweeps` split `approvalWorkflowService.js` along its phases.
- `WorkflowBehaviour` states consequences of the service as written that span several phases.
- `Helpers`, `Countries`, `Auth` and `AuthReducer` model the utilities.
- `Json`, `Text`, `Seqs`, `Sorting` and `Wrappers` are shared definitions.

## Model

| member | source | states |
|---|---|---|
| Expenses.ParseStatus | src/models/Expense.js:84-88 | a status name is accepted exactly when it names one of the six enum values, and parsing returns that value |
| Expenses.StatusRoundTrip | src/models/Expense.js:84-88 | every status survives printing to its database name and parsing back |
| Expenses.NewExpense | src/models/Expense.js:35-70 | creation fails with a validation error iff the amount is below 0.01 or the description is empty or all whitespace, reporting each failed validator; a created expense has a valid amount and a non-blank description and starts as a draft, with no workflow, step 0, no receipt and none of the submission, approval or rejection dates or reason |
| Expenses.NewExpenseLifecycle | src/models/Expense.js:35-150 | zero and negative amounts and an empty or blank description are refused, and 0.01 with a non-blank description is accepted; a created expense can be edited, deleted and submitted by its owner, and its status date is the creation time |
| Expenses.OwnerRightsOnlyOnDrafts | src/models/Expense.js:137-150 | edit, delete and submit rights coincide; each holds iff the user owns the expense and it is a draft, so nobody may touch a non-draft |
| Expenses.CanBeApprovedByIgnoresAssignment | src/models/Expense.js:152-155 | approval rights depend only on the expense being in_approval and the user's role and approver flag, never on who the assigned approver is |
| Expenses.IsOverBudget | src/models/Expense.js:157-159 | a missing or zero budget is never exceeded; otherwise over budget iff the company-currency amount exceeds the budget |
| Expenses.OverBudgetMonotone | src/models/Expense.js:157-159 | over budget persists when the company-currency amount grows or the budget shrinks to another nonzero value, and within a nonzero budget the amount is at most the budget |
| Expenses.RequiresReceiptThreshold | src/models/Expense.js:161-164 | a receipt is required iff the company-currency amount is at least 25.00; the requirement is monotone in the amount and 24.99 is exempt |
| Expenses.GetStatusDate | src/models/Expense.js:187-199 | the reported date is submitted_at for submitted and in_approval, approved_at for approved, rejected_at for rejected, updated_at otherwise |
| Users.ParseRole | src/models/User.js:43-47 | only admin, manager and employee are roles, and parsing returns the role of that name |
| Users.RoleRoundTrip | src/models/User.js:43-47 | every role survives printing and parsing |
| Users.CanApproveByRole | src/models/User.js:121-123 | admins and managers may always approve; an employee may approve iff flagged as manager approver |
| Users.IsManagerOfIgnoresReportingLine | src/models/User.js:126-128 | a manager is not "manager of" their own direct report whose id differs from both ids compared, yet is "manager of" their own company id |
| Users.ToJson | src/models/User.js:114-118 | the serialized user has exactly the row's keys minus password_hash, with every other value unchanged |
| Users.ToJsonOfUser | src/models/User.js:114-118 | a user's serialized row (without employee_id and the timestamps) loses exactly one key, password_hash, and keeps email and role |
| Users.AddUser | src/models/User.js:76-81 | the unique index refuses an insert iff the (email, company_id) pair is taken, emails compared ignoring case; on success the user is appended and the case-insensitive uniqueness per company is preserved |
| Users.FindUser | src/services/approvalWorkflowService.js:407-408 | a lookup by primary key returns a user with that id from the table, or nothing iff no row has the id |
| Users.RoleMembers | src/models/ApprovalWorkflowStep.js:124-132 | a role query returns exactly the active users of the company whose role name equals the requested name ignoring case; a null name matches nobody |
| Users.CollatedRoleName | src/models/ApprovalWorkflowStep.js:124-132 | a name matches a role under the collation iff it lower-cases to the role's name |
| Users.RoleMembersAnyCase | src/models/ApprovalWorkflowStep.js:124-132 | a role name in any case, such as "Admin", finds exactly the active members of that role in the company |
| Users.RoleMembersOutsideEnum | src/models/User.js:43-47 | a role name that lower-cases to no enum value (such as finance or cfo) matches no user at all |
| Users.DepartmentHead | src/models/ApprovalWorkflowStep.js:134-144 | the department head is an active manager of the company whose department matches ignoring case (null matches null), and none is found only when no such manager exists |
| Users.ActiveAdmin | src/services/approvalWorkflowService.js:511-517 | the admin lookup returns an active admin of the company, and nothing only when the company has none |
| History.ParseAction | src/models/ApprovalHistory.js:27-30 | an action name is accepted exactly when it is one of the seven enum values |
| History.ActionRoundTrip | src/models/ApprovalHistory.js:27-30 | every history action survives printing and parsing |
| History.CreateEntry | src/models/ApprovalHistory.js:119-132 | new_status is the action when no status is given and the given status otherwise; step, previous status and comments are kept iff truthy (0 and "" become null); metadata is kept |
| History.CreateEntryDefaults | src/models/ApprovalHistory.js:119-132 | without options an entry has null step, previous status, comments and metadata, and its new_status parses back to its action |
| History.ActionDescription | src/models/ApprovalHistory.js:72-84 | each known action maps to its fixed text and any other string that is not an inherited object key is returned as it is |
| History.DescriptionsDistinct | src/models/ApprovalHistory.js:72-84 | different actions get different descriptions, and no description is itself an action name |
| ApprovalSteps.Approve | src/models/ApprovalStep.js:90-106 | approving succeeds iff the caller is the approver and the step is pending (the two failures are told apart); it then records approved, the comments and the time, and keeps the step's identity |
| ApprovalSteps.Reject | src/models/ApprovalStep.js:108-128 | rejecting succeeds iff the caller may process the step and the reason is non-blank after trimming; it then records rejected with the reason as comments |
| ApprovalSteps.Skip | src/models/ApprovalStep.js:130-141 | skipping succeeds iff the step is pending and records skipped with the given reason, defaulting to "Step skipped automatically" |
| ApprovalSteps.ResolvedIsFinal | src/models/ApprovalStep.js:95-131 | once a step has left pending, approve, reject and skip all fail and nobody can process it |
| ApprovalSteps.TransitionsLeavePending | src/models/ApprovalStep.js:90-141 | every successful transition leaves the step out of pending |
| ApprovalSteps.IsOverdue | src/models/ApprovalStep.js:147-155 | a resolved step is never overdue; a pending one is overdue iff strictly more than the limit in hours has passed since creation |
| ApprovalSteps.OverdueMonotone | src/models/ApprovalStep.js:147-155 | an overdue step stays overdue as time passes, and is not yet overdue at exactly the limit |
| ApprovalSteps.AppendFreeKey | src/models/ApprovalStep.js:69-73 | adding a step whose (expense, step number, approver) key is free keeps the index unique |
| Rules.FieldValue | src/models/ApprovalRule.js:132-143 | amount yields the company-currency amount unless it is zero, then the raw amount; category yields category_id; department yields the loaded department; any other name yields that column of the expense (dates as `Date` objects) or undefined |
| Rules.OptDateComparisons | src/models/ApprovalRule.js:112-120 | a nullable date compares with a number by its time value, and `null` compares as 0 |
| Rules.ColumnConditions | src/models/ApprovalRule.js:108-143 | a rule on another column sees its value: `=` on description holds iff the text is equal, and a nullable date column compares with a number by its time value with an unset date as 0 (so `rejected_at < t` holds for an unrejected expense iff t is positive) |
| Rules.TimestampConditions | src/models/ApprovalRule.js:108-143 | a rule on created_at compares its time value with the number, and `=` never holds on updated_at, a date object |
| Rules.EvaluateCondition | src/models/ApprovalRule.js:108-130 | an unknown operator is false, and IN and NOT IN are false against a non-list value |
| Rules.NumericComparisons | src/models/ApprovalRule.js:112-122 | on numbers the five comparison operators mean >, >=, <, <= and equality of the field value with the condition value |
| Rules.MembershipOperators | src/models/ApprovalRule.js:123-126 | against a list, IN holds iff some element strictly equals the value and NOT IN is its negation; against a non-list both are false |
| Rules.StrictEqualityIsStrict | src/models/ApprovalRule.js:120-121 | `=` never equates a number with its decimal text, nor two lists |
| Rules.ExecuteAction | src/models/ApprovalRule.js:145-158 | each known action type yields its own action with the matching payload field, and only an unknown type yields null |
| Rules.IsApplicable | src/models/ApprovalRule.js:160-171 | an inactive rule or one bound to another workflow never applies; otherwise applicability is the condition |
| Rules.GlobalOrBoundRulesEvaluate | src/models/ApprovalRule.js:160-171 | for an active global rule or one bound to this workflow, applicability is exactly the condition |
| WorkflowSteps.IsApplicableForExpense | src/models/ApprovalWorkflowStep.js:85-103 | a step applies iff the amount is within its nonzero bounds and the category is in its non-empty list; each violated bound excludes the expense |
| WorkflowSteps.UnboundedStepApplies | src/models/ApprovalWorkflowStep.js:87-100 | zero or missing bounds and a missing or empty category list impose nothing |
| WorkflowSteps.ApplicabilityIsInterval | src/models/ApprovalWorkflowStep.js:87-93 | for a fixed category the amounts a step applies to form an interval |
| WorkflowSteps.ShouldAutoApprove | src/models/ApprovalWorkflowStep.js:105-107 | a missing or zero threshold never auto-approves; otherwise auto-approve iff the amount is at most the threshold |
| WorkflowSteps.GetApprover | src/models/ApprovalWorkflowStep.js:109-160 | a specific user resolves to that user, a role to all active company members with that role, finance and cfo to the members named so, a department head to the first active manager of the company in the submitter's department (ignoring case) or nobody, an unknown type to nobody; only a department-head step with a missing submitter throws |
| WorkflowSteps.ManagerResolution | src/models/ApprovalWorkflowStep.js:116-122 | a manager step resolves to nobody when the submitter has no manager, and to the submitter's manager when that user exists |
| WorkflowSteps.FinanceAndCfoNeverResolve | src/models/ApprovalWorkflowStep.js:146-155 | finance and cfo steps always resolve to the empty list, because no user can have those roles |
| WorkflowSteps.ResolvedApproversExist | src/models/ApprovalWorkflowStep.js:109-160 | every resolved approver is a user of the table; role and department-head approvers are active and in the expense's company, and a department head is a manager whose department matches the submitter's |
| WorkflowSelection.WorkflowOrderIsPreorder | src/services/approvalWorkflowService.js:78 | the ordering by is_default descending then created_at descending is a total preorder |
| WorkflowSelection.Candidates | src/services/approvalWorkflowService.js:68-79 | the workflow query returns exactly the company's active workflows, each once, in that order |
| WorkflowSelection.StepsOf | src/models/ApprovalWorkflow.js:49-55 | a workflow's steps are exactly the step rows bound to it |
| WorkflowSelection.GetWorkflowForExpense | src/services/approvalWorkflowService.js:66-105 | selection fails iff the company has no active workflow; the choice is one of those, and it is applicable whenever any of them is |
| WorkflowSelection.ChosenIsFirstApplicable | src/services/approvalWorkflowService.js:82-86 | no candidate strictly earlier in the order than the chosen workflow is applicable |
| WorkflowSelection.DefaultWins | src/services/approvalWorkflowService.js:78-104 | when the company has an active default workflow, a default is chosen, and it is the newest default |
| WorkflowSelection.FallsBackToNewest | src/services/approvalWorkflowService.js:88-89 | when no candidate is applicable, the newest non-default workflow is chosen |
| WorkflowRules.RuleOrderIsPreorder | src/services/approvalWorkflowService.js:118 | ordering rules by priority descending is a total preorder |
| WorkflowRules.ActiveRulesFor | src/services/approvalWorkflowService.js:109-119 | the rule query returns exactly the company's active rules that are global or bound to the workflow, by descending priority |
| WorkflowRules.ApplyRuleAction | src/services/approvalWorkflowService.js:134-179 | auto_approve approves the expense, logs auto_approved and empties the list; skip_step keeps exactly the steps not strictly equal to the number; add_approver appends one step numbered length+1; require_approval, falsy payloads and null leave the list; only auto_approve writes |
| WorkflowRules.RuleEffectsCompose | src/services/approvalWorkflowService.js:121-128 | rule effects (status columns of the one expense and appended history only; every other expense unchanged) compose across the loop |
| WorkflowRules.ApplyIfApplicable | src/services/approvalWorkflowService.js:122-127 | one loop iteration only adds plain add_approver steps to the list, and only an auto_approve rule writes |
| WorkflowRules.ApplyRules | src/services/approvalWorkflowService.js:108-131 | the fold only adds add_approver steps, writes only through auto_approve, and without those rule types keeps the list's members and the store |
| WorkflowTasks.StepOrderIsPreorder | src/services/approvalWorkflowService.js:35 | ordering template steps by step_number is a total preorder |
| WorkflowTasks.OrderedSteps | src/services/approvalWorkflowService.js:33-36 | the template steps read at submission are exactly the workflow's steps, by ascending step number |
| WorkflowTasks.AsEntries | src/services/approvalWorkflowService.js:121 | the initial step list is the template steps, one entry each |
| WorkflowTasks.CreateForApprovers | src/services/approvalWorkflowService.js:212-226 | one pending, unnotified task per resolved approver is appended, in approver order, with the step's number and id; a failure is only a uniqueness violation |
| WorkflowTasks.MaterializeStep | src/services/approvalWorkflowService.js:185-226 | an inapplicable step changes nothing; a step under its threshold only logs auto_approved; otherwise only fresh tasks of the expense are appended |
| WorkflowTasks.Chain | src/services/approvalWorkflowService.js:185-227 | the tasks of consecutive template steps accumulate, and the first error ends the loop |
| WorkflowTasks.CreateApprovalSteps | src/services/approvalWorkflowService.js:182-230 | only fresh pending tasks of the expense are appended; a step added by add_approver always makes the call throw; errors are type errors or uniqueness violations |
| WorkflowTasks.CreatedTasksJustified | src/services/approvalWorkflowService.js:185-226 | every created task comes from an applicable template step that is not under its threshold and resolved that approver, with that step number |
| WorkflowTasks.ShiftJustified | src/services/approvalWorkflowService.js:185-227 | justification by later steps carries over to the whole list |
| WorkflowTasks.CreatedTasksComplete | src/services/approvalWorkflowService.js:185-226 | every approver some applicable, non-auto-approved template step resolves gets a task with that step number |
| WorkflowTasks.ShiftComplete | src/services/approvalWorkflowService.js:185-227 | completeness for the first step and for the rest gives completeness for the list |
| WorkflowTasks.CreateForApproversValid | src/services/approvalWorkflowService.js:215-223 | creating tasks for users of the table keeps the store invariant |
| WorkflowTasks.MaterializeStepValid | src/services/approvalWorkflowService.js:185-226 | processing one template step keeps the store invariant |
| WorkflowTasks.CreateApprovalStepsValid | src/services/approvalWorkflowService.js:182-230 | task creation keeps the store invariant, also when it throws part-way |
| WorkflowTasks.NotifyApprover | src/services/approvalWorkflowService.js:406-421 | when approver and submitter exist, one approval_request notification for the approver is appended and that task's notified_at is set; otherwise nothing changes |
| WorkflowTasks.NotifyApproverValid | src/services/approvalWorkflowService.js:406-421 | notifying keeps the store invariant and every other stored task current |
| WorkflowTasks.NotifyAll | src/services/approvalWorkflowService.js:252-254 | notifying a batch only appends approval_request notifications, each to an approver of the batch, at most one per task, and every task whose approver and submitter are found gets one |
| WorkflowTasks.NotifiedComplete | src/services/approvalWorkflowService.js:406-420 | every reachable approver of a batch is notified when the first is and the rest are |
| WorkflowTasks.NotifiedCompose | src/services/approvalWorkflowService.js:252-254 | notifications for the first task and for the rest of the batch combine into those for the batch |
| WorkflowTasks.NotifyAllValid | src/services/approvalWorkflowService.js:252-254 | notifying a batch of stored tasks keeps the store invariant |
| WorkflowTasks.StartApprovalProcess | src/services/approvalWorkflowService.js:233-255 | with no tasks the expense is approved and nobody is notified; otherwise it is in_approval at step 1, every notification goes to an approver of a step-1 task, and every step-1 task whose approver and submitter exist is notified; no other expense changes |
| WorkflowTasks.NotifyStepOne | src/services/approvalWorkflowService.js:250-254 | exactly the reachable approvers of tasks numbered 1 are notified: only they, and each of them |
| WorkflowTasks.StartApprovalProcessValid | src/services/approvalWorkflowService.js:233-255 | starting the process keeps the store invariant |
| WorkflowTasks.MarkSubmitted | src/services/approvalWorkflowService.js:26-30 | the expense becomes submitted with the workflow and submission time, its amounts and category unchanged, and nothing else changes |
| WorkflowTasks.Plan | src/services/approvalWorkflowService.js:26-39 | marking submitted and folding the rules creates no task or notification and leaves the expense submitted to the workflow |
| WorkflowTasks.RunWorkflow | src/services/approvalWorkflowService.js:25-57 | on success the expense carries the workflow and submission time, is approved with no tasks or in_approval at step 1, and every returned task is pending for it; failures are type errors or uniqueness violations |
| WorkflowTasks.Launch | src/services/approvalWorkflowService.js:41-57 | creating, starting and logging gives the promised initialized state or one of the two errors |
| WorkflowTasks.Finish | src/services/approvalWorkflowService.js:45-51 | the start decides approved or in_approval at step 1, and the submitted history row is the last one written |
| WorkflowTasks.InitializeWorkflow | src/services/approvalWorkflowService.js:16-63 | "no suitable workflow" is raised iff the company has no active workflow, and then nothing is written; on success the chosen workflow is a candidate and the expense is initialized as promised |
| WorkflowTasks.RunWorkflowValid | src/services/approvalWorkflowService.js:25-57 | a run with a chosen workflow keeps the store invariant |
| WorkflowTasks.LaunchValid | src/services/approvalWorkflowService.js:41-51 | the last phase of submission keeps the store invariant |
| WorkflowTasks.InitializeWorkflowValid | src/services/approvalWorkflowService.js:16-63 | submission keeps the store invariant, whatever its outcome |
| WorkflowProcessing.SkipRemainingSteps | src/services/approvalWorkflowService.js:390-403 | exactly the expense's pending tasks become skipped with the reason, everything else is unchanged, and afterwards nothing of the expense is pending |
| WorkflowProcessing.SkipAll | src/services/approvalWorkflowService.js:391-402 | the bulk update rewrites exactly the matching rows |
| WorkflowProcessing.SkipRemainingStepsValid | src/services/approvalWorkflowService.js:390-403 | skipping keeps the store invariant and other expenses' tasks |
| WorkflowProcessing.PendingSteps | src/services/approvalWorkflowService.js:350-356 | the query returns exactly the expense's pending tasks, by ascending step number |
| WorkflowProcessing.CheckApprovalCompletion | src/services/approvalWorkflowService.js:349-387 | the check keeps the expense's facts and the users, and adds or removes no task |
| WorkflowProcessing.CompleteApproval | src/services/approvalWorkflowService.js:358-369 | completion approves the expense at `now` and appends one approved history row |
| WorkflowProcessing.AdvanceToStep | src/services/approvalWorkflowService.js:371-386 | advancing sets the current step, keeps the expense's status and the history, and notifies every task of the batch whose approver and submitter exist |
| WorkflowProcessing.AdvanceToStepValid | src/services/approvalWorkflowService.js:371-386 | advancing and notifying stored tasks keeps the store invariant |
| WorkflowProcessing.CompletionApproves | src/services/approvalWorkflowService.js:358-369 | with nothing pending the expense is approved, tasks are untouched and one approved row is logged |
| WorkflowProcessing.CompletionAdvances | src/services/approvalWorkflowService.js:371-386 | with tasks pending the current step becomes the smallest pending step number, status and history unchanged, and every pending task at that step with a found approver and submitter is notified |
| WorkflowProcessing.CheckApprovalCompletionValid | src/services/approvalWorkflowService.js:349-387 | the completion check keeps the store invariant |
| WorkflowProcessing.RecordApproval | src/services/approvalWorkflowService.js:279-297 | only the processed task changes, to its approved form, and only history and notifications are added |
| WorkflowProcessing.ApproveTask | src/services/approvalWorkflowService.js:279-300 | an authorized approve succeeds with an approved step and keeps the users and expense facts |
| WorkflowProcessing.RecordApprovalPending | src/services/approvalWorkflowService.js:279-300 | after approving, the expense's pending tasks are exactly its other pending tasks |
| WorkflowProcessing.LastApprovalCompletes | src/services/approvalWorkflowService.js:279-300 | approving the last pending task approves the expense |
| WorkflowProcessing.ApprovalAdvances | src/services/approvalWorkflowService.js:279-300 | approving while others are pending keeps the status, moves the current step to the smallest remaining step number, and notifies the reachable approvers pending at that step |
| WorkflowProcessing.RecordRejection | src/services/approvalWorkflowService.js:307-331 | the processed step becomes rejected and the expense rejected with the reason and time |
| WorkflowProcessing.MarkRejected | src/services/approvalWorkflowService.js:310-331 | the expense is rejected with the reason and time, and no task changes |
| WorkflowProcessing.RejectTask | src/services/approvalWorkflowService.js:302-334 | a valid reject rejects the step and the expense with the reason, and leaves nothing of the expense pending |
| WorkflowProcessing.ProcessApproval | src/services/approvalWorkflowService.js:258-346 | a missing step, an unauthorized caller or a non-pending step, a blank rejection reason and an unknown action each raise their error with the store unchanged; success happens iff none applies |
| WorkflowProcessing.ProcessApprovalValid | src/services/approvalWorkflowService.js:258-346 | processing an approval keeps the store invariant |
| WorkflowSweeps.FindEscalationTarget | src/services/approvalWorkflowService.js:501-520 | the target is the approver's active manager when there is one, else an active admin of the approver's company, and is always an active user |
| WorkflowSweeps.OverdueTasks | src/services/approvalWorkflowService.js:435-446 | the overdue query returns exactly the stored tasks that are overdue |
| WorkflowSweeps.OverdueQueryMatchesIsOverdue | src/services/approvalWorkflowService.js:435-441 | the sweep's query and the step's own overdue test agree: pending and created more than the limit ago |
| WorkflowSweeps.RecordEscalation | src/services/approvalWorkflowService.js:465-487 | the original task is skipped with the timeout comment, one escalated history row is logged, and the target gets one escalation notification |
| WorkflowSweeps.EscalateOne | src/services/approvalWorkflowService.js:450-494 | a missing approver throws; without a target nothing changes; with a target the create fails iff the unique key is taken (store unchanged), else the record names that target, a pending escalated task for the target is appended, and the original's row becomes skipped with the timeout comment, every other row unchanged |
| WorkflowSweeps.EscalateEach | src/services/approvalWorkflowService.js:450-495 | every reported escalation is of a task read at the start and has a matching escalated task; users and expenses are never touched |
| WorkflowSweeps.EscalateEachRows | src/services/approvalWorkflowService.js:450-473 | the loop leaves every earlier row alone except those of listed tasks with a target, and on success each of those is skipped with the timeout comment |
| WorkflowSweeps.EscalateEachComplete | src/services/approvalWorkflowService.js:450-495 | on success the loop records every listed task with a target, each exactly once and with that target, and no task without one |
| WorkflowSweeps.JoinComplete | src/services/approvalWorkflowService.js:450-495 | the first task's record in front of complete records of the rest is complete for the whole list |
| WorkflowSweeps.FilterUniqueIds | src/services/approvalWorkflowService.js:436-447 | the query's tasks keep the table's unique ids |
| WorkflowSweeps.JoinEscalations | src/services/approvalWorkflowService.js:450-495 | the escalations of one task and of the rest combine into those of the batch |
| WorkflowSweeps.EscalateOverdueApprovals | src/services/approvalWorkflowService.js:434-498 | the sweep only escalates overdue stored tasks and never changes users or expenses |
| WorkflowSweeps.EscalateOverdueApprovalsFrame | src/services/approvalWorkflowService.js:434-498 | the sweep leaves every stored row alone except those of overdue tasks whose approver has a target, even when it throws |
| WorkflowSweeps.EscalateOverdueApprovalsComplete | src/services/approvalWorkflowService.js:434-498 | when the sweep returns, every overdue stored task whose approver has a target is recorded exactly once with that target and its row is skipped with the timeout comment |
| WorkflowSweeps.NotEscalatedRow | src/services/approvalWorkflowService.js:436-447 | a row that is not overdue with a target shares its id with no escalated task |
| WorkflowSweeps.RecordEscalationValid | src/services/approvalWorkflowService.js:465-487 | recording an escalation keeps the store invariant and the snapshots of the tasks still to visit |
| WorkflowSweeps.EscalateOneValid | src/services/approvalWorkflowService.js:450-494 | one escalation keeps the store invariant, also when the create throws |
| WorkflowSweeps.EscalateToValid | src/services/approvalWorkflowService.js:454-487 | creating the escalated task and recording the escalation keep the invariant |
| WorkflowSweeps.CreateTaskKeepsSnapshots | src/services/approvalWorkflowService.js:456-462 | creating a task leaves the tasks still to visit as they were read |
| WorkflowSweeps.EscalateEachValid | src/services/approvalWorkflowService.js:450-495 | the escalation loop keeps the store invariant |
| WorkflowSweeps.SnapshotsTail | src/services/approvalWorkflowService.js:450 | tasks read at the start remain current one by one |
| WorkflowSweeps.EscalateOverdueApprovalsValid | src/services/approvalWorkflowService.js:434-498 | the escalation sweep keeps the store invariant |
| WorkflowSweeps.CeilDiv | src/services/approvalWorkflowService.js:545-547 | the days overdue are the elapsed time divided by a day, rounded up |
| WorkflowSweeps.ReminderFor | src/services/approvalWorkflowService.js:549-553 | a reminder goes to the due step's approver about its expense |
| WorkflowSweeps.Reminders | src/services/approvalWorkflowService.js:544-560 | one reminder per due task, in order |
| WorkflowSweeps.DueForReminder | src/services/approvalWorkflowService.js:524-540 | the due tasks are exactly the pending, notified tasks created more than the given days ago |
| WorkflowSweeps.SendReminderNotifications | src/services/approvalWorkflowService.js:523-563 | the reminder sweep only appends one reminder per due task, to its approver; no task or anything else changes |
| WorkflowBehaviour.AutoApproveDoesNotStopRules | src/services/approvalWorkflowService.js:123-170 | after an applicable auto_approve, a later add_approver that was applicable and reads none of the columns approval writes (status, approved_at, updated_at) still appends its step: the expense is approved and the list holds one added step |
| WorkflowBehaviour.ApprovalKeepsApplicability | src/models/ApprovalRule.js:160-171 | approving an expense does not change whether a rule applies unless the rule reads a column approval writes (status, approved_at, updated_at) |
| WorkflowBehaviour.AddApproverStep | src/services/approvalWorkflowService.js:158-170 | an applicable add_approver on the empty list yields exactly one added step numbered 1 |
| WorkflowBehaviour.AutoApproveStep | src/services/approvalWorkflowService.js:138-150 | an applicable auto_approve approves the expense and empties the list |
| WorkflowBehaviour.AddedStepFailsSubmission | src/services/approvalWorkflowService.js:158-170 | a step list holding an added step makes the submission throw |
| WorkflowBehaviour.SkipStepByTextRemovesNothing | src/services/approvalWorkflowService.js:152-156 | a skip_step whose number is given as text removes no step |
| WorkflowBehaviour.DepartmentRulesNeverFire | src/models/ApprovalRule.js:112-122 | with the department not loaded, relational and string-equality department conditions are false |
| WorkflowBehaviour.StartNotifiesOnlyStepOne | src/services/approvalWorkflowService.js:244-254 | if no created task is numbered 1, nobody is notified and the current step is still 1 |
| WorkflowBehaviour.ApprovalIgnoresCurrentStep | src/services/approvalWorkflowService.js:271-280 | any pending task can be approved by its approver whatever the expense's current step |
| WorkflowBehaviour.SendReminderNotificationsValid | src/services/approvalWorkflowService.js:523-563 | the reminder sweep keeps the store invariant |
| WorkflowBehaviour.StatusDateFollowsLifecycle | src/models/Expense.js:187-199 | the status date after submission, after the last approval and after a rejection is the time of that transition |
| WorkflowBehaviour.RejectionClosesExpense | src/services/approvalWorkflowService.js:302-334 | after a successful reject the expense is rejected with the reason and nothing of it is pending |
| WorkflowSweeps.EscalationToSelfAborts | src/services/approvalWorkflowService.js:450-462 | when the first overdue task's target is its own approver, the create violates the unique index and the sweep throws |
| WorkflowSweeps.LoneAdminTargetsSelf | src/services/approvalWorkflowService.js:501-520 | an admin without a manager who is the company's found admin escalates to themselves |
| WorkflowSweeps.EscalatedTasksNeverReminded | src/services/approvalWorkflowService.js:456-462 | tasks created by escalation are never due for a reminder, because they are never marked notified |
| WorkflowSweeps.RemindersRepeat | src/services/approvalWorkflowService.js:523-563 | running the reminder sweep twice sends the same reminders twice |
| ServiceState.PutExpense | src/services/approvalWorkflowService.js:26-30 | an expense update writes that expense with a fresh updated_at and touches no other table |
| ServiceState.AddHistory | src/models/ApprovalHistory.js:119-132 | a history entry is appended at the end and nothing else changes |
| ServiceState.AddNotification | src/models/Notification.js:129-176 | a notification is appended at the end and nothing else changes |
| ServiceState.CreateTask | src/models/ApprovalStep.js:69-73 | creating a step fails iff its (expense, step number, approver) key is taken, changing nothing; otherwise a pending, unnotified row with the next id is appended |
| ServiceState.CreateTaskValid | src/models/ApprovalStep.js:69-73 | creating a step for an existing expense and user keeps the store invariant |
| ServiceState.CreateTaskKeepsTracked | src/models/ApprovalStep.js:69-73 | creating a step leaves existing rows current |
| ServiceState.TaskIndex | src/services/approvalWorkflowService.js:260 | finding a row by primary key gives its position, or proves no row has the id |
| ServiceState.FindTask | src/services/approvalWorkflowService.js:260-269 | findByPk returns a stored row with that id, or nothing iff none has it |
| ServiceState.PutTask | src/models/ApprovalStep.js:100-104 | saving a step replaces the row with its id and changes nothing else |
| ServiceState.ReplaceById | src/models/ApprovalStep.js:100-104 | a row update rewrites exactly the rows with the given id |
| ServiceState.StoredIsTracked | src/models/ApprovalStep.js:100-104 | a stored row is current |
| ServiceState.PutTaskKeepsTracked | src/models/ApprovalStep.js:100-104 | saving one current row keeps other current rows current |
| ServiceState.PutTaskValid | src/models/ApprovalStep.js:100-104 | saving a current row keeps the store invariant |
| ServiceState.FrameValid | src/services/approvalWorkflowService.js:26-30 | writes that keep the users, the tasks and every expense's references keep the invariant |
| Notifications.MarkAsRead | src/models/Notification.js:72-77 | marking read sets is_read and changes no other field |
| Notifications.MarkEmailAsSent | src/models/Notification.js:79-84 | marking sent sets is_email_sent and changes no other field |
| Notifications.MarkIdempotent | src/models/Notification.js:72-84 | both marks are idempotent, and marking a read notification read changes nothing |
| Notifications.MarkAllAsRead | src/models/Notification.js:216-226 | exactly the user's notifications are marked read; others are unchanged |
| Notifications.MarkAllAsReadClears | src/models/Notification.js:178-226 | afterwards the user has no unread notification and every other user's unread count is unchanged |
| Notifications.CleanupOldNotifications | src/models/Notification.js:228-240 | a notification is kept iff it is unread or not older than the cutoff, the calendar date the caller computes |
| Notifications.CleanupKeepsUnreadAndRecent | src/models/Notification.js:228-240 | unread and recent notifications survive cleanup, and read old ones are deleted |
| Notifications.CreateApprovalRequest | src/models/Notification.js:129-137 | an approval request notification is unread, for the approver, about the expense |
| Notifications.CreateApprovalResult | src/models/Notification.js:139-156 | the type is approved iff the flag is set (rejected otherwise), the title matches, and the notification is unread and unsent |
| Notifications.ApprovalResultMessage | src/models/Notification.js:139-156 | the message names the outcome and approver, and gets " Comments: …" exactly when comments are non-empty |
| Notifications.CreateEscalation | src/models/Notification.js:158-166 | an escalation notification is for the target about the expense |
| Notifications.CreateReminder | src/models/Notification.js:168-176 | a reminder notification is for the approver about the expense |
| Notifications.TypeIcon | src/models/Notification.js:86-95 | the default icon is returned iff the type is not one of the known types (inherited object keys, which the ENUM column never holds, aside) |
| Notifications.TypeColor | src/models/Notification.js:97-106 | the default colour is returned iff the type is not one of the known types (inherited object keys aside) |
| Notifications.KnownTypesDistinguished | src/models/Notification.js:86-106 | every known type has its own icon and its own colour |
| ApprovalRequests.ParseRequestStatus | src/models/ApprovalRequest.js:82-86 | a parsed request status prints back to the same name |
| ApprovalRequests.RequestStatusRoundTrip | src/models/ApprovalRequest.js:82-86 | every request status survives printing and parsing |
| ApprovalRequests.AddApprovalHistory | src/models/ApprovalRequest.js:160-171 | exactly one entry is appended after the unchanged earlier ones, carrying approver, lower-cased model name, action, comments and time; no other field changes |
| ApprovalRequests.HistoryOnlyGrows | src/models/ApprovalRequest.js:160-171 | two appends keep the old history as prefix and record both actions in order |
| ApprovalRequests.ApprovableByOneManager | src/models/ApprovalRequest.js:173-175 | at most one manager can approve a request, and only while it is in progress with a current approver |
| ApprovalRequests.BeforeCreate | src/models/ApprovalRequest.js:149-155 | a present request number is kept and a missing one is replaced by the generated one; nothing else changes |
| ApprovalRequests.BeforeCreateIdempotent | src/models/ApprovalRequest.js:149-155 | running the hook again never changes the number |
| Helpers.CeilDivNat | src/utils/helpers.js:51 | the page count is the least number of pages of the given size holding all rows |
| Helpers.CeilDivFacts | src/utils/helpers.js:51 | integer ceiling division bounds the row count between the last two page boundaries |
| Helpers.GetPaginationMeta | src/utils/helpers.js:50-63 | pages is the ceiling of count over limit; has_prev iff page > 1; has_next iff page < pages; prev and next pages are the neighbours or null accordingly |
| Helpers.PaginationNeighboursInRange | src/utils/helpers.js:50-63 | for an existing page the neighbour pages exist, and only the first and last pages lack a previous or next page |
| Helpers.PagesCoverRows | src/utils/helpers.js:50-63 | up to one page of rows is one page, and one more page of rows adds exactly one page |
| Helpers.BuildDateRangeQuery | src/utils/helpers.js:79-91 | both dates give a between query, only a start a gte query, only an end an lte query, neither an empty query, on the given field with the given dates |
| Helpers.DateRangeMeaning | src/utils/helpers.js:79-91 | a date passes the query iff it is not before the given start and not after the given end |
| Helpers.CurrencyCodeShape | src/utils/helpers.js:100-103 | a valid currency code is three capital letters: its lower-case form and any longer string are invalid |
| Helpers.ReplaceUnsafe | src/utils/helpers.js:127 | every character outside [a-zA-Z0-9.-] becomes an underscore and the rest are kept |
| Helpers.CollapseUnderscores | src/utils/helpers.js:128 | runs of underscores become one, and no new characters appear |
| Helpers.SanitizeFilename | src/utils/helpers.js:125-130 | sanitizing never lengthens a name |
| Helpers.LowerKeepsUnderscores | src/utils/helpers.js:129 | lower-casing keeps double underscores exactly where they were |
| Helpers.SanitizeFilenameShape | src/utils/helpers.js:125-130 | a sanitized name contains only [a-z0-9._-] and no "__" |
| Helpers.SanitizedFixed | src/utils/helpers.js:125-130 | each sanitizing pass leaves an already sanitized name alone |
| Helpers.SanitizeFilenameIdempotent | src/utils/helpers.js:125-130 | sanitizing is idempotent, and a name is its own sanitization iff it is already sanitized |
| Helpers.Capitalize | src/utils/helpers.js:155-158 | the first character is upper-cased and the rest lower-cased; the empty string stays empty |
| Helpers.CapitalizeIdempotent | src/utils/helpers.js:155-158 | capitalizing is idempotent and changes nothing but case |
| Helpers.ToCamelCase | src/utils/helpers.js:161-163 | camel-casing never lengthens a string |
| Helpers.ToSnakeCase | src/utils/helpers.js:166-168 | snake-casing never shortens a string and leaves no capital letter |
| Helpers.ToCamelCaseNoJoint | src/utils/helpers.js:161-163 | camel-case output has no underscore followed by a lower-case letter left to convert |
| Helpers.SnakeCamelRoundTrip | src/utils/helpers.js:161-168 | camel-casing undoes snake-casing on any string without underscores |
| Helpers.LastIndexOf | src/utils/helpers.js:183 | the result is the last position of the character, or -1 when it does not occur |
| Helpers.ToUint32 | src/utils/helpers.js:183 | `>>> 0` maps the index to the unsigned 32-bit number congruent to it |
| Helpers.GetFileExtensionWithoutDot | src/utils/helpers.js:182-184 | a name without a dot, or whose only dot leads, has the empty extension |
| Helpers.GetFileExtensionAfterDot | src/utils/helpers.js:182-184 | otherwise the extension is the text after the last dot, and contains no dot |
| Helpers.IndexOf | src/utils/helpers.js:203 | the result is the first position of the character, or -1 when it does not occur |
| Helpers.Stars | src/utils/helpers.js:205 | a mask of the given length consists of asterisks |
| Helpers.MaskEmailSingleAt | src/utils/helpers.js:202-208 | for an address with one '@' the length and domain are kept; a username longer than 2 shows only its first two characters, and a shorter one is shown whole |
| Helpers.SingleAtParts | src/utils/helpers.js:203 | splitting at the only '@' gives the username before it and the domain after it |
| Helpers.MaskEmailWithoutAt | src/utils/helpers.js:202-208 | a string without '@' gets "@undefined" appended |
| Helpers.SliceTo | src/utils/helpers.js:251 | a slice to an end index is a prefix of the string |
| Helpers.TruncateTextMeaning | src/utils/helpers.js:249-252 | text within the limit is unchanged; longer text becomes exactly max characters: a prefix of the text followed by the suffix |
| Helpers.TruncateTextNegativeEnd | src/utils/helpers.js:249-252 | when the suffix is longer than the limit, the negative slice end counts from the end of the text |
| Countries.GetCountryByCode | src/services/countryService.js:269-273 | the result is the first entry whose code matches ignoring case, and nothing iff no entry matches |
| Countries.ValidIffFound | src/services/countryService.js:364-368 | a code is valid iff the lookup finds an entry |
| Countries.GetCurrencyByCountry | src/services/countryService.js:358-361 | the currency is missing iff the code is invalid, and otherwise is the matching entry's currency |
| Countries.NameOrderIsPreorder | src/services/countryService.js:260 | comparing names is a total preorder |
| Countries.GetCountriesSorted | src/services/countryService.js:258-266 | the shared table is reordered in place by name: the same entries, sorted, and the returned array is the table itself |
| Countries.SortingKeepsValidity | src/services/countryService.js:258-273 | sorting the shared table does not change which codes are valid |
| Countries.SearchOrderIsPreorder | src/services/countryService.js:294-303 | the search order (prefix matches first, then by name) is a total preorder |
| Countries.SearchCountries | src/services/countryService.js:283-310 | a missing or one-character query gives []; otherwise at most 20 table entries whose lower-cased name or code contains the query, prefix matches first, each group by name |
| Countries.SearchComplete | src/services/countryService.js:289-304 | when at most 20 entries match, every matching entry is returned |
| Countries.FoundCountries | src/services/countryService.js:345-348 | the region's countries are table entries whose codes are listed for the region |
| Countries.FoundCountriesComplete | src/services/countryService.js:345-348 | every listed code found in the table contributes its country |
| Countries.GetCountriesByRegion | src/services/countryService.js:335-355 | an unknown region gives []; for a known region the result is exactly the found countries of its list (same multiset, so each listed code found in the table contributes its country), sorted by name; a region named like an inherited object key throws |
| Auth.DigitIn | src/middleware/auth.js:98 | a character is a decimal digit exactly when parseInt reads it as one |
| Auth.DigitRun | src/middleware/auth.js:98 | parseInt reads the longest run of digits at the start |
| Auth.DigitsOfNat | src/middleware/auth.js:98 | the decimal text of a number is all digits, reads back to the number and has no leading zero |
| Auth.ParseIntRoundTrip | src/middleware/auth.js:98-104 | parseInt of an integer's decimal text gives that integer back |
| Auth.GenerateToken | src/middleware/auth.js:5-16 | the payload carries id, email and role; company_id is admin_id when truthy and the user's own id otherwise |
| Auth.AuthorizeRoles | src/middleware/auth.js:76-87 | the request passes iff a role is set and listed; otherwise it is answered 403 |
| Auth.AuthorizeRolesMonotone | src/middleware/auth.js:76-87 | allowing more roles never rejects a request that passed |
| Auth.CompanyTarget | src/middleware/auth.js:92-95 | the target company is the route parameter when present, else the request's company id |
| Auth.AuthorizeCompany | src/middleware/auth.js:90-113 | the request passes iff the target exists and the user belongs to it (an admin is the company, others are its members); otherwise 403 |
| Auth.TokenOpensOwnCompany | src/middleware/auth.js:5-16 | a well-formed token's own company passes the company check exactly for admins and for users with an admin_id |
| Auth.CompanyAccessIsOwn | src/middleware/auth.js:97-108 | whoever passes the company check is the admin of the target, or has it as admin_id |
| Auth.AuthorizeResourceAccess | src/middleware/auth.js:116-187 | an unknown resource type is 400, a missing approval request 404, and every other refusal one of 400, 403, 404 or 500 |
| Auth.EmployeeResourceAccess | src/middleware/auth.js:122-139 | employee records are open to that employee, to the employee's manager and to the employee's admin, and to nobody else |
| Auth.EmployeeCannotReachOthers | src/middleware/auth.js:141-175 | an employee never reaches a manager record, and reaches an approval request iff it is their own |
| Auth.ManagerRequestAccess | src/middleware/auth.js:154-175 | a manager reaches an approval request iff they are its current or final approver |
| AuthReducer.Reduce | frontend/src/context/AuthContext.js:25-75 | AUTH_START sets loading and clears the error; AUTH_SUCCESS takes user and token from the payload; AUTH_FAILURE clears the session and keeps the payload as error; LOGOUT gives the initial state not loading; UPDATE_PROFILE merges the payload over user; CLEAR_ERROR clears only the error; anything else changes nothing |
| AuthReducer.ReachableStatesHaveNoStaleError | frontend/src/context/AuthContext.js:25-75 | from a state without an error while authenticated, no sequence of actions reaches an authenticated state with an error |
| AuthReducer.LogoutForgets | frontend/src/context/AuthContext.js:54-58 | logging out forgets everything: the result does not depend on the state and is unauthenticated with no user |
| AuthReducer.UpdatesIdempotent | frontend/src/context/AuthContext.js:60-70 | repeating an identical profile update or error clear changes nothing |
| AuthReducer.UpdateAfterLogout | frontend/src/context/AuthContext.js:54-66 | a profile update after logout creates a user object while staying unauthenticated |
| AuthReducer.HasAnyRoleMeansSomeRole | frontend/src/context/AuthContext.js:232-239 | hasAnyRole holds iff hasRole holds for one of the roles, and never for no roles |
| AuthReducer.LoggedOutRoles | frontend/src/context/AuthContext.js:232-235 | with no user, hasRole(undefined) holds and no named role does |
| Text.TrimEmptyIffAllWhitespace | src/models/ApprovalStep.js:117 | a string trims to empty iff it is all whitespace |

## Left out

- I/O, the database driver and the clock are not modelled: every query is a function over the in-memory store, and `new Date()` / `Date.now()` become the `now` parameter.
- A task object read before the loop and saved later (`step.update`, `approvalStep.update`) is modelled as writing back that snapshot; the proofs about the sweeps and notification loops carry `Snapshot` facts, which show each saved row is still current when it is saved.
- The order of rows the database returns for equal sort keys is not modelled: the model's insertion sort keeps tied rows in table order, and the properties proved do not depend on how ties are ordered.
- Concurrency: there are no transactions or conditional updates in the source; each operation is one atomic sequential step, and no race-freedom is claimed.
- `toLowerCase`, `toUpperCase` and `localeCompare` are modelled on ASCII letters and code-point order only; no locale collation or Unicode case mapping.
- Users.AddUser: only the unique index is modelled; the column validators (name `notEmpty` and length 2-255, email `isEmail` and `notEmpty`, password_hash `notEmpty` and length 6-255) are not, since `isEmail` is a large grammar of its own and the rows here are already-stored users.
- Users.RoleMembers, Users.DepartmentHead and Users.AddUser fold only ASCII case for the database comparisons; the default collation's accent folding and other Unicode equivalences are not modelled.
- Strings are sequences of characters; JavaScript counts UTF-16 code units, so lengths of text outside the basic plane differ.
- DECIMAL columns arrive from mysql2 as strings in practice; the model compares money as integer cents. JavaScript's loose coercions beyond the cases written out (`Truthy`, strict equality in `StrictEq`, and `null`, booleans and dates as numbers in the relational operators) are not modelled; a relational comparison between a string and a number is false in the model.
- `AuthReducer.Spread` of a string or array payload (object spread of a non-object) is not modelled; such payloads spread to no keys.
- Helpers.GetPaginationMeta: requires limit > 0; with limit 0 the source divides by zero and produces Infinity, which is not modelled.
- Helpers.ToUint32: modelled only for indices within ±2^32, the range a string index can take.
- Auth.ParseIntRoundTrip: the round trip is proved for decimal text only; `ParseInt` itself also reads the `0x`/`0X` hexadecimal prefix and stops at the first non-digit (so "1e3" reads as 1); the source always calls it without a radix argument.
- The database lookups made by the auth middleware (the employee row, the approval request row) are inputs (`Lookups`); its "Server error" branch is represented as the 500 response only. JWT signing, verification and expiry are left out.
- Countries.GetCountriesByRegion: a region equal to an inherited object key (such as "constructor") makes the source throw; the model reports this as a failure instead of modelling JavaScript prototypes.
- Countries.FoundCountries: states soundness and completeness, not that results follow the order of the region's list before sorting.
- The country table's own well-formedness (unique codes, region codes present in the table) is not proved; properties hold for any table.
- WorkflowRules.ApplyRuleAction: for skip_step the contract states which steps remain, not that the kept steps stay in their original order (the definition keeps them in order).
- WorkflowSelection.GetWorkflowForExpense: "at most one default workflow", kept by the admin controller, is not assumed; properties hold with several defaults.
- Rules.FieldValue: a rule on `exchange_rate` (a six-decimal number) reads `undefined`, since numbers here are integers; properties of the Sequelize instance that are not columns (`dataValues`, loaded associations) also read `undefined`.
- Notifications.CleanupOldNotifications: the cutoff is a parameter; computing it with `setDate` in local time (days of 23 or 25 hours across daylight-saving changes) depends on the clock and the time zone.
- Password hashing (bcrypt hooks), getTimeAgo and the Intl formatters, random and time-based generators (the request_number value itself), float helpers, the aggregate statistics and analytics queries, currency conversion over HTTP, controllers, routes, validation and upload middleware, and the frontend UI are outside this model.

## Behaviour of the code as written

The model follows the code, not the intent of its comments. These consequences are proved (`WorkflowBehaviour` and `WorkflowSweeps`):

- `auto_approve` does not stop the rule loop. A later `add_approver` appends a plain-object step to the emptied list (`AutoApproveDoesNotStopRules`).
- A step appended by `add_approver` is a plain object without `isApplicableForExpense`, so submission throws whenever one reaches task creation (`AddedStepFailsSubmission`). Its number is `steps.length + 1` and can duplicate an existing number after a skip.
- `skip_step` compares with `!==`, so a step number stored as text in the rule's JSON removes nothing (`SkipStepByTextRemovesNothing`).
- Every caller of `initializeWorkflow` (three call sites) loads the expense without its submitter, so the `department` rule field is `undefined`. Relational and string-equality department conditions therefore never hold (`DepartmentRulesNeverFire`).
- Step applicability compares `expense.amount`, while the auto-approve threshold uses `amount_in_company_currency` (`WorkflowSteps.IsApplicableForExpense`, `WorkflowTasks.MaterializeStep`). Zero bounds and thresholds count as absent; this rests on the integer-cents convention, since a DECIMAL arriving as the string "0.00" would be truthy (see the DECIMAL line under "## Left out").
- `finance` and `cfo` approver types never resolve, because the role enum has no such roles (`FinanceAndCfoNeverResolve`).
- Every step number is materialized at submission, and only tasks numbered 1 are notified. If no task is numbered 1, nobody is notified, yet the current step is 1 (`StartNotifiesOnlyStepOne`).
- The submitted history row always records new status `in_approval`, also when the expense was approved outright (`WorkflowTasks.Finish`).
- Any pending task can be approved by its approver regardless of the expense's current step (`ApprovalIgnoresCurrentStep`).
- An approver whose escalation target is themselves (a lone admin without a manager, `LoneAdminTargetsSelf`) makes the create violate the unique index, which aborts the whole sweep (`EscalationToSelfAborts`).
- Escalated tasks are never marked notified, so they never get reminders (`EscalatedTasksNeverReminded`). Reminders are not recorded either, so every sweep repeats them (`RemindersRepeat`).

=== FILE: approval_request.dfy ===
/**
 * The legacy sequential approval request: a record with an append-only JSON
 * approval history, a current approver and a request number assigned on
 * creation when none was given.
 */
module ApprovalRequests {
  import opened Wrappers
  import opened Text

  datatype RequestStatus = Draft | Submitted | InProgress | Approved | Rejected | Cancelled

  const DefaultRequestStatus: RequestStatus := Draft

  function RequestStatusName(s: RequestStatus): string {
    match s
    case Draft => "draft"
    case Submitted => "submitted"
    case InProgress => "in_progress"
    case Approved => "approved"
    case Rejected => "rejected"
    case Cancelled => "cancelled"
  }

  /** Reads a stored status; anything outside the six-value enum is refused. */
  function ParseRequestStatus(s: string): (r: Option<RequestStatus>)
    ensures r.Some? ==> RequestStatusName(r.value) == s
  {
    if s == "draft" then Some(Draft)
    else if s == "submitted" then Some(Submitted)
    else if s == "in_progress" then Some(InProgress)
    else if s == "approved" then Some(Approved)
    else if s == "rejected" then Some(Rejected)
    else if s == "cancelled" then Some(Cancelled)
    else None
  }

  lemma RequestStatusRoundTrip(st: RequestStatus)
    ensures ParseRequestStatus(RequestStatusName(st)) == Some(st)
  {
  }

  /**
   * The approver as the history sees it: an id, a name and the name of the
   * model class the approver instance belongs to (for example "Manager").
   */
  datatype Approver = Approver(id: nat, name: string, modelName: string)

  datatype HistoryEntry = HistoryEntry(
    approverId: nat,
    approverName: string,
    approverType: string,
    action: string,
    comments: Option<string>,
    timestamp: int)

  datatype ApprovalRequest = ApprovalRequest(
    id: nat,
    employeeId: nat,
    requestNumber: Option<string>,
    status: RequestStatus,
    currentApproverId: Option<nat>,
    approvalHistory: Option<seq<HistoryEntry>>)

  /** The stored history, with a null column read as the empty list. */
  function HistoryOf(r: ApprovalRequest): seq<HistoryEntry> {
    if r.approvalHistory.Some? then r.approvalHistory.value else []
  }

  /**
   * Appends one entry recording `action` by `approver` at `now`; the caller
   * leaving `comments` out gives a null comment.
   */
  function AddApprovalHistory(r: ApprovalRequest, approver: Approver, action: string,
                              comments: Option<string>, now: int): (r': ApprovalRequest)
    ensures r'.approvalHistory.Some?
    ensures |HistoryOf(r')| == |HistoryOf(r)| + 1
    ensures HistoryOf(r')[..|HistoryOf(r)|] == HistoryOf(r)
    ensures var last := HistoryOf(r')[|HistoryOf(r)|];
            && last.approverId == approver.id && last.approverName == approver.name
            && last.approverType == Lower(approver.modelName)
            && last.action == action && last.comments == comments && last.timestamp == now
    ensures r'.(approvalHistory := r.approvalHistory) == r
  {
    r.(approvalHistory := Some(HistoryOf(r) + [HistoryEntry(approver.id, approver.name, Lower(approver.modelName), action, comments, now)]))
  }

  /** Appending never rewrites the past: any earlier history is a prefix of any later one. */
  lemma HistoryOnlyGrows(r: ApprovalRequest, a1: Approver, act1: string, c1: Option<string>, t1: int,
                         a2: Approver, act2: string, c2: Option<string>, t2: int)
    ensures var r2 := AddApprovalHistory(AddApprovalHistory(r, a1, act1, c1, t1), a2, act2, c2, t2);
            && |HistoryOf(r2)| == |HistoryOf(r)| + 2
            && HistoryOf(r2)[..|HistoryOf(r)|] == HistoryOf(r)
            && HistoryOf(r2)[|HistoryOf(r)|].action == act1
            && HistoryOf(r2)[|HistoryOf(r)| + 1].action == act2
  {
    var r1 := AddApprovalHistory(r, a1, act1, c1, t1);
    assert HistoryOf(AddApprovalHistory(r1, a2, act2, c2, t2))[..|HistoryOf(r1)|] == HistoryOf(r1);
  }

  /** The request awaits exactly this manager. */
  predicate CanBeApprovedBy(r: ApprovalRequest, managerId: nat) {
    r.currentApproverId == Some(managerId) && r.status == InProgress
  }

  /** Only a request in progress can be approved, and by at most one manager. */
  lemma ApprovableByOneManager(r: ApprovalRequest, m1: nat, m2: nat)
    requires CanBeApprovedBy(r, m1) && CanBeApprovedBy(r, m2)
    ensures m1 == m2 && r.status == InProgress && r.currentApproverId.Some?
  {
  }

  /**
   * The creation hook: a missing or empty request number is replaced by the
   * generated one (time- and randomness-based, so passed in); a given one is kept.
   */
  function BeforeCreate(r: ApprovalRequest, generated: string): (r': ApprovalRequest)
    ensures r'.requestNumber.Some? && r'.requestNumber.value != "" <== generated != ""
    ensures r.requestNumber.Some? && r.requestNumber.value != "" ==> r' == r
    ensures !(r.requestNumber.Some? && r.requestNumber.value != "") ==> r'.requestNumber == Some(generated)
    ensures r'.(requestNumber := r.requestNumber) == r
  {
    if r.requestNumber.Some? && r.requestNumber.value != "" then r
    else r.(requestNumber := Some(generated))
  }

  /** The hook is idempotent once a non-empty number has been generated. */
  lemma BeforeCreateIdempotent(r: ApprovalRequest, g1: string, g2: string)
    requires g1 != ""
    ensures BeforeCreate(BeforeCreate(r, g1), g2) == BeforeCreate(r, g1)
  {
  }
}

=== FILE: approval_steps.dfy ===
/**
 * Runtime approval tasks (src/models/ApprovalStep.js): one approver's
 * obligation for one expense at one step number, and its guarded
 * transitions out of `pending`.
 */
module ApprovalSteps {
  import opened Wrappers
  import Text

  /** The `status` column's ENUM. */
  datatype TaskStatus = Pending | Approved | Rejected | Skipped

  datatype Task = Task(
    id: nat,
    expenseId: nat,
    workflowStepId: Option<nat>,
    stepNumber: int,
    approverId: nat,
    approverType: string,
    status: TaskStatus,
    comments: Option<string>,
    approvedAt: Option<int>,
    rejectedAt: Option<int>,
    notifiedAt: Option<int>,
    createdAt: int)

  /** The errors the instance methods throw. */
  datatype TaskError = NotAuthorized | NotPending | ReasonRequired

  const AutoSkipComment: string := "Step skipped automatically"

  /** The columns no transition touches. */
  predicate SameIdentity(t: Task, r: Task) {
    && r.id == t.id && r.expenseId == t.expenseId && r.workflowStepId == t.workflowStepId
    && r.stepNumber == t.stepNumber && r.approverId == t.approverId
    && r.approverType == t.approverType && r.notifiedAt == t.notifiedAt && r.createdAt == t.createdAt
  }

  predicate CanBeProcessedBy(t: Task, userId: int) {
    t.approverId == userId && t.status == Pending
  }

  /** `approve`: the approver of a pending task marks it approved with the given comments. */
  function Approve(t: Task, approverId: int, comments: Option<string>, now: int): (r: Result<Task, TaskError>)
    ensures r.Success? <==> CanBeProcessedBy(t, approverId)
    ensures t.approverId != approverId ==> r == Failure(NotAuthorized)
    ensures t.approverId == approverId && t.status != Pending ==> r == Failure(NotPending)
    ensures r.Success? ==> && r.value.status == Approved && r.value.comments == comments
                           && r.value.approvedAt == Some(now) && r.value.rejectedAt == t.rejectedAt
                           && SameIdentity(t, r.value)
  {
    if t.approverId != approverId then Failure(NotAuthorized)
    else if t.status != Pending then Failure(NotPending)
    else Success(t.(status := Approved, comments := comments, approvedAt := Some(now)))
  }

  /** `reject`: as `approve`, and additionally the reason must not be blank. */
  function Reject(t: Task, approverId: int, reason: Option<string>, now: int): (r: Result<Task, TaskError>)
    ensures r.Success? <==> CanBeProcessedBy(t, approverId) && reason.Some? && !Text.Blank(reason.value)
    ensures t.approverId != approverId ==> r == Failure(NotAuthorized)
    ensures t.approverId == approverId && t.status != Pending ==> r == Failure(NotPending)
    ensures CanBeProcessedBy(t, approverId) && (reason.None? || Text.Blank(reason.value)) ==> r == Failure(ReasonRequired)
    ensures r.Success? ==> && r.value.status == Rejected && r.value.comments == reason
                           && r.value.rejectedAt == Some(now) && r.value.approvedAt == t.approvedAt
                           && SameIdentity(t, r.value)
  {
    if t.approverId != approverId then Failure(NotAuthorized)
    else if t.status != Pending then Failure(NotPending)
    else if reason.None? || Text.Blank(reason.value) then Failure(ReasonRequired)
    else Success(t.(status := Rejected, comments := reason, rejectedAt := Some(now)))
  }

  /** `skip`: a pending task becomes skipped; a falsy reason is replaced by the default text. */
  function Skip(t: Task, reason: Option<string>): (r: Result<Task, TaskError>)
    ensures r.Success? <==> t.status == Pending
    ensures r.Failure? ==> r.error == NotPending
    ensures r.Success? ==> && r.value.status == Skipped
                           && r.value.comments == Some(if reason.Some? && reason.value != "" then reason.value else AutoSkipComment)
                           && r.value.approvedAt == t.approvedAt && r.value.rejectedAt == t.rejectedAt
                           && SameIdentity(t, r.value)
  {
    if t.status != Pending then Failure(NotPending)
    else Success(t.(status := Skipped, comments := Some(if reason.Some? && reason.value != "" then reason.value else AutoSkipComment)))
  }

  /** No method moves a task that has left `pending`: resolved tasks are final. */
  lemma ResolvedIsFinal(t: Task, user: int, comments: Option<string>, now: int)
    requires t.status != Pending
    ensures Approve(t, user, comments, now).Failure?
    ensures Reject(t, user, comments, now).Failure?
    ensures Skip(t, comments).Failure?
    ensures !CanBeProcessedBy(t, user)
  {
  }

  /** The three transitions, when they succeed, always leave `pending`. */
  lemma TransitionsLeavePending(t: Task, user: int, comments: Option<string>, now: int)
    ensures Approve(t, user, comments, now).Success? ==> Approve(t, user, comments, now).value.status != Pending
    ensures Reject(t, user, comments, now).Success? ==> Reject(t, user, comments, now).value.status != Pending
    ensures Skip(t, comments).Success? ==> Skip(t, comments).value.status != Pending
  {
  }

  const MillisPerHour: int := 3600000

  /**
   * `isOverdue(hours)`: a pending task whose age in hours, `(now - created) / 3600000`
   * computed in real arithmetic, is strictly greater than `hours`.
   */
  function IsOverdue(t: Task, hours: int, now: int): (r: bool)
    ensures t.status != Pending ==> !r
    ensures t.status == Pending ==> (r <==> now - t.createdAt > hours * 3600000)
  {
    t.status == Pending && now - t.createdAt > hours * MillisPerHour
  }

  /** Overdue tasks stay overdue as time passes, and exactly at the limit a task is not overdue. */
  lemma OverdueMonotone(t: Task, hours: int, now: int, later: int)
    requires now <= later
    ensures IsOverdue(t, hours, now) ==> IsOverdue(t, hours, later)
    ensures !IsOverdue(t, hours, t.createdAt + hours * 3600000)
  {
  }

  /** The key of the unique index `uk_expense_step_approver`. */
  predicate SameKey(a: Task, b: Task) {
    a.expenseId == b.expenseId && a.stepNumber == b.stepNumber && a.approverId == b.approverId
  }

  predicate KeyTaken(tasks: seq<Task>, expenseId: nat, stepNumber: int, approverId: nat) {
    exists i :: 0 <= i < |tasks| && tasks[i].expenseId == expenseId && tasks[i].stepNumber == stepNumber
                && tasks[i].approverId == approverId
  }

  ghost predicate UniqueKeys(tasks: seq<Task>) {
    forall i, j :: 0 <= i < j < |tasks| ==> !SameKey(tasks[i], tasks[j])
  }

  /** Appending a task whose key is free keeps the index unique. */
  lemma AppendFreeKey(tasks: seq<Task>, t: Task)
    requires UniqueKeys(tasks)
    requires !KeyTaken(tasks, t.expenseId, t.stepNumber, t.approverId)
    ensures UniqueKeys(tasks + [t])
  {
    var r := tasks + [t];
    forall i, j | 0 <= i < j < |r| ensures !SameKey(r[i], r[j]) {
      if j == |tasks| {
        assert r[i] == tasks[i];
      }
    }
  }
}

=== FILE: auth.dfy ===
/**
 * The decision logic of the authentication middleware: the token payload
 * the server signs, and the role, company and resource checks that either
 * let a request through or answer it with an error status.  Signing,
 * verification and the database lookups are left out; the rows a check
 * looks up are passed in.
 */
module Auth {
  import opened Wrappers
  import opened Text

  // ------------------------------------------------------------------ parseInt

  function DigitIn(c: char, radix: nat): (r: Option<nat>)
    requires radix == 10 || radix == 16
    ensures r.Some? ==> r.value < radix
    ensures radix == 10 ==> (r.Some? <==> IsDigit(c))
  {
    if IsDigit(c) then Some(c as int - '0' as int)
    else if radix == 16 && 'a' <= c <= 'f' then Some(c as int - 'a' as int + 10)
    else if radix == 16 && 'A' <= c <= 'F' then Some(c as int - 'A' as int + 10)
    else None
  }

  /** Length of the longest prefix made of digits of `radix`. */
  function DigitRun(s: string, radix: nat): (n: nat)
    requires radix == 10 || radix == 16
    ensures n <= |s|
    ensures forall i :: 0 <= i < n ==> DigitIn(s[i], radix).Some?
    ensures n < |s| ==> DigitIn(s[n], radix).None?
  {
    if |s| == 0 || DigitIn(s[0], radix).None? then 0 else 1 + DigitRun(s[1..], radix)
  }

  /** The number written by a run of digits, most significant first. */
  function DigitsValue(s: string, radix: nat): nat
    requires radix == 10 || radix == 16
    requires forall i :: 0 <= i < |s| ==> DigitIn(s[i], radix).Some?
  {
    if |s| == 0 then 0
    else DigitsValue(s[..|s| - 1], radix) * radix + DigitIn(s[|s| - 1], radix).value
  }

  /** The unsigned part: `0x`/`0X` selects hexadecimal; `None` when no digit follows. */
  function ParseMagnitude(u: string): (r: Option<nat>)
  {
    var hex := |u| >= 2 && u[0] == '0' && (u[1] == 'x' || u[1] == 'X');
    var radix := if hex then 16 else 10;
    var body := if hex then u[2..] else u;
    var n := DigitRun(body, radix);
    if n == 0 then None else Some(DigitsValue(body[..n], radix))
  }

  /** An optional sign, then the magnitude. */
  function ParseSignedMagnitude(t: string): (r: Option<int>)
  {
    if |t| > 0 && t[0] == '-' then
      match ParseMagnitude(t[1..]) case None => None case Some(m) => Some(0 - m as int)
    else if |t| > 0 && t[0] == '+' then
      match ParseMagnitude(t[1..]) case None => None case Some(m) => Some(m)
    else
      match ParseMagnitude(t) case None => None case Some(m) => Some(m)
  }

  /**
   * `parseInt(s)` with no radix: leading white space and a sign are skipped,
   * `0x`/`0X` selects hexadecimal, then the longest run of digits is read;
   * `None` is `NaN` (no digits at all).
   */
  function ParseInt(s: string): (r: Option<int>)
  {
    ParseSignedMagnitude(TrimStart(s))
  }

  lemma {:induction false} DigitsOfNat(n: nat)
    ensures DigitRun(NatToString(n), 10) == |NatToString(n)|
    ensures DigitsValue(NatToString(n), 10) == n
    ensures n >= 10 ==> NatToString(n)[0] != '0'
    decreases n
  {
    var s := NatToString(n);
    if n >= 10 {
      var q, d := n / 10, n % 10;
      DigitsOfNat(q);
      assert s == NatToString(q) + [Digit(d)];
      assert s[..|s| - 1] == NatToString(q);
      DigitReadsBack(d);
      assert DigitsValue(s, 10) == q * 10 + d;
    }
    DigitRunAll(s);
  }

  lemma DigitReadsBack(d: nat)
    requires d < 10
    ensures DigitIn(Digit(d), 10) == Some(d)
  {
    if d < 5 {
      assert d == 0 || d == 1 || d == 2 || d == 3 || d == 4;
    } else {
      assert d == 5 || d == 6 || d == 7 || d == 8 || d == 9;
    }
  }

  lemma {:induction false} DigitRunAll(s: string)
    requires forall i :: 0 <= i < |s| ==> IsDigit(s[i])
    ensures DigitRun(s, 10) == |s|
    decreases |s|
  {
    if |s| > 0 {
      DigitRunAll(s[1..]);
    }
  }

  /** `parseInt(String(n))` gives back `n` for every integer in ordinary notation. */
  lemma ParseIntRoundTrip(n: int)
    ensures ParseInt(IntToString(n)) == Some(n)
  {
    if n < 0 {
      NegativeRoundTrip(n);
    } else {
      NonNegativeRoundTrip(n);
    }
  }

  lemma NonNegativeRoundTrip(a: nat)
    ensures ParseInt(IntToString(a)) == Some(a)
  {
    var d := NatToString(a);
    DecimalBody(d, a);
    assert IntToString(a) == d;
    NoLeadingSpace(d);
    assert ParseSignedMagnitude(d) == Some(a);
  }

  lemma NegativeRoundTrip(n: int)
    requires n < 0
    ensures ParseInt(IntToString(n)) == Some(n)
  {
    var a: nat := -n;
    var d := NatToString(a);
    DecimalBody(d, a);
    var s := "-" + d;
    assert IntToString(n) == s;
    assert s[1..] == d;
    NoLeadingSpace(s);
    MinusSign(s, a);
  }

  lemma NoLeadingSpace(s: string)
    requires |s| > 0 && (s[0] == '-' || IsDigit(s[0]))
    ensures TrimStart(s) == s
  {
    assert !IsWhitespace(s[0]);
  }

  lemma MinusSign(t: string, a: nat)
    requires |t| > 0 && t[0] == '-' && ParseMagnitude(t[1..]) == Some(a)
    ensures ParseSignedMagnitude(t) == Some(0 - a)
  {
  }

  /** A string of decimal digits with no superfluous leading zero reads back as its value. */
  lemma DecimalBody(d: string, a: nat)
    requires d == NatToString(a)
    ensures |d| > 0 && IsDigit(d[0])
    ensures ParseMagnitude(d) == Some(a)
  {
    DigitsOfNat(a);
    assert IsDigit(d[0]);
    if |d| >= 2 {
      assert IsDigit(d[1]);
    }
    assert d[..|d|] == d;
  }

  // --------------------------------------------------------------- responses

  datatype Response =
    | Next
    | Status(code: nat, error: string)

  const Forbidden: nat := 403

  // ------------------------------------------------------------------- tokens

  /** An authenticated principal: an admin, manager or employee row. */
  datatype Principal = Principal(id: nat, email: string, adminId: Option<nat>)

  datatype TokenPayload = TokenPayload(id: nat, email: string, role: string, companyId: nat)

  /** A company id is present when it is set and non-zero. */
  predicate Truthy(x: Option<nat>) {
    x.Some? && x.value != 0
  }

  /** The signed claims: the company is the owning admin's id, or the principal's own id. */
  function GenerateToken(user: Principal, role: string): (p: TokenPayload)
    ensures p.id == user.id && p.email == user.email && p.role == role
    ensures Truthy(user.adminId) ==> p.companyId == user.adminId.value
    ensures !Truthy(user.adminId) ==> p.companyId == user.id
  {
    TokenPayload(user.id, user.email, role, if Truthy(user.adminId) then user.adminId.value else user.id)
  }

  // -------------------------------------------------------------------- roles

  /** `authorizeRoles(...roles)`: the request's role must be set and listed. */
  function AuthorizeRoles(roles: seq<string>, userRole: Option<string>): (r: Response)
    ensures r.Next? <==> userRole.Some? && userRole.value != "" && userRole.value in roles
    ensures r.Status? ==> r.code == Forbidden
  {
    if userRole.None? || userRole.value == "" || userRole.value !in roles then Status(Forbidden, "Insufficient permissions")
    else Next
  }

  /** Widening the allowed list never shuts anybody out. */
  lemma AuthorizeRolesMonotone(roles: seq<string>, more: seq<string>, userRole: Option<string>)
    ensures AuthorizeRoles(roles, userRole).Next? ==> AuthorizeRoles(roles + more, userRole).Next?
  {
  }

  // ------------------------------------------------------------------ company

  /** The company a request targets: the route parameter when given, else the token's company. */
  function CompanyTarget(paramsCompanyId: Option<string>, reqCompanyId: Option<int>): (t: Option<int>)
    ensures paramsCompanyId.Some? && paramsCompanyId.value != "" ==> t == ParseInt(paramsCompanyId.value)
    ensures !(paramsCompanyId.Some? && paramsCompanyId.value != "") ==> t == reqCompanyId
  {
    if paramsCompanyId.Some? && paramsCompanyId.value != "" then ParseInt(paramsCompanyId.value)
    else reqCompanyId
  }

  /** The company a principal of `role` belongs to: an admin owns its own, the others their admin's. */
  predicate BelongsTo(role: string, user: Principal, company: int) {
    (role == "admin" && user.id == company)
    || ((role == "manager" || role == "employee") && user.adminId == Some(company))
  }

  function AuthorizeCompany(userRole: string, user: Principal, paramsCompanyId: Option<string>,
                            reqCompanyId: Option<int>): (r: Response)
    ensures var t := CompanyTarget(paramsCompanyId, reqCompanyId);
            r.Next? <==> t.Some? && BelongsTo(userRole, user, t.value)
    ensures r.Status? ==> r.code == Forbidden
  {
    var t := CompanyTarget(paramsCompanyId, reqCompanyId);
    if userRole == "admin" && t == Some(user.id as int) then Next
    else if (userRole == "manager" || userRole == "employee") && t.Some? && user.adminId == Some(t.value) then Next
    else Status(Forbidden, "Access denied to this company")
  }

  /**
   * A token's own company opens the company check exactly for admins and
   * for staff that have an admin; a manager or employee without one is
   * refused access to the company the token names.
   */
  lemma TokenOpensOwnCompany(user: Principal, role: string)
    requires role in ["admin", "manager", "employee"]
    requires role == "admin" ==> user.adminId.None?
    requires user.id > 0
    ensures var p := GenerateToken(user, role);
            AuthorizeCompany(role, user, None, Some(p.companyId)).Next? <==> role == "admin" || Truthy(user.adminId)
  {
  }

  /** Naming another company in the route never helps: access is only ever to one's own. */
  lemma CompanyAccessIsOwn(role: string, user: Principal, params: Option<string>, req: Option<int>)
    requires AuthorizeCompany(role, user, params, req).Next?
    ensures var t := CompanyTarget(params, req).value;
            (role == "admin" && t == user.id) || (role != "admin" && Some(t) == user.adminId)
  {
  }

  // ----------------------------------------------------------------- resources

  datatype EmployeeRow = EmployeeRow(managerId: Option<nat>, adminId: Option<nat>)

  datatype ManagerRow = ManagerRow(adminId: Option<nat>)

  /** An approval request with its submitting employee's owning admin, when that row loads. */
  datatype RequestRow = RequestRow(employeeId: nat, currentApproverId: Option<nat>, finalApproverId: Option<nat>,
                                   employee: Option<EmployeeRow>)

  /** What `findByPk(req.params.id)` returns for each table. */
  datatype Lookups = Lookups(employee: Option<EmployeeRow>, manager: Option<ManagerRow>, request: Option<RequestRow>)

  const ServerError: nat := 500

  /**
   * `authorizeResourceAccess(resourceType)`: employees reach their own data,
   * managers the employees they manage and the requests they approve,
   * admins what belongs to their company.
   */
  function AuthorizeResourceAccess(resourceType: string, userRole: string, user: Principal, resourceId: string,
                                   rows: Lookups): (r: Response)
    ensures resourceType !in ["employee", "manager", "approval_request"] <==> r == Status(400, "Invalid resource type")
    ensures r == Status(404, "Request not found") <==> resourceType == "approval_request" && rows.request.None?
    ensures r.Status? ==> r.code in {400, 403, 404, ServerError}
  {
    var own := ParseInt(resourceId) == Some(user.id as int);
    if resourceType == "employee" then
      if userRole == "employee" && own then Next
      else if userRole == "manager" && rows.employee.Some? && rows.employee.value.managerId == Some(user.id) then Next
      else if userRole == "admin" && rows.employee.Some? && rows.employee.value.adminId == Some(user.id) then Next
      else Status(Forbidden, "Access denied to this resource")
    else if resourceType == "manager" then
      if userRole == "manager" && own then Next
      else if userRole == "admin" && rows.manager.Some? && rows.manager.value.adminId == Some(user.id) then Next
      else Status(Forbidden, "Access denied to this resource")
    else if resourceType == "approval_request" then
      if rows.request.None? then Status(404, "Request not found")
      else
        var req := rows.request.value;
        if userRole == "employee" && req.employeeId == user.id then Next
        else if userRole == "manager" && (req.currentApproverId == Some(user.id) || req.finalApproverId == Some(user.id)) then Next
        else if userRole == "admin" && req.employee.None? then Status(ServerError, "Authorization failed")
        else if userRole == "admin" && req.employee.value.adminId == Some(user.id) then Next
        else Status(Forbidden, "Access denied to this resource")
    else Status(400, "Invalid resource type")
  }

  /** Who passes the employee-resource check, and through which relation. */
  lemma EmployeeResourceAccess(userRole: string, user: Principal, resourceId: string, rows: Lookups)
    ensures AuthorizeResourceAccess("employee", userRole, user, resourceId, rows).Next? <==>
              (userRole == "employee" && ParseInt(resourceId) == Some(user.id as int))
              || (userRole == "manager" && rows.employee.Some? && rows.employee.value.managerId == Some(user.id))
              || (userRole == "admin" && rows.employee.Some? && rows.employee.value.adminId == Some(user.id))
  {
  }

  /** An employee reaches no manager's data, and only its own requests. */
  lemma EmployeeCannotReachOthers(user: Principal, resourceId: string, rows: Lookups)
    ensures AuthorizeResourceAccess("manager", "employee", user, resourceId, rows).Next? == false
    ensures AuthorizeResourceAccess("approval_request", "employee", user, resourceId, rows).Next?
            <==> rows.request.Some? && rows.request.value.employeeId == user.id
  {
  }

  /** A manager reaches a request exactly when it is its current or final approver. */
  lemma ManagerRequestAccess(user: Principal, resourceId: string, rows: Lookups)
    requires rows.request.Some?
    ensures AuthorizeResourceAccess("approval_request", "manager", user, resourceId, rows).Next?
            <==> rows.request.value.currentApproverId == Some(user.id) || rows.request.value.finalApproverId == Some(user.id)
  {
  }
}

=== FILE: auth_context.dfy ===
/**
 * The front end's authentication state and the reducer that moves it on
 * each dispatched action, with the role queries the pages ask of it.
 * Values held in the state are JavaScript values.
 */
module AuthReducer {
  import opened Json

  datatype AuthState = AuthState(user: Json, token: Json, isAuthenticated: bool, isLoading: bool, error: Json)

  const InitialState: AuthState := AuthState(JNull, JNull, false, true, JNull)

  /** The dispatched actions, by `type`; any other type string is `Other`. */
  datatype Action =
    | AuthStart
    | AuthSuccess(payload: Json)
    | AuthFailure(payload: Json)
    | Logout
    | UpdateProfile(payload: Json)
    | ClearError
    | Other(actionType: string, payload: Json)

  /** The own properties `{ ...v }` copies: an object's fields, nothing from `null`, `undefined`, numbers or booleans. */
  function Spread(v: Json): map<string, Json> {
    if v.JObj? then v.fields else map[]
  }

  function Reduce(state: AuthState, action: Action): (r: AuthState)
    ensures action.AuthStart? ==> r == state.(isLoading := true, error := JNull)
    ensures action.AuthSuccess? ==>
              && r.user == Field(action.payload, "user") && r.token == Field(action.payload, "token")
              && r.isAuthenticated && !r.isLoading && r.error == JNull
    ensures action.AuthFailure? ==>
              r == AuthState(JNull, JNull, false, false, action.payload)
    ensures action.Logout? ==> r == InitialState.(isLoading := false)
    ensures action.UpdateProfile? ==>
              && r.(user := state.user) == state
              && r.user.JObj?
              && (forall k :: k in Spread(action.payload) ==> k in r.user.fields && r.user.fields[k] == Spread(action.payload)[k])
              && (forall k :: k in Spread(state.user) && k !in Spread(action.payload) ==> k in r.user.fields && r.user.fields[k] == Spread(state.user)[k])
              && (forall k :: k in r.user.fields ==> k in Spread(state.user) || k in Spread(action.payload))
    ensures action.ClearError? ==> r == state.(error := JNull)
    ensures action.Other? ==> r == state
  {
    match action
    case AuthStart => state.(isLoading := true, error := JNull)
    case AuthSuccess(p) =>
      state.(user := Field(p, "user"), token := Field(p, "token"), isAuthenticated := true, isLoading := false, error := JNull)
    case AuthFailure(p) => state.(user := JNull, token := JNull, isAuthenticated := false, isLoading := false, error := p)
    case Logout => InitialState.(isLoading := false)
    case UpdateProfile(p) => state.(user := JObj(Spread(state.user) + Spread(p)))
    case ClearError => state.(error := JNull)
    case Other(_, _) => state
  }

  /** Dispatches the actions in order. */
  function ReduceAll(state: AuthState, actions: seq<Action>): AuthState
    decreases |actions|
  {
    if |actions| == 0 then state else ReduceAll(Reduce(state, actions[0]), actions[1..])
  }

  /** An authenticated state carries no error. */
  predicate NoErrorWhenAuthenticated(s: AuthState) {
    s.isAuthenticated ==> s.error == JNull
  }

  /** Every state reached from the initial one by any actions keeps the invariant. */
  lemma {:induction false} ReachableStatesHaveNoStaleError(state: AuthState, actions: seq<Action>)
    requires NoErrorWhenAuthenticated(state)
    ensures NoErrorWhenAuthenticated(ReduceAll(state, actions))
    decreases |actions|
  {
    if |actions| > 0 {
      ReachableStatesHaveNoStaleError(Reduce(state, actions[0]), actions[1..]);
    }
  }

  /** Logging out forgets everything before it. */
  lemma LogoutForgets(s1: AuthState, s2: AuthState)
    ensures Reduce(s1, Logout) == Reduce(s2, Logout)
    ensures !Reduce(s1, Logout).isAuthenticated && Reduce(s1, Logout).user == JNull
  {
  }

  /** Repeating the same profile update or error clear changes nothing further. */
  lemma UpdatesIdempotent(s: AuthState, p: Json)
    ensures Reduce(Reduce(s, UpdateProfile(p)), UpdateProfile(p)) == Reduce(s, UpdateProfile(p))
    ensures Reduce(Reduce(s, ClearError), ClearError) == Reduce(s, ClearError)
  {
    var u := Spread(s.user) + Spread(p);
    assert u + Spread(p) == u;
  }

  /**
   * A profile update after logging out gives an unauthenticated state a
   * user object made of the update alone.
   */
  lemma UpdateAfterLogout(s: AuthState, fields: map<string, Json>)
    ensures var r := Reduce(Reduce(s, Logout), UpdateProfile(JObj(fields)));
            !r.isAuthenticated && r.user == JObj(fields)
  {
    assert map[] + fields == fields;
  }

  /** `state.user?.role`. */
  function UserRole(s: AuthState): Json {
    Field(s.user, "role")
  }

  /** `state.user?.role === role`. */
  predicate HasRole(s: AuthState, role: Json) {
    StrictEq(UserRole(s), role)
  }

  /** `roles.includes(state.user?.role)`. */
  predicate HasAnyRole(s: AuthState, roles: seq<Json>) {
    Includes(roles, UserRole(s))
  }

  /** Having any of a list of roles means having one of them. */
  lemma HasAnyRoleMeansSomeRole(s: AuthState, roles: seq<Json>)
    ensures HasAnyRole(s, roles) <==> exists i :: 0 <= i < |roles| && HasRole(s, roles[i])
    ensures HasAnyRole(s, []) == false
  {
    forall i | 0 <= i < |roles| ensures StrictEq(roles[i], UserRole(s)) <==> HasRole(s, roles[i]) {
      StrictEqSymmetric(roles[i], UserRole(s));
    }
  }

  lemma StrictEqSymmetric(a: Json, b: Json)
    ensures StrictEq(a, b) <==> StrictEq(b, a)
  {
  }

  /** With nobody logged in, asking for the role `undefined` succeeds and any named role fails. */
  lemma LoggedOutRoles(s: AuthState, role: string)
    requires s.user == JNull
    ensures HasRole(s, JUndefined) && !HasRole(s, JStr(role))
  {
  }
}

=== FILE: countries.dfy ===
/**
 * The country service: a fixed table of countries (ISO 3166 alpha-2 code,
 * English name, ISO 4217 currency) with lookup by code, search by name or
 * code, a region index and a name sort that reorders the table in place.
 * Name order (`localeCompare`) is code-point order here.
 */
module Countries {
  import opened Wrappers
  import opened Text
  import opened Seqs
  import opened Sorting

  datatype Country = Country(code: string, name: string, currency: string)

  /** The table the service is constructed with. */
  const CountryTable: seq<Country> := [
      Country("AF", "Afghanistan", "AFN"),
      Country("AL", "Albania", "ALL"),
      Country("DZ", "Algeria", "DZD"),
      Country("AS", "American Samoa", "USD"),
      Country("AD", "Andorra", "EUR"),
      Country("AO", "Angola", "AOA"),
      Country("AI", "Anguilla", "XCD"),
      Country("AQ", "Antarctica", "USD"),
      Country("AG", "Antigua and Barbuda", "XCD"),
      Country("AR", "Argentina", "ARS"),
      Country("AM", "Armenia", "AMD"),
      Country("AW", "Aruba", "AWG"),
      Country("AU", "Australia", "AUD"),
      Country("AT", "Austria", "EUR"),
      Country("AZ", "Azerbaijan", "AZN"),
      Country("BS", "Bahamas", "BSD"),
      Country("BH", "Bahrain", "BHD"),
      Country("BD", "Bangladesh", "BDT"),
      Country("BB", "Barbados", "BBD"),
      Country("BY", "Belarus", "BYN"),
      Country("BE", "Belgium", "EUR"),
      Country("BZ", "Belize", "BZD"),
      Country("BJ", "Benin", "XOF"),
      Country("BM", "Bermuda", "BMD"),
      Country("BT", "Bhutan", "BTN"),
      Country("BO", "Bolivia", "BOB"),
      Country("BA", "Bosnia and Herzegovina", "BAM"),
      Country("BW", "Botswana", "BWP"),
      Country("BR", "Brazil", "BRL"),
      Country("BN", "Brunei", "BND"),
      Country("BG", "Bulgaria", "BGN"),
      Country("BF", "Burkina Faso", "XOF"),
      Country("BI", "Burundi", "BIF"),
      Country("CV", "Cabo Verde", "CVE"),
      Country("KH", "Cambodia", "KHR"),
      Country("CM", "Cameroon", "XAF"),
      Country("CA", "Canada", "CAD"),
      Country("KY", "Cayman Islands", "KYD"),
      Country("CF", "Central African Republic", "XAF"),
      Country("TD", "Chad", "XAF"),
      Country("CL", "Chile", "CLP"),
      Country("CN", "China", "CNY"),
      Country("CO", "Colombia", "COP"),
      Country("KM", "Comoros", "KMF"),
      Country("CG", "Congo", "XAF"),
      Country("CD", "Congo (Democratic Republic)", "CDF"),
      Country("CK", "Cook Islands", "NZD"),
      Country("CR", "Costa Rica", "CRC"),
      Country("CI", "C\U{00F4}te d'Ivoire", "XOF"),
      Country("HR", "Croatia", "EUR"),
      Country("CU", "Cuba", "CUP"),
      Country("CW", "Cura\U{00E7}ao", "ANG"),
      Country("CY", "Cyprus", "EUR"),
      Country("CZ", "Czech Republic", "CZK"),
      Country("DK", "Denmark", "DKK"),
      Country("DJ", "Djibouti", "DJF"),
      Country("DM", "Dominica", "XCD"),
      Country("DO", "Dominican Republic", "DOP"),
      Country("EC", "Ecuador", "USD"),
      Country("EG", "Egypt", "EGP"),
      Country("SV", "El Salvador", "USD"),
      Country("GQ", "Equatorial Guinea", "XAF"),
      Country("ER", "Eritrea", "ERN"),
      Country("EE", "Estonia", "EUR"),
      Country("SZ", "Eswatini", "SZL"),
      Country("ET", "Ethiopia", "ETB"),
      Country("FK", "Falkland Islands", "FKP"),
      Country("FO", "Faroe Islands", "DKK"),
      Country("FJ", "Fiji", "FJD"),
      Country("FI", "Finland", "EUR"),
      Country("FR", "France", "EUR"),
      Country("GF", "French Guiana", "EUR"),
      Country("PF", "French Polynesia", "XPF"),
      Country("GA", "Gabon", "XAF"),
      Country("GM", "Gambia", "GMD"),
      Country("GE", "Georgia", "GEL"),
      Country("DE", "Germany", "EUR"),
      Country("GH", "Ghana", "GHS"),
      Country("GI", "Gibraltar", "GIP"),
      Country("GR", "Greece", "EUR"),
      Country("GL", "Greenland", "DKK"),
      Country("GD", "Grenada", "XCD"),
      Country("GP", "Guadeloupe", "EUR"),
      Country("GU", "Guam", "USD"),
      Country("GT", "Guatemala", "GTQ"),
      Country("GG", "Guernsey", "GBP"),
      Country("GN", "Guinea", "GNF"),
      Country("GW", "Guinea-Bissau", "XOF"),
      Country("GY", "Guyana", "GYD"),
      Country("HT", "Haiti", "HTG"),
      Country("HN", "Honduras", "HNL"),
      Country("HK", "Hong Kong", "HKD"),
      Country("HU", "Hungary", "HUF"),
      Country("IS", "Iceland", "ISK"),
      Country("IN", "India", "INR"),
      Country("ID", "Indonesia", "IDR"),
      Country("IR", "Iran", "IRR"),
      Country("IQ", "Iraq", "IQD"),
      Country("IE", "Ireland", "EUR"),
      Country("IM", "Isle of Man", "GBP"),
      Country("IL", "Israel", "ILS"),
      Country("IT", "Italy", "EUR"),
      Country("JM", "Jamaica", "JMD"),
      Country("JP", "Japan", "JPY"),
      Country("JE", "Jersey", "GBP"),
      Country("JO", "Jordan", "JOD"),
      Country("KZ", "Kazakhstan", "KZT"),
      Country("KE", "Kenya", "KES"),
      Country("KI", "Kiribati", "AUD"),
      Country("KP", "Korea (North)", "KPW"),
      Country("KR", "Korea (South)", "KRW"),
      Country("KW", "Kuwait", "KWD"),
      Country("KG", "Kyrgyzstan", "KGS"),
      Country("LA", "Laos", "LAK"),
      Country("LV", "Latvia", "EUR"),
      Country("LB", "Lebanon", "LBP"),
      Country("LS", "Lesotho", "LSL"),
      Country("LR", "Liberia", "LRD"),
      Country("LY", "Libya", "LYD"),
      Country("LI", "Liechtenstein", "CHF"),
      Country("LT", "Lithuania", "EUR"),
      Country("LU", "Luxembourg", "EUR"),
      Country("MO", "Macao", "MOP"),
      Country("MK", "Macedonia", "MKD"),
      Country("MG", "Madagascar", "MGA"),
      Country("MW", "Malawi", "MWK"),
      Country("MY", "Malaysia", "MYR"),
      Country("MV", "Maldives", "MVR"),
      Country("ML", "Mali", "XOF"),
      Country("MT", "Malta", "EUR"),
      Country("MH", "Marshall Islands", "USD"),
      Country("MQ", "Martinique", "EUR"),
      Country("MR", "Mauritania", "MRU"),
      Country("MU", "Mauritius", "MUR"),
      Country("YT", "Mayotte", "EUR"),
      Country("MX", "Mexico", "MXN"),
      Country("FM", "Micronesia", "USD"),
      Country("MD", "Moldova", "MDL"),
      Country("MC", "Monaco", "EUR"),
      Country("MN", "Mongolia", "MNT"),
      Country("ME", "Montenegro", "EUR"),
      Country("MS", "Montserrat", "XCD"),
      Country("MA", "Morocco", "MAD"),
      Country("MZ", "Mozambique", "MZN"),
      Country("MM", "Myanmar", "MMK"),
      Country("NA", "Namibia", "NAD"),
      Country("NR", "Nauru", "AUD"),
      Country("NP", "Nepal", "NPR"),
      Country("NL", "Netherlands", "EUR"),
      Country("NC", "New Caledonia", "XPF"),
      Country("NZ", "New Zealand", "NZD"),
      Country("NI", "Nicaragua", "NIO"),
      Country("NE", "Niger", "XOF"),
      Country("NG", "Nigeria", "NGN"),
      Country("NU", "Niue", "NZD"),
      Country("NF", "Norfolk Island", "AUD"),
      Country("MP", "Northern Mariana Islands", "USD"),
      Country("NO", "Norway", "NOK"),
      Country("OM", "Oman", "OMR"),
      Country("PK", "Pakistan", "PKR"),
      Country("PW", "Palau", "USD"),
      Country("PS", "Palestine", "ILS"),
      Country("PA", "Panama", "PAB"),
      Country("PG", "Papua New Guinea", "PGK"),
      Country("PY", "Paraguay", "PYG"),
      Country("PE", "Peru", "PEN"),
      Country("PH", "Philippines", "PHP"),
      Country("PN", "Pitcairn", "NZD"),
      Country("PL", "Poland", "PLN"),
      Country("PT", "Portugal", "EUR"),
      Country("PR", "Puerto Rico", "USD"),
      Country("QA", "Qatar", "QAR"),
      Country("RE", "R\U{00E9}union", "EUR"),
      Country("RO", "Romania", "RON"),
      Country("RU", "Russia", "RUB"),
      Country("RW", "Rwanda", "RWF"),
      Country("BL", "Saint Barth\U{00E9}lemy", "EUR"),
      Country("SH", "Saint Helena", "SHP"),
      Country("KN", "Saint Kitts and Nevis", "XCD"),
      Country("LC", "Saint Lucia", "XCD"),
      Country("MF", "Saint Martin", "EUR"),
      Country("PM", "Saint Pierre and Miquelon", "EUR"),
      Country("VC", "Saint Vincent and the Grenadines", "XCD"),
      Country("WS", "Samoa", "WST"),
      Country("SM", "San Marino", "EUR"),
      Country("ST", "Sao Tome and Principe", "STN"),
      Country("SA", "Saudi Arabia", "SAR"),
      Country("SN", "Senegal", "XOF"),
      Country("RS", "Serbia", "RSD"),
      Country("SC", "Seychelles", "SCR"),
      Country("SL", "Sierra Leone", "SLL"),
      Country("SG", "Singapore", "SGD"),
      Country("SX", "Sint Maarten", "ANG"),
      Country("SK", "Slovakia", "EUR"),
      Country("SI", "Slovenia", "EUR"),
      Country("SB", "Solomon Islands", "SBD"),
      Country("SO", "Somalia", "SOS"),
      Country("ZA", "South Africa", "ZAR"),
      Country("GS", "South Georgia and South Sandwich Islands", "GBP"),
      Country("SS", "South Sudan", "SSP"),
      Country("ES", "Spain", "EUR"),
      Country("LK", "Sri Lanka", "LKR"),
      Country("SD", "Sudan", "SDG"),
      Country("SR", "Suriname", "SRD"),
      Country("SJ", "Svalbard and Jan Mayen", "NOK"),
      Country("SE", "Sweden", "SEK"),
      Country("CH", "Switzerland", "CHF"),
      Country("SY", "Syria", "SYP"),
      Country("TW", "Taiwan", "TWD"),
      Country("TJ", "Tajikistan", "TJS"),
      Country("TZ", "Tanzania", "TZS"),
      Country("TH", "Thailand", "THB"),
      Country("TL", "Timor-Leste", "USD"),
      Country("TG", "Togo", "XOF"),
      Country("TK", "Tokelau", "NZD"),
      Country("TO", "Tonga", "TOP"),
      Country("TT", "Trinidad and Tobago", "TTD"),
      Country("TN", "Tunisia", "TND"),
      Country("TR", "Turkey", "TRY"),
      Country("TM", "Turkmenistan", "TMT"),
      Country("TC", "Turks and Caicos Islands", "USD"),
      Country("TV", "Tuvalu", "AUD"),
      Country("UG", "Uganda", "UGX"),
      Country("UA", "Ukraine", "UAH"),
      Country("AE", "United Arab Emirates", "AED"),
      Country("GB", "United Kingdom", "GBP"),
      Country("US", "United States", "USD"),
      Country("UM", "United States Minor Outlying Islands", "USD"),
      Country("UY", "Uruguay", "UYU"),
      Country("UZ", "Uzbekistan", "UZS"),
      Country("VU", "Vanuatu", "VUV"),
      Country("VA", "Vatican City", "EUR"),
      Country("VE", "Venezuela", "VES"),
      Country("VN", "Vietnam", "VND"),
      Country("VG", "Virgin Islands (British)", "USD"),
      Country("VI", "Virgin Islands (US)", "USD"),
      Country("WF", "Wallis and Futuna", "XPF"),
      Country("EH", "Western Sahara", "MAD"),
      Country("YE", "Yemen", "YER"),
      Country("ZM", "Zambia", "ZMW"),
      Country("ZW", "Zimbabwe", "ZWL")
    ]

  /** The region index, keyed by lower-case region name. */
  const Regions: map<string, seq<string>> := map[
      "europe" := ["GB", "IE", "FR", "DE", "IT", "ES", "PT", "NL", "BE", "LU", "CH", "AT", "SE", "NO", "DK", "FI", "IS", "GR", "PL", "CZ", "SK", "HU", "SI", "HR", "BA", "RS", "ME", "MK", "AL", "BG", "RO", "MD", "UA", "BY", "LT", "LV", "EE", "RU"],
      "north_america" := ["US", "CA", "MX", "GT", "BZ", "SV", "HN", "NI", "CR", "PA"],
      "south_america" := ["BR", "AR", "CL", "PE", "CO", "VE", "EC", "BO", "PY", "UY", "GY", "SR", "GF"],
      "asia" := ["CN", "JP", "KR", "IN", "ID", "TH", "VN", "MY", "SG", "PH", "BD", "PK", "LK", "MM", "KH", "LA", "NP", "BT", "MN", "KZ", "UZ", "TM", "KG", "TJ", "AF", "IR", "IQ", "SY", "JO", "LB", "IL", "PS", "SA", "AE", "OM", "YE", "KW", "QA", "BH"],
      "africa" := ["ZA", "NG", "EG", "KE", "ET", "UG", "TZ", "GH", "MZ", "MG", "CM", "CI", "NE", "BF", "ML", "MW", "ZM", "ZW", "BW", "NA", "SZ", "LS", "MA", "DZ", "TN", "LY", "SD", "SS", "ER", "DJ", "SO", "CF", "TD", "GA", "GQ", "ST", "CV", "GM", "GW", "SL", "LR", "SN", "MR", "BI", "RW", "KM", "SC", "MU"],
      "oceania" := ["AU", "NZ", "FJ", "PG", "SB", "NC", "PF", "VU", "WS", "KI", "TO", "NR", "PW", "FM", "MH", "TV", "CK", "NU", "TK"]
    ]

  /** The service instance: its country array, shared by every call. */
  datatype CountryService = CountryService(countries: seq<Country>)

  const InitialService: CountryService := CountryService(CountryTable)

  // ----------------------------------------------------------------- lookup

  /** Codes are compared ignoring (ASCII) case. */
  predicate CodeMatches(c: Country, code: string) {
    Lower(c.code) == Lower(code)
  }

  /** The first country whose code matches, or nothing. */
  function GetCountryByCode(cs: seq<Country>, code: string): (r: Option<Country>)
    ensures r.Some? ==> exists i :: 0 <= i < |cs| && cs[i] == r.value
                          && forall j :: 0 <= j < i ==> !CodeMatches(cs[j], code)
    ensures r.Some? ==> CodeMatches(r.value, code)
    ensures r.None? ==> forall c :: c in cs ==> !CodeMatches(c, code)
  {
    match FindIndex(cs, (c: Country) => CodeMatches(c, code))
    case None => None
    case Some(k) => Some(cs[k])
  }

  /** `some` country's code matches. */
  predicate IsValidCountryCode(cs: seq<Country>, code: string) {
    exists c :: c in cs && CodeMatches(c, code)
  }

  /** A code is valid exactly when the lookup finds a country. */
  lemma ValidIffFound(cs: seq<Country>, code: string)
    ensures IsValidCountryCode(cs, code) <==> GetCountryByCode(cs, code).Some?
  {
    if GetCountryByCode(cs, code).Some? {
      var i :| 0 <= i < |cs| && cs[i] == GetCountryByCode(cs, code).value;
      assert cs[i] in cs;
    }
  }

  /** The currency of the country found, `null` when none is. */
  function GetCurrencyByCountry(cs: seq<Country>, code: string): (r: Option<string>)
    ensures r.None? <==> !IsValidCountryCode(cs, code)
    ensures r.Some? ==> exists c :: c in cs && CodeMatches(c, code) && c.currency == r.value
  {
    ValidIffFound(cs, code);
    match GetCountryByCode(cs, code)
    case None => None
    case Some(c) => Some(c.currency)
  }

  // ------------------------------------------------------------------ order

  /** `a.name.localeCompare(b.name) <= 0`. */
  predicate NameBefore(a: Country, b: Country) {
    !StrLess(b.name, a.name)
  }

  lemma NameOrderIsPreorder()
    ensures TotalPreorder(NameBefore)
  {
    forall a: Country, b: Country ensures NameBefore(a, b) || NameBefore(b, a) {
      StrLessTrichotomy(a.name, b.name);
    }
    forall a: Country, b: Country, c: Country | NameBefore(a, b) && NameBefore(b, c)
      ensures NameBefore(a, c)
    {
      StrLessTrichotomy(a.name, b.name);
      StrLessTrichotomy(b.name, c.name);
      if StrLess(a.name, b.name) && StrLess(b.name, c.name) {
        StrLessTransitive(a.name, b.name, c.name);
      }
      StrLessTrichotomy(a.name, c.name);
    }
  }

  /** Reorders the service's own array by name and returns copies of it in that order. */
  function GetCountriesSorted(svc: CountryService): (r: (CountryService, seq<Country>))
    ensures r.0.countries == r.1
    ensures multiset(r.1) == multiset(svc.countries)
    ensures SortedBy(r.1, NameBefore)
  {
    NameOrderIsPreorder();
    var sorted := Sort(svc.countries, NameBefore);
    (CountryService(sorted), sorted)
  }

  /** The in-place sort keeps the set of countries, so every code lookup keeps its answer. */
  lemma SortingKeepsValidity(svc: CountryService, code: string)
    ensures IsValidCountryCode(GetCountriesSorted(svc).0.countries, code) <==> IsValidCountryCode(svc.countries, code)
  {
    var cs := GetCountriesSorted(svc).0.countries;
    forall c | c in cs ensures c in svc.countries {
      assert c in multiset(cs);
    }
    forall c | c in svc.countries ensures c in cs {
      assert c in multiset(svc.countries);
    }
  }

  // ----------------------------------------------------------------- search

  /** The name starts with the lower-cased search term. */
  predicate NameStarts(c: Country, term: string) {
    StartsWith(Lower(c.name), term)
  }

  /** The name or the code contains the lower-cased search term. */
  predicate SearchHit(c: Country, term: string) {
    Contains(Lower(c.name), term) || Contains(Lower(c.code), term)
  }

  /** Name-prefix hits first, then by name. */
  predicate SearchBefore(term: string, a: Country, b: Country) {
    (NameStarts(a, term) && !NameStarts(b, term))
    || (NameStarts(a, term) == NameStarts(b, term) && NameBefore(a, b))
  }

  lemma SearchOrderIsPreorder(term: string)
    ensures TotalPreorder((a, b) => SearchBefore(term, a, b))
  {
    NameOrderIsPreorder();
  }

  const SearchLimit: nat := 20

  /**
   * Countries whose name or code contains the query (ignoring case), those
   * whose name starts with it first, at most twenty; nothing for a missing
   * or one-character query.
   */
  function SearchCountries(cs: seq<Country>, query: Option<string>): (r: seq<Country>)
    ensures query.None? || |query.value| < 2 ==> r == []
    ensures |r| <= SearchLimit
    ensures forall i :: 0 <= i < |r| ==> r[i] in cs && SearchHit(r[i], Lower(query.value))
    ensures forall i, j :: 0 <= i < j < |r| && NameStarts(r[j], Lower(query.value)) ==> NameStarts(r[i], Lower(query.value))
    ensures forall i, j :: 0 <= i < j < |r| && NameStarts(r[i], Lower(query.value)) == NameStarts(r[j], Lower(query.value))
              ==> NameBefore(r[i], r[j])
  {
    if query.None? || |query.value| < 2 then []
    else
      var term := Lower(query.value);
      var hits := Filter(cs, (c: Country) => SearchHit(c, term));
      SearchOrderIsPreorder(term);
      var sorted := Sort(hits, (a, b) => SearchBefore(term, a, b));
      var r := if |sorted| <= SearchLimit then sorted else sorted[..SearchLimit];
      assert forall i :: 0 <= i < |r| ==> r[i] == sorted[i];
      forall i | 0 <= i < |r| ensures r[i] in cs && SearchHit(r[i], term) {
        InMultiset(sorted, hits, i);
      }
      r
  }

  /** With at most twenty hits none is dropped. */
  lemma SearchComplete(cs: seq<Country>, query: string, c: Country)
    requires |query| >= 2 && c in cs && SearchHit(c, Lower(query))
    requires |Filter(cs, (x: Country) => SearchHit(x, Lower(query)))| <= SearchLimit
    ensures c in SearchCountries(cs, Some(query))
  {
    var term := Lower(query);
    var hits := Filter(cs, (x: Country) => SearchHit(x, term));
    SearchOrderIsPreorder(term);
    var sorted := Sort(hits, (a, b) => SearchBefore(term, a, b));
    assert c in multiset(hits);
  }

  // ---------------------------------------------------------------- regions

  /** Region keys `regions[key]` resolves through the object prototype. */
  predicate InheritedKey(key: string) {
    key == "constructor" || key == "__proto__"
  }

  /** Looks each code up in turn and keeps those found. */
  function FoundCountries(cs: seq<Country>, codes: seq<string>): (r: seq<Country>)
    ensures |r| <= |codes|
    ensures forall i :: 0 <= i < |r| ==> r[i] in cs && exists k :: 0 <= k < |codes| && CodeMatches(r[i], codes[k])
  {
    if |codes| == 0 then []
    else
      var rest := FoundCountries(cs, codes[1..]);
      assert forall i :: 0 <= i < |rest| ==> exists k :: 0 <= k < |codes| && CodeMatches(rest[i], codes[k]) by {
        forall i | 0 <= i < |rest| ensures exists k :: 0 <= k < |codes| && CodeMatches(rest[i], codes[k]) {
          var k :| 0 <= k < |codes[1..]| && CodeMatches(rest[i], codes[1..][k]);
          assert codes[k + 1] == codes[1..][k];
        }
      }
      match GetCountryByCode(cs, codes[0])
      case None => rest
      case Some(c) => [c] + rest
  }

  /** Every listed code that the table knows contributes its country. */
  lemma {:induction false} FoundCountriesComplete(cs: seq<Country>, codes: seq<string>)
    ensures forall k :: 0 <= k < |codes| && GetCountryByCode(cs, codes[k]).Some? ==>
              GetCountryByCode(cs, codes[k]).value in FoundCountries(cs, codes)
    decreases |codes|
  {
    if |codes| > 0 {
      var rest := FoundCountries(cs, codes[1..]);
      FoundCountriesComplete(cs, codes[1..]);
      assert FoundCountries(cs, codes) == (if GetCountryByCode(cs, codes[0]).Some? then [GetCountryByCode(cs, codes[0]).value] else []) + rest;
      forall k | 0 <= k < |codes| && GetCountryByCode(cs, codes[k]).Some?
        ensures GetCountryByCode(cs, codes[k]).value in FoundCountries(cs, codes)
      {
        if k > 0 {
          assert codes[k] == codes[1..][k - 1];
        }
      }
    }
  }

  /**
   * The countries of a region, sorted by name: an unknown region gives none,
   * and a region name that is an inherited object key (`constructor`,
   * `__proto__`) throws, since the value found is not an array.
   */
  function GetCountriesByRegion(cs: seq<Country>, region: string): (r: Result<seq<Country>, string>)
    ensures r.Failure? <==> InheritedKey(Lower(region))
    ensures r.Success? && Lower(region) !in Regions ==> r.value == []
    ensures r.Success? ==> SortedBy(r.value, NameBefore)
    ensures r.Success? ==> forall i :: 0 <= i < |r.value| ==> r.value[i] in cs
    ensures r.Success? && Lower(region) in Regions ==>
              forall i :: 0 <= i < |r.value| ==> exists k :: 0 <= k < |Regions[Lower(region)]| && CodeMatches(r.value[i], Regions[Lower(region)][k])
    ensures r.Success? && Lower(region) in Regions ==>
              && multiset(r.value) == multiset(FoundCountries(cs, Regions[Lower(region)]))
              && forall k :: 0 <= k < |Regions[Lower(region)]| && GetCountryByCode(cs, Regions[Lower(region)][k]).Some? ==>
                   GetCountryByCode(cs, Regions[Lower(region)][k]).value in r.value
  {
    var key := Lower(region);
    if InheritedKey(key) then Failure("countryCodes.map is not a function")
    else
      var codes := if key in Regions then Regions[key] else [];
      var found := FoundCountries(cs, codes);
      NameOrderIsPreorder();
      var sorted := Sort(found, NameBefore);
      forall i | 0 <= i < |sorted| ensures sorted[i] in found {
        InMultiset(sorted, found, i);
      }
      SameMembers(sorted, found);
      FoundCountriesComplete(cs, codes);
      Success(sorted)
  }
}

=== FILE: expenses.dfy ===
/**
 * The expense record (src/models/Expense.js): its lifecycle status, the
 * ownership and approval permission checks, and the derived flags.
 * Amounts are integer cents.
 */
module Expenses {
  import opened Wrappers
  import opened Users
  import opened Json
  import Text

  /** The `status` column's ENUM. */
  datatype ExpenseStatus = Draft | Submitted | InApproval | Approved | Rejected | Paid

  const DefaultStatus: ExpenseStatus := Draft

  function StatusName(s: ExpenseStatus): string {
    match s
    case Draft => "draft"
    case Submitted => "submitted"
    case InApproval => "in_approval"
    case Approved => "approved"
    case Rejected => "rejected"
    case Paid => "paid"
  }

  /** Reading the ENUM column: exactly the six declared names are accepted. */
  function ParseStatus(s: string): (r: Option<ExpenseStatus>)
    ensures r.Some? ==> StatusName(r.value) == s
    ensures r.None? ==> forall st: ExpenseStatus :: StatusName(st) != s
  {
    if s == "draft" then Some(Draft)
    else if s == "submitted" then Some(Submitted)
    else if s == "in_approval" then Some(InApproval)
    else if s == "approved" then Some(Approved)
    else if s == "rejected" then Some(Rejected)
    else if s == "paid" then Some(Paid)
    else None
  }

  lemma StatusRoundTrip(st: ExpenseStatus)
    ensures ParseStatus(StatusName(st)) == Some(st)
  {
  }

  /** The `min: 0.01` validation on `amount`, in cents. */
  const MinAmountCents: int := 1

  /** Receipts are required from 25.00 in company currency. */
  const ReceiptThresholdCents: int := 2500

  datatype Expense = Expense(
    id: nat,
    userId: nat,
    companyId: nat,
    workflowId: Option<nat>,
    amount: int,
    currency: string,
    amountInCompanyCurrency: int,
    categoryId: nat,
    description: string,
    expenseDate: string,          // `DATEONLY`, read as its "YYYY-MM-DD" text
    receiptUrl: Option<string>,
    receiptData: Json,            // the OCR `JSON` column, `null` when absent
    status: ExpenseStatus,
    currentApprovalStep: int,
    submittedAt: Option<int>,
    approvedAt: Option<int>,
    rejectedAt: Option<int>,
    rejectionReason: Option<string>,
    createdAt: int,
    updatedAt: int)

  /** The `min: 0.01` validation of `amount`: at least one cent. */
  predicate ValidAmount(e: Expense) {
    e.amount >= MinAmountCents
  }

  /** A failed column validator of `Expense.create`. */
  datatype ValidationError = AmountBelowMinimum | DescriptionEmpty

  /**
   * Sequelize's `notEmpty` on `description`: the text is empty or all
   * whitespace (`/^[\s\t\r\n]*$/`).
   */
  predicate DescriptionBlank(description: string) {
    Text.AllWhitespace(description)
  }

  /** Every validator that fails, in column order: Sequelize reports them together. */
  function Violations(amount: int, description: string): (errs: seq<ValidationError>)
    ensures AmountBelowMinimum in errs <==> amount < MinAmountCents
    ensures DescriptionEmpty in errs <==> DescriptionBlank(description)
    ensures |errs| == 0 <==> amount >= MinAmountCents && !DescriptionBlank(description)
  {
    (if amount < MinAmountCents then [AmountBelowMinimum] else [])
    + (if DescriptionBlank(description) then [DescriptionEmpty] else [])
  }

  /**
   * `Expense.create` with the column defaults: the validators reject an
   * amount below one cent and a blank description, reporting every
   * failure; otherwise a draft with no workflow, step 0, no receipt and
   * none of the submission, approval or rejection dates is created at `now`.
   */
  function NewExpense(id: nat, userId: nat, companyId: nat, amount: int, currency: string,
                      converted: int, categoryId: nat, description: string, expenseDate: string, now: int)
    : (r: Result<Expense, seq<ValidationError>>)
    ensures r.Failure? <==> amount < MinAmountCents || Text.AllWhitespace(description)
    ensures r.Failure? ==> (AmountBelowMinimum in r.error <==> amount < MinAmountCents)
                           && (DescriptionEmpty in r.error <==> Text.AllWhitespace(description))
    ensures r.Success? ==> ValidAmount(r.value) && !Text.AllWhitespace(r.value.description)
    ensures r.Success? ==> var e := r.value;
              && e.id == id && e.userId == userId && e.companyId == companyId
              && e.amount == amount && e.amountInCompanyCurrency == converted && e.categoryId == categoryId
              && e.description == description
              && e.status == Draft && e.currentApprovalStep == 0 && e.workflowId.None?
              && e.receiptUrl.None? && e.receiptData == JNull
              && e.submittedAt.None? && e.approvedAt.None? && e.rejectedAt.None? && e.rejectionReason.None?
              && e.createdAt == now && e.updatedAt == now
  {
    var errs := Violations(amount, description);
    if |errs| > 0 then Failure(errs)
    else Success(Expense(id, userId, companyId, None, amount, currency, converted, categoryId, description, expenseDate,
                         None, JNull, DefaultStatus, 0, None, None, None, None, now, now))
  }

  predicate CanBeEditedBy(e: Expense, u: User) {
    e.userId == u.id && e.status == Draft
  }

  predicate CanBeDeletedBy(e: Expense, u: User) {
    e.userId == u.id && e.status == Draft
  }

  predicate CanBeSubmittedBy(e: Expense, u: User) {
    e.userId == u.id && e.status == Draft
  }

  /**
   * The owner's rights coincide: editing, deleting and submitting are all
   * allowed exactly to the owner of a draft, and to nobody once it leaves draft.
   */
  lemma OwnerRightsOnlyOnDrafts(e: Expense, u: User)
    ensures CanBeEditedBy(e, u) == CanBeDeletedBy(e, u) == CanBeSubmittedBy(e, u)
    ensures CanBeEditedBy(e, u) <==> (u.id == e.userId && StatusName(e.status) == "draft")
    ensures e.status != Draft ==> !CanBeEditedBy(e, u) && !CanBeDeletedBy(e, u) && !CanBeSubmittedBy(e, u)
  {
  }

  /**
   * A created expense starts its life valid and editable: 0.01 is the
   * smallest amount accepted, an empty or blank description is refused, its
   * owner may edit, delete and submit it, and its status date is the
   * creation time.
   */
  lemma NewExpenseLifecycle(id: nat, userId: nat, companyId: nat, amount: int, currency: string,
                            converted: int, categoryId: nat, description: string, expenseDate: string,
                            now: int, owner: User)
    requires owner.id == userId
    ensures var r := NewExpense(id, userId, companyId, amount, currency, converted, categoryId, description, expenseDate, now);
            && (amount <= 0 ==> r.Failure?)
            && (description == "" || description == "   " ==> r.Failure? && DescriptionEmpty in r.error)
            && (amount == 1 && !Text.AllWhitespace(description) ==> r.Success?)
            && (r.Success? ==> CanBeEditedBy(r.value, owner) && CanBeSubmittedBy(r.value, owner)
                               && CanBeDeletedBy(r.value, owner) && GetStatusDate(r.value) == Some(now))
  {
  }

  /** `canBeApprovedBy`: any approving user while the expense is in approval. */
  predicate CanBeApprovedBy(e: Expense, u: User) {
    e.status == InApproval && CanApprove(u)
  }

  /**
   * The check does not look at the approval steps: it depends only on the
   * status and on the user's capability, never on who the step's approver is.
   */
  lemma CanBeApprovedByIgnoresAssignment(e: Expense, u: User, v: User)
    requires u.role == v.role && u.isManagerApprover == v.isManagerApprover
    ensures CanBeApprovedBy(e, u) == CanBeApprovedBy(e, v)
    ensures CanBeApprovedBy(e, u) ==> StatusName(e.status) == "in_approval"
    ensures e.status == InApproval && u.role != Employee ==> CanBeApprovedBy(e, u)
  {
  }

  /** `isOverBudget`: a missing or zero budget is falsy and never flags. */
  function IsOverBudget(e: Expense, budget: Option<int>): (r: bool)
    ensures budget.None? || budget.value == 0 ==> !r
    ensures r ==> e.amountInCompanyCurrency > budget.value
    ensures budget.Some? && budget.value != 0 && e.amountInCompanyCurrency > budget.value ==> r
  {
    budget.Some? && budget.value != 0 && e.amountInCompanyCurrency > budget.value
  }

  /**
   * Being over budget is monotone: it persists when the company-currency
   * amount grows and when the budget shrinks to another nonzero value.
   */
  lemma OverBudgetMonotone(e: Expense, f: Expense, budget: int, smaller: int)
    ensures IsOverBudget(e, Some(budget)) && f.amountInCompanyCurrency >= e.amountInCompanyCurrency
            ==> IsOverBudget(f, Some(budget))
    ensures IsOverBudget(e, Some(budget)) && smaller <= budget && smaller != 0 ==> IsOverBudget(e, Some(smaller))
    ensures !IsOverBudget(e, Some(budget)) && budget != 0 ==> e.amountInCompanyCurrency <= budget
  {
  }

  function RequiresReceipt(e: Expense): bool {
    e.amountInCompanyCurrency >= ReceiptThresholdCents
  }

  /** Receipt requirement: at or above 25.00 in company currency, monotone in the amount. */
  lemma RequiresReceiptThreshold(e: Expense, f: Expense)
    ensures RequiresReceipt(e) <==> e.amountInCompanyCurrency >= 2500
    ensures RequiresReceipt(e) && f.amountInCompanyCurrency >= e.amountInCompanyCurrency ==> RequiresReceipt(f)
    ensures e.amountInCompanyCurrency == 2499 ==> !RequiresReceipt(e)
  {
  }

  /** `getStatusDate`: the timestamp of the transition that produced the current status. */
  function GetStatusDate(e: Expense): (r: Option<int>)
    ensures e.status in {Submitted, InApproval} ==> r == e.submittedAt
    ensures e.status == Approved ==> r == e.approvedAt
    ensures e.status == Rejected ==> r == e.rejectedAt
    ensures e.status in {Draft, Paid} ==> r == Some(e.updatedAt)
  {
    match e.status
    case Submitted => e.submittedAt
    case InApproval => e.submittedAt
    case Approved => e.approvedAt
    case Rejected => e.rejectedAt
    case _ => Some(e.updatedAt)
  }
}

=== FILE: helpers.dfy ===
/**
 * The pure string, pagination and query helpers of the server's utility
 * module.  Strings are sequences of characters; case mapping is ASCII.
 */
module Helpers {
  import opened Wrappers
  import opened Text

  // ---------------------------------------------------------------- paging

  datatype PaginationMeta = PaginationMeta(
    total: nat,
    page: int,
    limit: int,
    pages: nat,
    hasPrev: bool,
    hasNext: bool,
    prevPage: Option<int>,
    nextPage: Option<int>)

  /** `Math.ceil(count / limit)` for a positive limit. */
  function CeilDivNat(count: nat, limit: int): (q: nat)
    requires limit > 0
    ensures count == 0 ==> q == 0
    ensures count > 0 ==> (q - 1) * limit < count <= q * limit
  {
    CeilDivFacts(count, limit);
    (count + limit - 1) / limit
  }

  lemma CeilDivFacts(count: nat, limit: int)
    requires limit > 0
    ensures var q := (count + limit - 1) / limit;
            && (count == 0 ==> q == 0)
            && (count > 0 ==> (q - 1) * limit < count <= q * limit)
  {
    var n := count + limit - 1;
    var q := n / limit;
    assert n == q * limit + n % limit;
    assert (q - 1) * limit == q * limit - limit;
  }

  /** Page navigation metadata for `count` rows shown `limit` per page. */
  function GetPaginationMeta(count: nat, page: int, limit: int): (m: PaginationMeta)
    requires limit > 0
    ensures m.total == count && m.page == page && m.limit == limit
    ensures count == 0 ==> m.pages == 0
    ensures count > 0 ==> (m.pages - 1) * limit < count <= m.pages * limit
    ensures m.hasPrev <==> page > 1
    ensures m.hasNext <==> page < m.pages
    ensures m.prevPage == (if m.hasPrev then Some(page - 1) else None)
    ensures m.nextPage == (if m.hasNext then Some(page + 1) else None)
  {
    var pages := CeilDivNat(count, limit);
    PaginationMeta(count, page, limit, pages, page > 1, page < pages,
                   if page > 1 then Some(page - 1) else None,
                   if page < pages then Some(page + 1) else None)
  }

  /** Every in-range page links back and forth exactly to its in-range neighbours. */
  lemma PaginationNeighboursInRange(count: nat, page: int, limit: int)
    requires limit > 0 && 1 <= page
    requires page <= GetPaginationMeta(count, page, limit).pages
    ensures var m := GetPaginationMeta(count, page, limit);
            && (m.prevPage.Some? ==> 1 <= m.prevPage.value <= m.pages)
            && (m.nextPage.Some? ==> 1 <= m.nextPage.value <= m.pages)
            && (page == 1 <==> m.prevPage.None?)
            && (page == m.pages <==> m.nextPage.None?)
  {
  }

  /** Exactly enough pages: one page for up to `limit` rows, one more for every `limit` further rows. */
  lemma PagesCoverRows(count: nat, limit: int)
    requires limit > 0
    ensures 0 < count <= limit ==> GetPaginationMeta(count, 1, limit).pages == 1
    ensures count > 0 ==> GetPaginationMeta(count + limit, 1, limit).pages == GetPaginationMeta(count, 1, limit).pages + 1
  {
    var q := CeilDivNat(count, limit);
    var q' := CeilDivNat(count + limit, limit);
    if count > 0 {
      if count <= limit {
        MultipleUnique(count, limit, q, 1);
      }
      assert (q + 1 - 1) * limit == (q - 1) * limit + limit;
      assert (q + 1) * limit == q * limit + limit;
      MultipleUnique(count + limit, limit, q', q + 1);
    }
  }

  /** At most one page count covers `c` rows exactly. */
  lemma MultipleUnique(c: int, limit: int, q1: int, q2: int)
    requires limit > 0
    requires (q1 - 1) * limit < c <= q1 * limit
    requires (q2 - 1) * limit < c <= q2 * limit
    ensures q1 == q2
  {
    MulMono(q1, q2 - 1, limit);
    MulMono(q2, q1 - 1, limit);
  }

  lemma MulMono(a: int, b: int, limit: int)
    requires limit > 0
    ensures a <= b ==> a * limit <= b * limit
  {
    assert (b - a) * limit == b * limit - a * limit;
    if a <= b {
      assert (b - a) * limit >= 0;
    }
  }

  // ------------------------------------------------------------ date range

  /** The `where` fragment for one date column. */
  datatype DateQuery =
    | NoBounds
    | Between(field: string, start: string, end: string)
    | AtLeast(field: string, start: string)
    | AtMost(field: string, end: string)

  /** A query-string bound is given when it is present and non-empty. */
  predicate Given(d: Option<string>) {
    d.Some? && d.value != ""
  }

  function BuildDateRangeQuery(field: string, startDate: Option<string>, endDate: Option<string>): (q: DateQuery)
    ensures q.Between? <==> Given(startDate) && Given(endDate)
    ensures q.AtLeast? <==> Given(startDate) && !Given(endDate)
    ensures q.AtMost? <==> !Given(startDate) && Given(endDate)
    ensures q.NoBounds? <==> !Given(startDate) && !Given(endDate)
    ensures !q.NoBounds? ==> q.field == field
    ensures (q.Between? || q.AtLeast?) ==> q.start == startDate.value
    ensures (q.Between? || q.AtMost?) ==> q.end == endDate.value
  {
    if Given(startDate) && Given(endDate) then Between(field, startDate.value, endDate.value)
    else if Given(startDate) then AtLeast(field, startDate.value)
    else if Given(endDate) then AtMost(field, endDate.value)
    else NoBounds
  }

  /** Whether a date (ISO text, compared as text) satisfies the query. */
  predicate Admits(q: DateQuery, d: string) {
    match q
    case NoBounds => true
    case Between(_, s, e) => StrLe(s, d) && StrLe(d, e)
    case AtLeast(_, s) => StrLe(s, d)
    case AtMost(_, e) => StrLe(d, e)
  }

  /** Text order, `a <= b`. */
  predicate StrLe(a: string, b: string) {
    !StrLess(b, a)
  }

  /** The query admits exactly the dates within the given bounds. */
  lemma DateRangeMeaning(field: string, startDate: Option<string>, endDate: Option<string>, d: string)
    ensures Admits(BuildDateRangeQuery(field, startDate, endDate), d)
            <==> (Given(startDate) ==> StrLe(startDate.value, d)) && (Given(endDate) ==> StrLe(d, endDate.value))
  {
  }

  // -------------------------------------------------------------- currency

  /** `/^[A-Z]{3}$/`: exactly three capital ASCII letters. */
  predicate IsValidCurrencyCode(code: string) {
    |code| == 3 && forall i :: 0 <= i < 3 ==> IsUpper(code[i])
  }

  /** Case, length and letters all matter: the code must be exactly like "USD". */
  lemma CurrencyCodeShape(code: string)
    requires IsValidCurrencyCode(code)
    ensures Lower(code) != code
    ensures forall c :: c in code ==> Kept(c) && c != '.' && c != '-'
    ensures !IsValidCurrencyCode(Lower(code)) && !IsValidCurrencyCode(code + code[..1])
  {
    assert Lower(code)[0] != code[0];
  }

  // -------------------------------------------------------------- filenames

  /** The characters `[a-zA-Z0-9.-]` that survive sanitizing. */
  predicate Kept(c: char) {
    IsUpper(c) || IsLower(c) || IsDigit(c) || c == '.' || c == '-'
  }

  /** `replace(/[^a-zA-Z0-9.-]/g, '_')`. */
  function ReplaceUnsafe(s: string): (r: string)
    ensures |r| == |s|
    ensures forall i :: 0 <= i < |s| ==> r[i] == (if Kept(s[i]) then s[i] else '_')
  {
    if |s| == 0 then "" else [if Kept(s[0]) then s[0] else '_'] + ReplaceUnsafe(s[1..])
  }

  /** `replace(/_+/g, '_')`: every run of underscores becomes one. */
  function CollapseUnderscores(s: string): (r: string)
    ensures |r| <= |s|
    ensures forall c :: c in r ==> c in s
    ensures !DoubleUnderscore(r)
    ensures |s| > 0 ==> |r| > 0 && r[0] == s[0]
  {
    if |s| == 0 then ""
    else if |s| >= 2 && s[0] == '_' && s[1] == '_' then CollapseUnderscores(s[1..])
    else [s[0]] + CollapseUnderscores(s[1..])
  }

  /** Two adjacent underscores somewhere. */
  predicate DoubleUnderscore(s: string) {
    exists i :: 0 <= i < |s| - 1 && s[i] == '_' && s[i + 1] == '_'
  }

  /** Characters `[a-z0-9._-]` only. */
  predicate SafeChar(c: char) {
    IsLower(c) || IsDigit(c) || c == '.' || c == '-' || c == '_'
  }

  /** The shape of every sanitized name. */
  predicate Sanitized(s: string) {
    (forall i :: 0 <= i < |s| ==> SafeChar(s[i])) && !DoubleUnderscore(s)
  }

  function SanitizeFilename(filename: string): (r: string)
    ensures |r| <= |filename|
  {
    Lower(CollapseUnderscores(ReplaceUnsafe(filename)))
  }

  /** Lowering changes no underscore and creates none. */
  lemma LowerKeepsUnderscores(s: string)
    ensures DoubleUnderscore(Lower(s)) <==> DoubleUnderscore(s)
  {
    forall i | 0 <= i < |s| ensures Lower(s)[i] == '_' <==> s[i] == '_' {
    }
  }

  /** A sanitized name holds only `[a-z0-9._-]` and never two underscores in a row. */
  lemma SanitizeFilenameShape(filename: string)
    ensures Sanitized(SanitizeFilename(filename))
  {
    var c := CollapseUnderscores(ReplaceUnsafe(filename));
    LowerKeepsUnderscores(c);
    forall i | 0 <= i < |c| ensures SafeChar(Lower(c)[i]) {
      assert c[i] in ReplaceUnsafe(filename);
    }
  }

  /** A name already of the sanitized shape is left as it is. */
  lemma {:induction false} SanitizedFixed(s: string)
    requires Sanitized(s)
    ensures ReplaceUnsafe(s) == s && CollapseUnderscores(s) == s && Lower(s) == s
    decreases |s|
  {
    if |s| > 0 {
      forall i | 0 <= i < |s[1..]| - 1 ensures !(s[1..][i] == '_' && s[1..][i + 1] == '_') {
        assert s[1..][i] == s[i + 1] && s[1..][i + 1] == s[i + 2];
      }
      SanitizedFixed(s[1..]);
      assert !(|s| >= 2 && s[0] == '_' && s[1] == '_');
    }
  }

  /** Sanitizing is idempotent, and fixes exactly the names of sanitized shape. */
  lemma SanitizeFilenameIdempotent(filename: string)
    ensures SanitizeFilename(SanitizeFilename(filename)) == SanitizeFilename(filename)
    ensures SanitizeFilename(filename) == filename <==> Sanitized(filename)
  {
    SanitizeFilenameShape(filename);
    SanitizedFixed(SanitizeFilename(filename));
    if Sanitized(filename) {
      SanitizedFixed(filename);
    }
  }

  // ------------------------------------------------------------------- case

  /** First character upper-cased, the rest lower-cased; `''` for empty input. */
  function Capitalize(s: string): (r: string)
    ensures |r| == |s|
    ensures |s| > 0 ==> r[0] == UpperChar(s[0])
    ensures forall i :: 1 <= i < |s| ==> r[i] == LowerChar(s[i])
  {
    if |s| == 0 then "" else [UpperChar(s[0])] + Lower(s[1..])
  }

  /** Capitalizing is idempotent, and only changes the case of letters. */
  lemma CapitalizeIdempotent(s: string)
    ensures Capitalize(Capitalize(s)) == Capitalize(s)
    ensures Lower(Capitalize(s)) == Lower(s)
  {
  }

  /** `replace(/_([a-z])/g, …)`: an underscore before a lower-case letter is dropped and the letter raised. */
  function ToCamelCase(s: string): (r: string)
    ensures |r| <= |s|
  {
    if |s| >= 2 && s[0] == '_' && IsLower(s[1]) then [UpperChar(s[1])] + ToCamelCase(s[2..])
    else if |s| == 0 then ""
    else [s[0]] + ToCamelCase(s[1..])
  }

  /** An underscore followed by a lower-case letter. */
  predicate SnakeJoint(s: string) {
    exists i :: 0 <= i < |s| - 1 && s[i] == '_' && IsLower(s[i + 1])
  }

  /** `replace(/[A-Z]/g, l => '_' + l.toLowerCase())`. */
  function ToSnakeCase(s: string): (r: string)
    ensures |r| >= |s|
    ensures forall i :: 0 <= i < |r| ==> !IsUpper(r[i])
  {
    if |s| == 0 then ""
    else if IsUpper(s[0]) then ['_', LowerChar(s[0])] + ToSnakeCase(s[1..])
    else [s[0]] + ToSnakeCase(s[1..])
  }

  /** Camel-casing leaves no underscore before a lower-case letter. */
  lemma {:induction false} ToCamelCaseNoJoint(s: string)
    ensures !SnakeJoint(ToCamelCase(s))
    ensures |s| > 0 ==> |ToCamelCase(s)| > 0 && (ToCamelCase(s)[0] == s[0] || !IsLower(ToCamelCase(s)[0]))
    decreases |s|
  {
    var r := ToCamelCase(s);
    if |s| >= 2 && s[0] == '_' && IsLower(s[1]) {
      ToCamelCaseNoJoint(s[2..]);
      var t := ToCamelCase(s[2..]);
      assert r == [UpperChar(s[1])] + t;
      forall i | 0 <= i < |r| - 1 ensures !(r[i] == '_' && IsLower(r[i + 1])) {
        if i > 0 {
          assert r[i] == t[i - 1] && r[i + 1] == t[i];
        }
      }
    } else if |s| > 0 {
      ToCamelCaseNoJoint(s[1..]);
      var t := ToCamelCase(s[1..]);
      assert r == [s[0]] + t;
      forall i | 0 <= i < |r| - 1 ensures !(r[i] == '_' && IsLower(r[i + 1])) {
        if i > 0 {
          assert r[i] == t[i - 1] && r[i + 1] == t[i];
        } else if s[0] == '_' {
          assert r[1] == t[0] && s[1..][0] == s[1];
        }
      }
    }
  }

  /** Snake-casing then camel-casing gives back any name free of underscores. */
  lemma {:induction false} SnakeCamelRoundTrip(s: string)
    requires forall i :: 0 <= i < |s| ==> s[i] != '_'
    ensures ToCamelCase(ToSnakeCase(s)) == s
    decreases |s|
  {
    if |s| > 0 {
      SnakeCamelRoundTrip(s[1..]);
      if IsUpper(s[0]) {
        var t := ToSnakeCase(s[1..]);
        assert ToSnakeCase(s) == ['_', LowerChar(s[0])] + t;
        assert (['_', LowerChar(s[0])] + t)[2..] == t;
      } else {
        var t := ToSnakeCase(s[1..]);
        assert ToSnakeCase(s) == [s[0]] + t;
        assert ([s[0]] + t)[1..] == t;
      }
    }
  }

  // -------------------------------------------------------------- file names

  /** `s.lastIndexOf(c)`, `-1` when absent. */
  function LastIndexOf(s: string, c: char): (k: int)
    ensures -1 <= k < |s|
    ensures k >= 0 ==> s[k] == c
    ensures forall j :: k < j < |s| ==> s[j] != c
  {
    if |s| == 0 then -1
    else if s[|s| - 1] == c then |s| - 1
    else LastIndexOf(s[..|s| - 1], c)
  }

  /**
   * The unsigned shift `x >>> 0`, reduction modulo 2^32, for the arguments
   * that occur here (an index minus one, so at least -2).
   */
  function ToUint32(x: int): (r: nat)
    requires -0x1_0000_0000 <= x < 0x1_0000_0000
    ensures r < 0x1_0000_0000
    ensures r == x || r == x + 0x1_0000_0000  // congruent to x modulo 2^32
  {
    if x < 0 then x + 0x1_0000_0000 else x
  }

  /** `s.slice(start)` for a non-negative start: the suffix from `start`, or `''` past the end. */
  function SliceFrom(s: string, start: nat): string {
    if start >= |s| then "" else s[start..]
  }

  /** `filename.slice((filename.lastIndexOf('.') - 1 >>> 0) + 2)`. */
  function GetFileExtension(filename: string): (r: string)
    requires |filename| < 0x1_0000_0000
  {
    SliceFrom(filename, ToUint32(LastIndexOf(filename, '.') - 1) + 2)
  }

  /** No dot, or only a leading dot, gives `''`. */
  lemma GetFileExtensionWithoutDot(filename: string)
    requires |filename| < 0x1_0000_0000
    requires LastIndexOf(filename, '.') <= 0
    ensures GetFileExtension(filename) == ""
  {
  }

  /** Otherwise the extension is the text after the last dot, which holds no dot. */
  lemma GetFileExtensionAfterDot(filename: string)
    requires |filename| < 0x1_0000_0000
    requires LastIndexOf(filename, '.') > 0
    ensures GetFileExtension(filename) == filename[LastIndexOf(filename, '.') + 1..]
    ensures '.' !in GetFileExtension(filename)
  {
    var k := LastIndexOf(filename, '.');
    ExtensionFrom(filename, k);
    NoDotAfter(filename, k);
  }

  lemma ExtensionFrom(filename: string, k: int)
    requires |filename| < 0x1_0000_0000
    requires k == LastIndexOf(filename, '.') && k > 0
    ensures GetFileExtension(filename) == filename[k + 1..]
  {
    var start := ToUint32(k - 1) + 2;
    assert start == k + 1;
    assert GetFileExtension(filename) == SliceFrom(filename, start);
  }

  lemma NoDotAfter(filename: string, k: int)
    requires 0 <= k < |filename|
    requires forall j :: k < j < |filename| ==> filename[j] != '.'
    ensures '.' !in filename[k + 1..]
  {
    var e := filename[k + 1..];
    forall j | 0 <= j < |e| ensures e[j] != '.' {
      assert e[j] == filename[k + 1 + j];
    }
  }

  // ----------------------------------------------------------------- masking

  /** `s.indexOf(c)`, `-1` when absent. */
  function IndexOf(s: string, c: char): (k: int)
    ensures -1 <= k < |s|
    ensures k >= 0 ==> s[k] == c
    ensures forall j :: 0 <= j < |s| && (k == -1 || j < k) ==> s[j] != c
  {
    if |s| == 0 then -1
    else if s[0] == c then 0
    else var k := IndexOf(s[1..], c); if k == -1 then -1 else k + 1
  }

  /** The text before the first `@` (the whole text when there is none). */
  function UsernamePart(email: string): string {
    var k := IndexOf(email, '@');
    if k == -1 then email else email[..k]
  }

  /**
   * `email.split('@')[1]` as a template literal prints it: the text between
   * the first and second `@`, or `"undefined"` when there is no `@`.
   */
  function DomainPart(email: string): string {
    var k := IndexOf(email, '@');
    if k == -1 then "undefined"
    else
      var rest := email[k + 1..];
      var j := IndexOf(rest, '@');
      if j == -1 then rest else rest[..j]
  }

  function Stars(n: nat): (r: string)
    ensures |r| == n && forall i :: 0 <= i < n ==> r[i] == '*'
  {
    if n == 0 then "" else "*" + Stars(n - 1)
  }

  /** Keeps two username characters, stars the rest, and keeps the domain. */
  function MaskEmail(email: string): (r: string)
  {
    var u := UsernamePart(email);
    var masked := if |u| > 2 then u[..2] + Stars(|u| - 2) else u;
    masked + "@" + DomainPart(email)
  }

  /**
   * For an address with a single `@`: same length, same domain, and only the
   * first two characters of a longer username shown.
   */
  lemma MaskEmailSingleAt(email: string, k: nat)
    requires k < |email| && email[k] == '@'
    requires forall j :: 0 <= j < |email| && j != k ==> email[j] != '@'
    ensures var r := MaskEmail(email);
            && |r| == |email|
            && r[k] == '@' && r[k + 1..] == email[k + 1..]
            && (k > 2 ==> r[..2] == email[..2] && forall j :: 2 <= j < k ==> r[j] == '*')
            && (k <= 2 ==> r == email)
  {
    var u, rest := email[..k], email[k + 1..];
    SingleAtParts(email, k);
    assert email == u + "@" + rest;
    if k > 2 {
      var masked := u[..2] + Stars(k - 2);
      assert MaskEmail(email) == masked + "@" + rest;
      assert (masked + "@" + rest)[k + 1..] == rest;
    } else {
      assert MaskEmail(email) == u + "@" + rest;
    }
  }

  lemma SingleAtParts(email: string, k: nat)
    requires k < |email| && email[k] == '@'
    requires forall j :: 0 <= j < |email| && j != k ==> email[j] != '@'
    ensures UsernamePart(email) == email[..k] && DomainPart(email) == email[k + 1..]
  {
    assert IndexOf(email, '@') == k;
    var rest := email[k + 1..];
    assert forall j :: 0 <= j < |rest| ==> rest[j] == email[k + 1 + j];
    assert IndexOf(rest, '@') == -1;
  }

  /** Without any `@` the output ends in the text `@undefined`. */
  lemma MaskEmailWithoutAt(email: string)
    requires forall j :: 0 <= j < |email| ==> email[j] != '@'
    ensures var r := MaskEmail(email);
            |r| == |email| + 10 && r[|email|..] == "@undefined"
  {
  }

  // -------------------------------------------------------------- truncation

  /** `s.slice(0, end)`, where a negative end counts back from the end of the text. */
  function SliceTo(s: string, end: int): (r: string)
    ensures |r| <= |s| && r == s[..|r|]
  {
    var e := if end < 0 then (if |s| + end < 0 then 0 else |s| + end) else (if end > |s| then |s| else end);
    s[..e]
  }

  function TruncateText(text: string, maxLength: int, suffix: string): (r: string)
  {
    if |text| <= maxLength then text else SliceTo(text, maxLength - |suffix|) + suffix
  }

  /**
   * Short text is kept; longer text becomes exactly `maxLength` characters, a
   * prefix of the text followed by the suffix, when the suffix fits.
   */
  lemma TruncateTextMeaning(text: string, maxLength: int, suffix: string)
    ensures |text| <= maxLength ==> TruncateText(text, maxLength, suffix) == text
    ensures |text| > maxLength >= |suffix| ==>
              var r := TruncateText(text, maxLength, suffix);
              && |r| == maxLength
              && r[..maxLength - |suffix|] == text[..maxLength - |suffix|]
              && r[maxLength - |suffix|..] == suffix
  {
  }

  /**
   * When the suffix is longer than `maxLength` the negative slice end counts
   * back from the end: the result keeps all but `|suffix| - maxLength` characters.
   */
  lemma TruncateTextNegativeEnd(text: string, maxLength: int, suffix: string)
    requires 0 <= maxLength < |suffix| && |text| > maxLength
    requires |text| >= |suffix| - maxLength
    ensures TruncateText(text, maxLength, suffix) == text[..|text| - (|suffix| - maxLength)] + suffix
  {
  }
}

=== FILE: history.dfy ===
/**
 * The audit log (src/models/ApprovalHistory.js): the action ENUM, the
 * defaults `createEntry` applies, and the human-readable descriptions.
 */
module History {
  import opened Wrappers

  /** The `action` column's ENUM. */
  datatype HistoryAction = Submitted | Approved | Rejected | Assigned | Reassigned | Escalated | AutoApproved

  function ActionName(a: HistoryAction): string {
    match a
    case Submitted => "submitted"
    case Approved => "approved"
    case Rejected => "rejected"
    case Assigned => "assigned"
    case Reassigned => "reassigned"
    case Escalated => "escalated"
    case AutoApproved => "auto_approved"
  }

  /** Reading the ENUM column: exactly the seven declared names are accepted. */
  function ParseAction(s: string): (r: Option<HistoryAction>)
    ensures r.Some? ==> ActionName(r.value) == s
    ensures r.None? ==> forall a: HistoryAction :: ActionName(a) != s
  {
    if s == "submitted" then Some(Submitted)
    else if s == "approved" then Some(Approved)
    else if s == "rejected" then Some(Rejected)
    else if s == "assigned" then Some(Assigned)
    else if s == "reassigned" then Some(Reassigned)
    else if s == "escalated" then Some(Escalated)
    else if s == "auto_approved" then Some(AutoApproved)
    else None
  }

  lemma ActionRoundTrip(a: HistoryAction)
    ensures ParseAction(ActionName(a)) == Some(a)
  {
  }

  /** Values stored in the free-form `metadata` JSON column. */
  datatype MetaValue = MInt(i: int) | MStr(s: string)

  type Metadata = map<string, MetaValue>

  /** The `options` argument of `createEntry`; absent keys are `None`. */
  datatype EntryOptions = EntryOptions(
    stepNumber: Option<int>,
    previousStatus: Option<string>,
    newStatus: Option<string>,
    comments: Option<string>,
    metadata: Option<Metadata>)

  const NoOptions: EntryOptions := EntryOptions(None, None, None, None, None)

  datatype HistoryEntry = HistoryEntry(
    expenseId: nat,
    userId: nat,
    action: HistoryAction,
    stepNumber: Option<int>,
    previousStatus: Option<string>,
    newStatus: string,
    comments: Option<string>,
    metadata: Option<Metadata>)

  /** `x || null` for a number: 0 is falsy. */
  function NumOrNull(x: Option<int>): Option<int> {
    if x.Some? && x.value != 0 then x else None
  }

  /** `x || null` for a string: "" is falsy. */
  function StrOrNull(x: Option<string>): Option<string> {
    if x.Some? && x.value != "" then x else None
  }

  /** `createEntry`: falsy options become null, and the new status defaults to the action's name. */
  function CreateEntry(expenseId: nat, userId: nat, action: HistoryAction, options: EntryOptions): (h: HistoryEntry)
    ensures h.expenseId == expenseId && h.userId == userId && h.action == action
    ensures options.newStatus.None? ==> h.newStatus == ActionName(action)
    ensures options.newStatus.Some? && options.newStatus.value != "" ==> h.newStatus == options.newStatus.value
    ensures h.newStatus != ""
    ensures h.stepNumber.Some? <==> options.stepNumber.Some? && options.stepNumber.value != 0
    ensures h.stepNumber.Some? ==> h.stepNumber == options.stepNumber
    ensures h.previousStatus.Some? <==> options.previousStatus.Some? && options.previousStatus.value != ""
    ensures h.previousStatus.Some? ==> h.previousStatus == options.previousStatus
    ensures h.comments.Some? <==> options.comments.Some? && options.comments.value != ""
    ensures h.comments.Some? ==> h.comments == options.comments
    ensures h.metadata == options.metadata
  {
    HistoryEntry(
      expenseId, userId, action,
      NumOrNull(options.stepNumber),
      StrOrNull(options.previousStatus),
      if options.newStatus.Some? && options.newStatus.value != "" then options.newStatus.value else ActionName(action),
      StrOrNull(options.comments),
      options.metadata)
  }

  /** With no options every optional column is null and the new status is the action. */
  lemma CreateEntryDefaults(expenseId: nat, userId: nat, action: HistoryAction)
    ensures var h := CreateEntry(expenseId, userId, action, NoOptions);
            h.stepNumber.None? && h.previousStatus.None? && h.comments.None? && h.metadata.None?
            && ParseAction(h.newStatus) == Some(action)
  {
    ActionRoundTrip(action);
  }

  /**
   * `getActionDescription` on the stored action text.  The source's object
   * lookup would also find inherited keys such as "constructor"; the ENUM
   * column never holds one, so every other text is returned as it is.
   */
  function ActionDescription(action: string): (r: string)
    ensures ParseAction(action).None? ==> r == action
    ensures ParseAction(action).Some? ==> r == Description(ParseAction(action).value)
  {
    match ParseAction(action)
    case Some(a) => Description(a)
    case None => action
  }

  function Description(a: HistoryAction): string {
    match a
    case Submitted => "Expense submitted for approval"
    case Approved => "Expense approved"
    case Rejected => "Expense rejected"
    case Assigned => "Assigned to approver"
    case Reassigned => "Reassigned to different approver"
    case Escalated => "Escalated to higher authority"
    case AutoApproved => "Automatically approved"
  }

  /** The seven known actions have pairwise different descriptions, none equal to an action name. */
  lemma DescriptionsDistinct(a: HistoryAction, b: HistoryAction)
    ensures a != b ==> Description(a) != Description(b)
    ensures Description(a) != ActionName(b)
  {
  }
}

=== FILE: json.dfy ===
/**
 * JavaScript values as they reach the rule evaluator and the JSON columns
 * (`condition_value`, `action_value`).  Numbers are integers: amounts are
 * in cents and identifiers are integers.
 */
module Json {
  import opened Text
  import opened Wrappers

  datatype Json =
    | JUndefined
    | JNull
    | JBool(b: bool)
    | JNum(n: int)
    | JStr(s: string)
    | JList(items: seq<Json>)
    | JObj(fields: map<string, Json>)
    | JDate(ms: int)  // a `Date` object, by its time value

  /** JavaScript truthiness: `undefined`, `null`, `false`, `0` and `""` are falsy. */
  predicate Truthy(v: Json) {
    match v
    case JUndefined => false
    case JNull => false
    case JBool(b) => b
    case JNum(n) => n != 0
    case JStr(s) => s != ""
    case JList(_) => true
    case JObj(_) => true
    case JDate(_) => true
  }

  /**
   * Strict equality `===`.  Two arrays, objects or dates are distinct
   * objects, so `===` between them is false (they are never the same
   * reference here).
   */
  predicate StrictEq(a: Json, b: Json) {
    match (a, b)
    case (JUndefined, JUndefined) => true
    case (JNull, JNull) => true
    case (JBool(x), JBool(y)) => x == y
    case (JNum(x), JNum(y)) => x == y
    case (JStr(x), JStr(y)) => x == y
    case _ => false
  }

  /** `Array.prototype.includes`: some element is strictly equal to `v` (no NaN here). */
  predicate Includes(xs: seq<Json>, v: Json) {
    exists i :: 0 <= i < |xs| && StrictEq(xs[i], v)
  }

  /** Optional chaining `v?.key`: the property of an object, `undefined` otherwise. */
  function Field(v: Json, key: string): Json
  {
    if v.JObj? && key in v.fields then v.fields[key] else JUndefined
  }

  /** `Array.isArray(v)`. */
  predicate IsArray(v: Json) {
    v.JList?
  }

  /**
   * The number a relational operator sees (`ToNumber`, after `valueOf` for
   * a date): a number itself, a date's time value, `null` as 0 and a boolean
   * as 0 or 1.  `undefined` is NaN, which compares false with everything.
   */
  function TimeOrNumber(v: Json): Option<int> {
    match v
    case JNum(n) => Some(n)
    case JDate(ms) => Some(ms)
    case JNull => Some(0)
    case JBool(b) => Some(if b then 1 else 0)
    case _ => None
  }

  /**
   * The relational operators `<` between a derived field value and a
   * condition value: numeric between numbers, dates, `null` and booleans
   * (as `TimeOrNumber` converts them), lexicographic between strings.
   * Strings against the other kinds, arrays and objects (which JavaScript
   * coerces through their text) are taken as incomparable.
   */
  predicate Less(a: Json, b: Json) {
    match (a, b)
    case (JStr(x), JStr(y)) => StrLess(x, y)
    case _ => TimeOrNumber(a).Some? && TimeOrNumber(b).Some? && TimeOrNumber(a).value < TimeOrNumber(b).value
  }

  /** `a <= b` in the same comparable domains as `Less`. */
  predicate LessEq(a: Json, b: Json) {
    match (a, b)
    case (JStr(x), JStr(y)) => !StrLess(y, x)
    case _ => TimeOrNumber(a).Some? && TimeOrNumber(b).Some? && TimeOrNumber(a).value <= TimeOrNumber(b).value
  }
}

=== FILE: notifications.dfy ===
/**
 * Notifications (src/models/Notification.js): read and e-mail flags, the
 * message builders the workflow engine calls, and the retention sweep.
 */
module Notifications {
  import opened Wrappers
  import opened Seqs
  import Text

  /** The `type` column's ENUM. */
  datatype NotificationType = ApprovalRequest | Approved | Rejected | Escalated | Reminder

  function TypeName(t: NotificationType): string {
    match t
    case ApprovalRequest => "approval_request"
    case Approved => "approved"
    case Rejected => "rejected"
    case Escalated => "escalated"
    case Reminder => "reminder"
  }

  datatype Notification = Notification(
    userId: nat,
    expenseId: Option<nat>,
    ntype: NotificationType,
    title: string,
    message: string,
    isRead: bool,
    isEmailSent: bool,
    createdAt: int)

  /** `markAsRead`: sets the flag and touches nothing else. */
  function MarkAsRead(n: Notification): (r: Notification)
    ensures r.isRead
    ensures r.(isRead := n.isRead) == n
  {
    if !n.isRead then n.(isRead := true) else n
  }

  /** `markEmailAsSent`: sets the flag and touches nothing else. */
  function MarkEmailAsSent(n: Notification): (r: Notification)
    ensures r.isEmailSent
    ensures r.(isEmailSent := n.isEmailSent) == n
  {
    if !n.isEmailSent then n.(isEmailSent := true) else n
  }

  /** Marking twice is the same as marking once. */
  lemma MarkIdempotent(n: Notification)
    ensures MarkAsRead(MarkAsRead(n)) == MarkAsRead(n)
    ensures MarkEmailAsSent(MarkEmailAsSent(n)) == MarkEmailAsSent(n)
    ensures n.isRead ==> MarkAsRead(n) == n
  {
  }

  /** `markAllAsRead(userId)`: the bulk update over the notifications table. */
  function MarkAllAsRead(ns: seq<Notification>, userId: nat): (r: seq<Notification>)
    ensures |r| == |ns|
    ensures forall i :: 0 <= i < |ns| && ns[i].userId == userId ==> r[i] == MarkAsRead(ns[i])
    ensures forall i :: 0 <= i < |ns| && ns[i].userId != userId ==> r[i] == ns[i]
  {
    if |ns| == 0 then []
    else [if ns[0].userId == userId then MarkAsRead(ns[0]) else ns[0]] + MarkAllAsRead(ns[1..], userId)
  }

  function UnreadCount(ns: seq<Notification>, userId: nat): nat {
    if |ns| == 0 then 0
    else (if ns[0].userId == userId && !ns[0].isRead then 1 else 0) + UnreadCount(ns[1..], userId)
  }

  /** After `markAllAsRead` the user has no unread notification; other users' counts are unchanged. */
  lemma {:induction false} MarkAllAsReadClears(ns: seq<Notification>, userId: nat, other: nat)
    requires other != userId
    ensures UnreadCount(MarkAllAsRead(ns, userId), userId) == 0
    ensures UnreadCount(MarkAllAsRead(ns, userId), other) == UnreadCount(ns, other)
  {
    if |ns| > 0 {
      MarkAllAsReadClears(ns[1..], userId, other);
      assert MarkAllAsRead(ns, userId)[1..] == MarkAllAsRead(ns[1..], userId);
    }
  }

  /**
   * `cleanupOldNotifications`: deletes exactly the read notifications
   * created before the cutoff.  The cutoff is the current local time moved
   * back `days` calendar days (`setDate`), which depends on the clock and
   * the time zone (a day across a daylight-saving change is 23 or 25
   * hours), so it is a parameter here.
   */
  function CleanupOldNotifications(ns: seq<Notification>, cutoff: int): (r: seq<Notification>)
    ensures forall n :: n in r <==> n in ns && !(n.isRead && n.createdAt < cutoff)
    ensures |r| <= |ns|
  {
    Filter(ns, (n: Notification) => !(n.isRead && n.createdAt < cutoff))
  }

  /** Unread notifications and recent notifications always survive the sweep. */
  lemma CleanupKeepsUnreadAndRecent(ns: seq<Notification>, cutoff: int, n: Notification)
    requires n in ns
    ensures !n.isRead ==> n in CleanupOldNotifications(ns, cutoff)
    ensures n.createdAt >= cutoff ==> n in CleanupOldNotifications(ns, cutoff)
    ensures n.isRead && n.createdAt < cutoff ==> n !in CleanupOldNotifications(ns, cutoff)
  {
  }

  function Fresh(userId: nat, expenseId: nat, t: NotificationType, title: string, message: string, now: int): Notification {
    Notification(userId, Some(expenseId), t, title, message, false, false, now)
  }

  /** `createApprovalRequest`. The amount is the DECIMAL text of the expense's company-currency amount. */
  function CreateApprovalRequest(userId: nat, expenseId: nat, amountText: string, submitterName: string, now: int): (n: Notification)
    ensures n.ntype == ApprovalRequest && n.userId == userId && n.expenseId == Some(expenseId) && !n.isRead
  {
    Fresh(userId, expenseId, ApprovalRequest, "New Expense Approval Request",
          submitterName + " has submitted an expense of $" + amountText + " for your approval.", now)
  }

  /** `createApprovalResult`: the outcome notice sent to the submitter. */
  function CreateApprovalResult(userId: nat, expenseId: nat, approved: bool, approverName: string,
                                comments: Option<string>, now: int): (n: Notification)
    ensures n.ntype == Approved <==> approved
    ensures n.ntype == Rejected <==> !approved
    ensures n.userId == userId && n.expenseId == Some(expenseId) && !n.isRead && !n.isEmailSent
    ensures n.title == (if approved then "Expense Approved" else "Expense Rejected")
  {
    var action := if approved then "approved" else "rejected";
    var base := "Your expense has been " + action + " by " + approverName + ".";
    var message := if comments.Some? && comments.value != "" then base + " Comments: " + comments.value else base;
    Fresh(userId, expenseId, if approved then Approved else Rejected,
          if approved then "Expense Approved" else "Expense Rejected", message, now)
  }

  /** The comments suffix appears exactly when the comments are truthy. */
  lemma ApprovalResultMessage(userId: nat, expenseId: nat, approved: bool, name: string, comments: Option<string>, now: int)
    ensures var m := CreateApprovalResult(userId, expenseId, approved, name, comments, now).message;
            var base := "Your expense has been " + (if approved then "approved" else "rejected") + " by " + name + ".";
            && Text.StartsWith(m, base)
            && (comments.None? || comments.value == "" ==> m == base)
            && (comments.Some? && comments.value != "" ==> m[|base|..] == " Comments: " + comments.value)
  {
  }

  /** `createEscalation`. */
  function CreateEscalation(userId: nat, expenseId: nat, reason: string, now: int): (n: Notification)
    ensures n.ntype == Escalated && n.userId == userId && n.expenseId == Some(expenseId)
  {
    Fresh(userId, expenseId, Escalated, "Expense Escalated",
          "An expense has been escalated to you. Reason: " + reason, now)
  }

  /** `createReminder`. */
  function CreateReminder(userId: nat, expenseId: nat, daysOverdue: int, now: int): (n: Notification)
    ensures n.ntype == Reminder && n.userId == userId && n.expenseId == Some(expenseId)
  {
    Fresh(userId, expenseId, Reminder, "Pending Approval Reminder",
          "You have an expense approval that has been pending for " + Text.IntToString(daysOverdue) + " days.", now)
  }

  predicate KnownTypeName(t: string) {
    t == "approval_request" || t == "approved" || t == "rejected" || t == "escalated" || t == "reminder"
  }

  const DefaultIcon: string := "\U{1F4E2}"
  const DefaultColor: string := "gray"

  /**
   * `getTypeIcon` on the stored type text.  Inherited object keys such as
   * "constructor" are left out: the ENUM column never holds one.
   */
  function TypeIcon(t: string): (r: string)
    ensures !KnownTypeName(t) <==> r == DefaultIcon
  {
    if t == "approval_request" then "\U{1F4CB}"
    else if t == "approved" then "\U{2705}"
    else if t == "rejected" then "\U{274C}"
    else if t == "escalated" then "\U{2B06}\U{FE0F}"
    else if t == "reminder" then "\U{23F0}"
    else DefaultIcon
  }

  /** `getTypeColor` on the stored type text, for the same non-inherited keys. */
  function TypeColor(t: string): (r: string)
    ensures !KnownTypeName(t) <==> r == DefaultColor
  {
    if t == "approval_request" then "blue"
    else if t == "approved" then "green"
    else if t == "rejected" then "red"
    else if t == "escalated" then "orange"
    else if t == "reminder" then "yellow"
    else DefaultColor
  }

  /** Every ENUM value has its own colour and icon. */
  lemma KnownTypesDistinguished(a: NotificationType, b: NotificationType)
    ensures KnownTypeName(TypeName(a))
    ensures a != b ==> TypeColor(TypeName(a)) != TypeColor(TypeName(b))
    ensures a != b ==> TypeIcon(TypeName(a)) != TypeIcon(TypeName(b))
  {
  }
}

=== FILE: rules.dfy ===
/**
 * Condition -> action rules (src/models/ApprovalRule.js): how a rule's
 * field is derived from an expense, how its operator compares it with the
 * JSON condition value, and which action record it produces.
 */
module Rules {
  import opened Wrappers
  import opened Json
  import opened Expenses
  import Text

  /** The `condition_operator` column; `UnknownOp` stands for any other text. */
  datatype Operator = Gt | Ge | Lt | Le | Eq | In | NotIn | UnknownOp(text: string)

  /** The `action_type` column; `UnknownActionType` stands for any other text. */
  datatype ActionType = AutoApproveType | RequireApprovalType | SkipStepType | AddApproverType | UnknownActionType(text: string)

  /** The action record `executeAction` returns. */
  datatype RuleAction =
    | AutoApproveAction(data: Json)
    | RequireApprovalAction(specificApproverId: Option<nat>)
    | SkipStepAction(stepNumber: Json)
    | AddApproverAction(approverId: Json)

  datatype Rule = Rule(
    id: nat,
    companyId: nat,
    workflowId: Option<nat>,
    name: string,
    conditionField: Option<string>,
    operator: Operator,
    conditionValue: Json,
    actionType: ActionType,
    actionValue: Json,
    specificApproverId: Option<nat>,
    priority: int,
    isActive: bool)

  function OptNum(x: Option<nat>): Json {
    if x.Some? then JNum(x.value) else JNull
  }

  function OptStr(x: Option<string>): Json {
    if x.Some? then JStr(x.value) else JNull
  }

  function OptDate(x: Option<int>): Json {
    if x.Some? then JDate(x.value) else JNull
  }

  /**
   * `expense[field]`: a column of the expense (the `DATE` columns as `Date`
   * objects), `undefined` for a name that is no column.  `exchange_rate`
   * is a six-decimal number, which this model has no value for.
   */
  function RawField(e: Expense, field: string): Json {
    if field == "id" then JNum(e.id)
    else if field == "user_id" then JNum(e.userId)
    else if field == "company_id" then JNum(e.companyId)
    else if field == "workflow_id" then OptNum(e.workflowId)
    else if field == "amount" then JNum(e.amount)
    else if field == "currency" then JStr(e.currency)
    else if field == "amount_in_company_currency" then JNum(e.amountInCompanyCurrency)
    else if field == "category_id" then JNum(e.categoryId)
    else if field == "description" then JStr(e.description)
    else if field == "expense_date" then JStr(e.expenseDate)
    else if field == "receipt_url" then OptStr(e.receiptUrl)
    else if field == "receipt_data" then e.receiptData
    else if field == "status" then JStr(StatusName(e.status))
    else if field == "current_approval_step" then JNum(e.currentApprovalStep)
    else if field == "submitted_at" then OptDate(e.submittedAt)
    else if field == "approved_at" then OptDate(e.approvedAt)
    else if field == "rejected_at" then OptDate(e.rejectedAt)
    else if field == "rejection_reason" then OptStr(e.rejectionReason)
    else if field == "created_at" then JDate(e.createdAt)
    else if field == "updated_at" then JDate(e.updatedAt)
    else JUndefined
  }

  /**
   * `getFieldValue`.  `loadedDepartment` is `expense.user?.department`: the
   * submitter's department when the `user` association was loaded with the
   * expense, `undefined` otherwise.  A null field name reads `expense[null]`,
   * which is `undefined`.
   */
  function FieldValue(e: Expense, field: Option<string>, loadedDepartment: Json): (v: Json)
    ensures field == Some("amount") && e.amountInCompanyCurrency != 0 ==> v == JNum(e.amountInCompanyCurrency)
    ensures field == Some("amount") && e.amountInCompanyCurrency == 0 ==> v == JNum(e.amount)
    ensures field == Some("category") ==> v == JNum(e.categoryId)
    ensures field == Some("department") ==> v == loadedDepartment
    ensures field.Some? && field.value !in {"amount", "category", "department"} ==> v == RawField(e, field.value)
    ensures field.None? ==> v == JUndefined
  {
    match field
    case None => JUndefined
    case Some(f) =>
      if f == "amount" then JNum(if e.amountInCompanyCurrency != 0 then e.amountInCompanyCurrency else e.amount)
      else if f == "category" then JNum(e.categoryId)
      else if f == "department" then loadedDepartment
      else RawField(e, f)
  }

  /** A nullable date column compares with a number by its time value, `null` as 0. */
  lemma OptDateComparisons(d: Option<int>, t: int)
    ensures Compare(Gt, OptDate(d), JNum(t)) <==> d.GetOr(0) > t
    ensures Compare(Lt, OptDate(d), JNum(t)) <==> d.GetOr(0) < t
  {
  }

  /** The description and the nullable date columns read through `getFieldValue`. */
  lemma TextAndDateColumns(e: Expense, dept: Json)
    ensures FieldValue(e, Some("description"), dept) == JStr(e.description)
    ensures FieldValue(e, Some("submitted_at"), dept) == OptDate(e.submittedAt)
    ensures FieldValue(e, Some("rejected_at"), dept) == OptDate(e.rejectedAt)
  {
  }

  /** The row timestamps read through `getFieldValue`. */
  lemma TimestampColumns(e: Expense, dept: Json)
    ensures FieldValue(e, Some("created_at"), dept) == JDate(e.createdAt)
    ensures FieldValue(e, Some("updated_at"), dept) == JDate(e.updatedAt)
  {
  }

  /**
   * Rules on other columns see the column: `=` on a text column holds
   * exactly for its text, and a nullable date column compares with a
   * number by its time value, an unset date (`null`) as 0.
   */
  lemma ColumnConditions(e: Expense, text: string, t: int, dept: Json)
    ensures Compare(Eq, FieldValue(e, Some("description"), dept), JStr(text)) <==> e.description == text
    ensures Compare(Gt, FieldValue(e, Some("submitted_at"), dept), JNum(t)) <==> e.submittedAt.GetOr(0) > t
    ensures e.rejectedAt.None? ==> (Compare(Lt, FieldValue(e, Some("rejected_at"), dept), JNum(t)) <==> 0 < t)
  {
    TextAndDateColumns(e, dept);
    OptDateComparisons(e.submittedAt, t);
    OptDateComparisons(e.rejectedAt, t);
  }

  /** The row timestamps compare by their time value, and `=` never holds on a date. */
  lemma TimestampConditions(e: Expense, t: int, dept: Json)
    ensures Compare(Lt, FieldValue(e, Some("created_at"), dept), JNum(t)) <==> e.createdAt < t
    ensures !Compare(Eq, FieldValue(e, Some("updated_at"), dept), JNum(e.updatedAt))
  {
    TimestampColumns(e, dept);
  }

  /** The operator applied to the derived field value (left) and the condition value (right). */
  function Compare(op: Operator, fieldValue: Json, conditionValue: Json): bool {
    match op
    case Gt => Less(conditionValue, fieldValue)
    case Ge => LessEq(conditionValue, fieldValue)
    case Lt => Less(fieldValue, conditionValue)
    case Le => LessEq(fieldValue, conditionValue)
    case Eq => StrictEq(fieldValue, conditionValue)
    case In => IsArray(conditionValue) && Includes(conditionValue.items, fieldValue)
    case NotIn => IsArray(conditionValue) && !Includes(conditionValue.items, fieldValue)
    case UnknownOp(_) => false
  }

  /** `evaluateCondition`. */
  function EvaluateCondition(r: Rule, e: Expense, loadedDepartment: Json): (b: bool)
    ensures r.operator.UnknownOp? ==> !b
    ensures !IsArray(r.conditionValue) && (r.operator == In || r.operator == NotIn) ==> !b
  {
    Compare(r.operator, FieldValue(e, r.conditionField, loadedDepartment), r.conditionValue)
  }

  /** On numbers the four relational operators are the integer comparisons. */
  lemma NumericComparisons(fv: int, cv: int)
    ensures Compare(Gt, JNum(fv), JNum(cv)) <==> fv > cv
    ensures Compare(Ge, JNum(fv), JNum(cv)) <==> fv >= cv
    ensures Compare(Lt, JNum(fv), JNum(cv)) <==> fv < cv
    ensures Compare(Le, JNum(fv), JNum(cv)) <==> fv <= cv
    ensures Compare(Eq, JNum(fv), JNum(cv)) <==> fv == cv
  {
  }

  /**
   * `IN` and `NOT IN` are complementary on a list and both false otherwise;
   * `>` and `<=` are complementary between two numbers.
   */
  lemma MembershipOperators(fv: Json, cv: Json)
    ensures IsArray(cv) ==> (Compare(In, fv, cv) <==> !Compare(NotIn, fv, cv))
    ensures !IsArray(cv) ==> !Compare(In, fv, cv) && !Compare(NotIn, fv, cv)
    ensures IsArray(cv) ==> (Compare(In, fv, cv) <==> exists i :: 0 <= i < |cv.items| && StrictEq(cv.items[i], fv))
    ensures fv.JNum? && cv.JNum? ==> (Compare(Gt, fv, cv) <==> !Compare(Le, fv, cv))
  {
  }

  /** Strict equality never holds between a number and its text or between two lists. */
  lemma StrictEqualityIsStrict(n: int, xs: seq<Json>, ys: seq<Json>)
    ensures !Compare(Eq, JNum(n), JStr(Text.NatToString(if n < 0 then -n else n)))
    ensures !Compare(Eq, JList(xs), JList(ys))
  {
  }

  /** `executeAction`. */
  function ExecuteAction(r: Rule): (a: Option<RuleAction>)
    ensures a.None? <==> r.actionType.UnknownActionType?
    ensures r.actionType == AutoApproveType ==> a == Some(AutoApproveAction(r.actionValue))
    ensures r.actionType == RequireApprovalType ==> a == Some(RequireApprovalAction(r.specificApproverId))
    ensures r.actionType == SkipStepType ==> a == Some(SkipStepAction(Field(r.actionValue, "step_number")))
    ensures r.actionType == AddApproverType ==> a == Some(AddApproverAction(Field(r.actionValue, "approver_id")))
  {
    match r.actionType
    case AutoApproveType => Some(AutoApproveAction(r.actionValue))
    case RequireApprovalType => Some(RequireApprovalAction(r.specificApproverId))
    case SkipStepType => Some(SkipStepAction(Field(r.actionValue, "step_number")))
    case AddApproverType => Some(AddApproverAction(Field(r.actionValue, "approver_id")))
    case UnknownActionType(_) => None
  }

  /** The rule is bound to a different workflow than the one given (a `workflow_id` of 0 is falsy). */
  predicate BoundElsewhere(r: Rule, workflowId: Option<nat>) {
    r.workflowId.Some? && r.workflowId.value != 0 && workflowId.Some? && r.workflowId.value != workflowId.value
  }

  /** `isApplicable(expense, workflow)`. */
  function IsApplicable(r: Rule, e: Expense, workflowId: Option<nat>, loadedDepartment: Json): (b: bool)
    ensures !r.isActive ==> !b
    ensures BoundElsewhere(r, workflowId) ==> !b
    ensures r.isActive && !BoundElsewhere(r, workflowId) ==> (b <==> EvaluateCondition(r, e, loadedDepartment))
  {
    if !r.isActive then false
    else if BoundElsewhere(r, workflowId) then false
    else EvaluateCondition(r, e, loadedDepartment)
  }

  /** Global rules and rules bound to the given workflow are decided by their condition alone. */
  lemma GlobalOrBoundRulesEvaluate(r: Rule, e: Expense, wid: nat, dept: Json)
    requires r.isActive && (r.workflowId.None? || r.workflowId == Some(wid))
    ensures IsApplicable(r, e, Some(wid), dept) == EvaluateCondition(r, e, dept)
  {
  }
}

=== FILE: seqs.dfy ===
/** Searching and filtering sequences, the shapes of `find`, `filter` and `findOne`. */
module Seqs {
  import opened Wrappers

  /** Index of the first element satisfying `p` (`Array.prototype.findIndex`). */
  function FindIndex<T>(s: seq<T>, p: T -> bool): (r: Option<nat>)
    ensures r.Some? ==> r.value < |s| && p(s[r.value])
    ensures r.Some? ==> forall j :: 0 <= j < r.value ==> !p(s[j])
    ensures r.None? ==> forall j :: 0 <= j < |s| ==> !p(s[j])
  {
    if |s| == 0 then None
    else if p(s[0]) then Some(0)
    else
      match FindIndex(s[1..], p)
      case None => None
      case Some(k) => Some(k + 1)
  }

  /** The first element satisfying `p`, or `None` (`Array.prototype.find`, `findOne`). */
  function FindFirst<T>(s: seq<T>, p: T -> bool): (r: Option<T>)
    ensures r.Some? ==> r.value in s && p(r.value)
    ensures r.None? ==> forall j :: 0 <= j < |s| ==> !p(s[j])
  {
    match FindIndex(s, p)
    case None => None
    case Some(k) => Some(s[k])
  }

  /** The elements satisfying `p`, in order (`filter`, `findAll`). */
  function Filter<T>(s: seq<T>, p: T -> bool): (r: seq<T>)
    ensures |r| <= |s|
    ensures forall i :: 0 <= i < |r| ==> p(r[i]) && r[i] in s
    ensures forall x :: x in s && p(x) ==> x in r
  {
    if |s| == 0 then []
    else if p(s[0]) then [s[0]] + Filter(s[1..], p)
    else Filter(s[1..], p)
  }

  /** `Filter` keeps everything exactly when every element satisfies `p`. */
  lemma FilterAll<T>(s: seq<T>, p: T -> bool)
    requires forall i :: 0 <= i < |s| ==> p(s[i])
    ensures Filter(s, p) == s
  {
  }
}

=== FILE: service_state.dfy ===
/**
 * The database state the approval-workflow service reads and writes, and
 * the primitive writes it performs.  Each table is a sequence in storage
 * order (expenses are keyed by id).  Service operations are pure
 * transitions over this state; an operation that throws part-way keeps
 * the writes it made before the throw, because the service uses no
 * transactions.
 */
module ServiceState {
  import opened Wrappers
  import opened Users
  import opened Expenses
  import opened History
  import opened Notifications
  import opened ApprovalSteps
  import opened WorkflowSteps
  import opened Rules
  import Seqs

  /** A row of `approval_workflows`. */
  datatype Workflow = Workflow(id: nat, companyId: nat, name: string, isDefault: bool, isActive: bool, createdAt: int)

  datatype Store = Store(
    expenses: map<nat, Expense>,
    users: seq<User>,
    workflows: seq<Workflow>,
    workflowSteps: seq<WorkflowStep>,
    rules: seq<Rule>,
    tasks: seq<Task>,
    history: seq<HistoryEntry>,
    notifications: seq<Notification>,
    nextTaskId: nat)

  /** Why a service call throws. */
  datatype ServiceError =
    | NoSuitableWorkflow
    | StepNotFound
    | NotAuthorizedToProcess
    | RejectionReasonRequired
    | InvalidAction
    | UniqueViolation(expenseId: nat, stepNumber: int, approverId: nat)
    | TypeError(what: string)

  /** The state after a call, and what it returned or threw. */
  datatype Outcome<T> = Outcome(store: Store, result: Result<T, ServiceError>)

  /**
   * The foreign keys of `approval_steps` and `expenses` the schema declares:
   * every task names an existing expense and an existing approver, every
   * expense names an existing submitter and is stored under its own id, and
   * task ids are below the next id to hand out.
   */
  ghost predicate RefsOk(s: Store) {
    && (forall id :: id in s.expenses ==> s.expenses[id].id == id && FindUser(s.users, s.expenses[id].userId).Some?)
    && (forall i :: 0 <= i < |s.tasks| ==> TaskRefsOk(s, s.tasks[i]))
  }

  predicate TaskRefsOk(s: Store, t: Task) {
    t.expenseId in s.expenses && FindUser(s.users, t.approverId).Some? && t.id < s.nextTaskId
  }

  /** The service's integrity invariant: references resolve, task keys and task ids are unique. */
  ghost predicate Valid(s: Store) {
    RefsOk(s) && UniqueKeys(s.tasks) && UniqueIds(s.tasks)
  }

  ghost predicate UniqueIds(tasks: seq<Task>) {
    forall i, j :: 0 <= i < j < |tasks| ==> tasks[i].id != tasks[j].id
  }

  /** The tables the approval service only reads: users, workflows, their steps and rules. */
  predicate ConfigKept(s: Store, s': Store) {
    s'.users == s.users && s'.workflows == s.workflows && s'.workflowSteps == s.workflowSteps && s'.rules == s.rules
  }

  /** `expense.update(...)`: replaces the row stored under `id` and stamps `updated_at`. */
  function PutExpense(s: Store, id: nat, e: Expense, now: int): (r: Store)
    ensures r.expenses == s.expenses[id := e.(updatedAt := now)]
    ensures ConfigKept(s, r) && r.tasks == s.tasks && r.nextTaskId == s.nextTaskId
    ensures r.history == s.history && r.notifications == s.notifications
  {
    s.(expenses := s.expenses[id := e.(updatedAt := now)])
  }

  function AddHistory(s: Store, h: HistoryEntry): (r: Store)
    ensures r.history == s.history + [h]
    ensures ConfigKept(s, r) && r.tasks == s.tasks && r.nextTaskId == s.nextTaskId
    ensures r.expenses == s.expenses && r.notifications == s.notifications
  {
    s.(history := s.history + [h])
  }

  function AddNotification(s: Store, n: Notification): (r: Store)
    ensures r.notifications == s.notifications + [n]
    ensures ConfigKept(s, r) && r.tasks == s.tasks && r.nextTaskId == s.nextTaskId
    ensures r.expenses == s.expenses && r.history == s.history
  {
    s.(notifications := s.notifications + [n])
  }

  /**
   * `ApprovalStep.create`: a pending task with the next id, or a unique
   * violation when (expense, step number, approver) is already taken.
   */
  function CreateTask(s: Store, expenseId: nat, workflowStepId: Option<nat>, stepNumber: int,
                      approverId: nat, approverType: string, now: int): (r: Outcome<Task>)
    ensures r.result.Failure? <==> KeyTaken(s.tasks, expenseId, stepNumber, approverId)
    ensures r.result.Failure? ==> r.store == s && r.result.error == UniqueViolation(expenseId, stepNumber, approverId)
    ensures r.result.Success? ==>
              var t := r.result.value;
              && t.id == s.nextTaskId && t.expenseId == expenseId && t.stepNumber == stepNumber
              && t.approverId == approverId && t.status == Pending && t.notifiedAt.None?
              && r.store == s.(tasks := s.tasks + [t], nextTaskId := s.nextTaskId + 1)
  {
    if KeyTaken(s.tasks, expenseId, stepNumber, approverId) then
      Outcome(s, Failure(UniqueViolation(expenseId, stepNumber, approverId)))
    else
      var t := Task(s.nextTaskId, expenseId, workflowStepId, stepNumber, approverId, approverType,
                    Pending, None, None, None, None, now);
      Outcome(s.(tasks := s.tasks + [t], nextTaskId := s.nextTaskId + 1), Success(t))
  }

  /** A successful create keeps the store valid when its references resolve. */
  lemma CreateTaskValid(s: Store, expenseId: nat, wsid: Option<nat>, stepNumber: int, approverId: nat, ty: string, now: int)
    requires Valid(s)
    requires expenseId in s.expenses && FindUser(s.users, approverId).Some?
    ensures Valid(CreateTask(s, expenseId, wsid, stepNumber, approverId, ty, now).store)
  {
    var r := CreateTask(s, expenseId, wsid, stepNumber, approverId, ty, now);
    if r.result.Success? {
      var t := r.result.value;
      AppendFreeKey(s.tasks, t);
      var s' := r.store;
      forall i | 0 <= i < |s'.tasks| ensures TaskRefsOk(s', s'.tasks[i]) {
        if i < |s.tasks| { assert TaskRefsOk(s, s.tasks[i]); }
      }
      forall i, j | 0 <= i < j < |s'.tasks| ensures s'.tasks[i].id != s'.tasks[j].id {
        if j == |s.tasks| { assert TaskRefsOk(s, s.tasks[i]); }
      }
    }
  }

  /** A create leaves every tracked copy with an older id tracked. */
  lemma CreateTaskKeepsTracked(s: Store, expenseId: nat, wsid: Option<nat>, stepNumber: int, approverId: nat, ty: string, now: int, u: Task)
    requires Tracked(s, u) && u.id < s.nextTaskId
    ensures var r := CreateTask(s, expenseId, wsid, stepNumber, approverId, ty, now).store;
            Tracked(r, u) && u.id < r.nextTaskId
  {
  }

  /** The index of the row with the given id. */
  function TaskIndex(tasks: seq<Task>, id: int): (r: Option<nat>)
    ensures r.Some? ==> r.value < |tasks| && tasks[r.value].id == id
    ensures r.None? ==> forall i :: 0 <= i < |tasks| ==> tasks[i].id != id
  {
    Seqs.FindIndex(tasks, (t: Task) => t.id == id)
  }

  /** `ApprovalStep.findByPk`. */
  function FindTask(s: Store, id: int): (r: Option<Task>)
    ensures r.Some? ==> r.value in s.tasks && r.value.id == id
    ensures r.None? ==> forall i :: 0 <= i < |s.tasks| ==> s.tasks[i].id != id
  {
    match TaskIndex(s.tasks, id)
    case None => None
    case Some(k) => Some(s.tasks[k])
  }

  /** `task.update(...)`: rewrites the stored row with the same id (no row, no write). */
  function PutTask(s: Store, t: Task): (r: Store)
    ensures ConfigKept(s, r) && r.nextTaskId == s.nextTaskId
    ensures r.expenses == s.expenses && r.history == s.history && r.notifications == s.notifications
    ensures |r.tasks| == |s.tasks|
    ensures forall i :: 0 <= i < |s.tasks| ==> r.tasks[i] == (if s.tasks[i].id == t.id then t else s.tasks[i])
  {
    s.(tasks := ReplaceById(s.tasks, t))
  }

  function ReplaceById(tasks: seq<Task>, t: Task): (r: seq<Task>)
    ensures |r| == |tasks|
    ensures forall i :: 0 <= i < |tasks| ==> r[i] == (if tasks[i].id == t.id then t else tasks[i])
  {
    if |tasks| == 0 then []
    else [if tasks[0].id == t.id then t else tasks[0]] + ReplaceById(tasks[1..], t)
  }

  /** Every stored row with `t`'s id has `t`'s key: `t` is a (possibly stale) copy of a stored task. */
  ghost predicate Tracked(s: Store, t: Task) {
    forall i :: 0 <= i < |s.tasks| && s.tasks[i].id == t.id ==> SameKey(s.tasks[i], t)
  }

  /** A stored task is tracked when ids are unique. */
  lemma StoredIsTracked(s: Store, t: Task)
    requires UniqueIds(s.tasks) && t in s.tasks
    ensures Tracked(s, t)
  {
  }

  /** Rewriting a tracked task keeps every other copy tracked. */
  lemma PutTaskKeepsTracked(s: Store, t: Task, u: Task)
    requires Tracked(s, t) && Tracked(s, u)
    ensures Tracked(PutTask(s, t), u)
  {
    var s' := PutTask(s, t);
    forall i | 0 <= i < |s'.tasks| && s'.tasks[i].id == u.id ensures SameKey(s'.tasks[i], u) {
      assert SameKey(s.tasks[i], u);
      if s.tasks[i].id == t.id {
        assert SameKey(s.tasks[i], t);
      }
    }
  }

  /** Rewriting a tracked task keeps the store valid. */
  lemma PutTaskValid(s: Store, t: Task)
    requires Valid(s)
    requires Tracked(s, t)
    ensures Valid(PutTask(s, t))
  {
    var s' := PutTask(s, t);
    assert s'.expenses == s.expenses && s'.users == s.users && s'.nextTaskId == s.nextTaskId;
    forall i | 0 <= i < |s'.tasks| ensures TaskRefsOk(s', s'.tasks[i]) {
      assert TaskRefsOk(s, s.tasks[i]);
      if s.tasks[i].id == t.id {
        assert s'.tasks[i] == t && SameKey(s.tasks[i], t);
      } else {
        assert s'.tasks[i] == s.tasks[i];
      }
    }
    forall i, j | 0 <= i < j < |s'.tasks| ensures !SameKey(s'.tasks[i], s'.tasks[j]) && s'.tasks[i].id != s'.tasks[j].id {
      assert !SameKey(s.tasks[i], s.tasks[j]) && s.tasks[i].id != s.tasks[j].id;
      assert SameKey(s'.tasks[i], s.tasks[i]) && s'.tasks[i].id == s.tasks[i].id;
      assert SameKey(s'.tasks[j], s.tasks[j]) && s'.tasks[j].id == s.tasks[j].id;
    }
  }

  /** The expense rows and the submitters they reference stay as they were. */
  predicate ExpenseRefsKept(a: map<nat, Expense>, b: map<nat, Expense>) {
    b.Keys == a.Keys && forall id :: id in a ==> b[id].id == a[id].id && b[id].userId == a[id].userId
  }

  /**
   * Once an expense is submitted the service rewrites only its status
   * columns: submitter, company, amounts, category, workflow and submission
   * date stay as they were.
   */
  predicate ExpenseFactsKept(a: map<nat, Expense>, b: map<nat, Expense>) {
    && ExpenseRefsKept(a, b)
    && forall id :: id in a ==>
         && b[id].companyId == a[id].companyId && b[id].amount == a[id].amount
         && b[id].amountInCompanyCurrency == a[id].amountInCompanyCurrency && b[id].categoryId == a[id].categoryId
         && b[id].workflowId == a[id].workflowId && b[id].submittedAt == a[id].submittedAt
  }

  /** Writes that touch only expense statuses, history and notifications keep the store valid. */
  lemma FrameValid(s: Store, s': Store)
    requires Valid(s)
    requires s'.users == s.users && s'.tasks == s.tasks && s'.nextTaskId == s.nextTaskId
    requires ExpenseRefsKept(s.expenses, s'.expenses)
    ensures Valid(s')
  {
    forall i | 0 <= i < |s'.tasks| ensures TaskRefsOk(s', s'.tasks[i]) {
      assert TaskRefsOk(s, s.tasks[i]);
    }
  }
}

=== FILE: sorting.dfy ===
/**
 * An insertion sort by a comparator, standing in for the ordering the
 * database (`ORDER BY`) and `Array.prototype.sort` apply.  Each element is
 * inserted ahead of the first element it may precede, so elements that tie
 * keep their input order, as `Array.prototype.sort` keeps them.
 */
module Sorting {

  /** `before(a, b)`: `a` may be placed before `b`.  Must be a total preorder. */
  ghost predicate TotalPreorder<T(!new)>(before: (T, T) -> bool) {
    && (forall a, b :: before(a, b) || before(b, a))
    && (forall a, b, c :: before(a, b) && before(b, c) ==> before(a, c))
  }

  predicate SortedBy<T>(s: seq<T>, before: (T, T) -> bool) {
    forall i, j :: 0 <= i < j < |s| ==> before(s[i], s[j])
  }

  /** Inserts `x` before the first element it may precede. */
  function Insert<T>(x: T, s: seq<T>, before: (T, T) -> bool): (r: seq<T>)
    ensures multiset(r) == multiset(s) + multiset{x}
    ensures |r| == |s| + 1
  {
    if |s| == 0 then [x]
    else if before(x, s[0]) then [x] + s
    else
      assert s == [s[0]] + s[1..];
      [s[0]] + Insert(x, s[1..], before)
  }

  lemma {:induction false} InsertSorted<T(!new)>(x: T, s: seq<T>, before: (T, T) -> bool)
    requires TotalPreorder(before)
    requires SortedBy(s, before)
    ensures SortedBy(Insert(x, s, before), before)
    decreases |s|
  {
    if |s| == 0 {
    } else if before(x, s[0]) {
      var r := [x] + s;
      forall i, j | 0 <= i < j < |r| ensures before(r[i], r[j]) {
        if i == 0 {
          assert before(s[0], s[j - 1]) || j - 1 == 0;
        }
      }
    } else {
      assert before(s[0], x);
      InsertSorted(x, s[1..], before);
      var t := Insert(x, s[1..], before);
      var r := [s[0]] + t;
      forall k | 0 <= k < |t| ensures before(s[0], t[k]) {
        assert t[k] in multiset(t);
        assert multiset(t) == multiset(s[1..]) + multiset{x};
        if t[k] != x {
          assert t[k] in multiset(s[1..]);
          var m :| 0 <= m < |s[1..]| && s[1..][m] == t[k];
          assert s[m + 1] == t[k];
        }
      }
      forall i, j | 0 <= i < j < |r| ensures before(r[i], r[j]) {
        if i > 0 { assert r[i] == t[i - 1] && r[j] == t[j - 1]; }
        else { assert r[j] == t[j - 1]; }
      }
    }
  }

  /** Sorts `s`: the result is a permutation of `s` ordered by `before`. */
  function Sort<T(!new)>(s: seq<T>, before: (T, T) -> bool): (r: seq<T>)
    requires TotalPreorder(before)
    ensures multiset(r) == multiset(s)
    ensures |r| == |s|
    ensures SortedBy(r, before)
  {
    if |s| == 0 then []
    else
      var t := Sort(s[1..], before);
      InsertSorted(s[0], t, before);
      assert s == [s[0]] + s[1..];
      Insert(s[0], t, before)
  }

  /** In a sorted sequence an element that may not precede another sits after it. */
  lemma SortedIndexOrder<T(!new)>(s: seq<T>, before: (T, T) -> bool, a: int, b: int)
    requires TotalPreorder(before) && SortedBy(s, before)
    requires 0 <= a < |s| && 0 <= b < |s|
    requires !before(s[a], s[b])
    ensures b < a
  {
  }

  /** A permutation has the same elements as the original. */
  lemma SameMembers<T>(r: seq<T>, s: seq<T>)
    requires multiset(r) == multiset(s)
    ensures forall x :: x in r <==> x in s
  {
    forall x ensures x in r <==> x in s {
      assert x in r <==> x in multiset(r);
      assert x in s <==> x in multiset(s);
    }
  }

  /** Elements of a permutation are elements of the original. */
  lemma InMultiset<T>(r: seq<T>, s: seq<T>, k: int)
    requires multiset(r) == multiset(s)
    requires 0 <= k < |r|
    ensures r[k] in s
  {
    assert r[k] in multiset(r);
  }
}

=== FILE: text.dfy ===
/**
 * Character and string primitives behind the JavaScript string methods the
 * source uses.  Case mapping is the ASCII part of Unicode case mapping.
 */
module Text {

  predicate IsUpper(c: char) { 'A' <= c <= 'Z' }

  predicate IsLower(c: char) { 'a' <= c <= 'z' }

  predicate IsDigit(c: char) { '0' <= c <= '9' }

  function LowerChar(c: char): (r: char)
    ensures !IsUpper(r)
    ensures !IsUpper(c) ==> r == c
  {
    if IsUpper(c) then (c as int + 32) as char else c
  }

  function UpperChar(c: char): (r: char)
    ensures !IsLower(r)
    ensures !IsLower(c) ==> r == c
  {
    if IsLower(c) then (c as int - 32) as char else c
  }

  /** `String.prototype.toLowerCase`. */
  function Lower(s: string): (r: string)
    ensures |r| == |s|
    ensures forall i :: 0 <= i < |s| ==> r[i] == LowerChar(s[i])
  {
    if |s| == 0 then "" else [LowerChar(s[0])] + Lower(s[1..])
  }

  /** Text without capitals is its own lower case. */
  lemma LowerOfLowercase(s: string)
    requires forall i :: 0 <= i < |s| ==> !IsUpper(s[i])
    ensures Lower(s) == s
  {
  }

  /**
   * Lexicographic `<` on strings by code point, the order of JavaScript's
   * string comparison (which compares UTF-16 code units).
   */
  predicate StrLess(a: string, b: string)
    decreases |a|
  {
    if |a| == 0 then |b| > 0
    else if |b| == 0 then false
    else if a[0] != b[0] then a[0] < b[0]
    else StrLess(a[1..], b[1..])
  }

  /** `StrLess` is a strict total order: exactly one of `<`, `=`, `>` holds. */
  lemma {:induction false} StrLessTrichotomy(a: string, b: string)
    ensures StrLess(a, b) || a == b || StrLess(b, a)
    ensures !(StrLess(a, b) && StrLess(b, a))
    ensures !StrLess(a, a)
    decreases |a|
  {
    if |a| > 0 && |b| > 0 && a[0] == b[0] {
      StrLessTrichotomy(a[1..], b[1..]);
      if a[1..] == b[1..] {
        assert a == [a[0]] + a[1..] && b == [b[0]] + b[1..];
      }
    }
    if |a| > 0 {
      StrLessTrichotomy(a[1..], a[1..]);
    }
  }

  lemma {:induction false} StrLessTransitive(a: string, b: string, c: string)
    requires StrLess(a, b) && StrLess(b, c)
    ensures StrLess(a, c)
    decreases |a|
  {
    if |a| > 0 && a[0] == b[0] && b[0] == c[0] {
      StrLessTransitive(a[1..], b[1..], c[1..]);
    }
  }

  /** `s.startsWith(p)`. */
  predicate StartsWith(s: string, p: string) {
    |p| <= |s| && s[..|p|] == p
  }

  /** `s.includes(p)`: `p` occurs at some position of `s`. */
  predicate Contains(s: string, p: string)
    decreases |s|
  {
    StartsWith(s, p) || (|s| > 0 && Contains(s[1..], p))
  }

  /** The characters `String.prototype.trim` removes (ECMAScript WhiteSpace and LineTerminator). */
  predicate IsWhitespace(c: char) {
    c == ' ' || c == '\t' || c == '\n' || c == '\r' || c == '\U{000B}' || c == '\U{000C}'
    || c == '\U{00A0}' || c == '\U{1680}' || ('\U{2000}' <= c <= '\U{200A}')
    || c == '\U{2028}' || c == '\U{2029}' || c == '\U{202F}' || c == '\U{205F}'
    || c == '\U{3000}' || c == '\U{FEFF}'
  }

  /** Drops leading whitespace. */
  function TrimStart(s: string): (r: string)
    ensures |r| <= |s|
    ensures r == s[|s| - |r|..]
  {
    if |s| > 0 && IsWhitespace(s[0]) then TrimStart(s[1..]) else s
  }

  /** Drops trailing whitespace. */
  function TrimEnd(s: string): (r: string)
    ensures |r| <= |s|
    ensures r == s[..|r|]
  {
    if |s| > 0 && IsWhitespace(s[|s| - 1]) then TrimEnd(s[..|s| - 1]) else s
  }

  /** `String.prototype.trim`. */
  function Trim(s: string): string {
    TrimEnd(TrimStart(s))
  }

  /** Every character is whitespace. */
  predicate AllWhitespace(s: string) {
    forall i :: 0 <= i < |s| ==> IsWhitespace(s[i])
  }

  /** `s.trim().length === 0` holds exactly for all-whitespace strings. */
  lemma {:induction false} TrimEmptyIffAllWhitespace(s: string)
    ensures |Trim(s)| == 0 <==> AllWhitespace(s)
  {
    TrimStartEmpty(s);
    TrimEndEmpty(TrimStart(s));
    if AllWhitespace(s) {
      assert |TrimStart(s)| == 0;
    } else {
      var k :| 0 <= k < |s| && !IsWhitespace(s[k]);
      TrimStartKeeps(s, k);
    }
  }

  lemma {:induction false} TrimStartEmpty(s: string)
    ensures |TrimStart(s)| == 0 <==> AllWhitespace(s)
    decreases |s|
  {
    if |s| > 0 {
      TrimStartEmpty(s[1..]);
      if IsWhitespace(s[0]) {
        if AllWhitespace(s[1..]) {
          forall i | 0 <= i < |s| ensures IsWhitespace(s[i]) {
            if i > 0 { assert s[i] == s[1..][i - 1]; }
          }
        } else {
          var k :| 0 <= k < |s[1..]| && !IsWhitespace(s[1..][k]);
          assert s[k + 1] == s[1..][k];
        }
      }
    }
  }

  lemma {:induction false} TrimEndEmpty(s: string)
    ensures |TrimEnd(s)| == 0 <==> AllWhitespace(s)
    decreases |s|
  {
    if |s| > 0 {
      var init := s[..|s| - 1];
      TrimEndEmpty(init);
      if IsWhitespace(s[|s| - 1]) {
        if AllWhitespace(init) {
          forall i | 0 <= i < |s| ensures IsWhitespace(s[i]) {
            if i < |s| - 1 { assert s[i] == init[i]; }
          }
        } else {
          var k :| 0 <= k < |init| && !IsWhitespace(init[k]);
          assert s[k] == init[k];
        }
      }
    }
  }

  /** A non-whitespace character at `k` survives `TrimStart`, so the result is non-empty. */
  lemma {:induction false} TrimStartKeeps(s: string, k: int)
    requires 0 <= k < |s| && !IsWhitespace(s[k])
    ensures |TrimStart(s)| > 0
    ensures !AllWhitespace(TrimStart(s))
    decreases |s|
  {
    if IsWhitespace(s[0]) {
      assert s[1..][k - 1] == s[k];
      TrimStartKeeps(s[1..], k - 1);
    } else {
      assert TrimStart(s)[0] == s[0];
    }
  }

  /** Blank in the sense of the rejection guard `!reason || reason.trim().length === 0`. */
  predicate Blank(s: string) {
    |Trim(s)| == 0
  }

  /** Decimal rendering of an integer, as template literals print it. */
  function IntToString(n: int): (r: string)
    ensures |r| > 0
  {
    if n < 0 then "-" + NatToString(-n) else NatToString(n)
  }

  function NatToString(n: nat): (r: string)
    ensures |r| > 0
    ensures forall i :: 0 <= i < |r| ==> IsDigit(r[i])
  {
    if n < 10 then [Digit(n)] else NatToString(n / 10) + [Digit(n % 10)]
  }

  function Digit(d: nat): (c: char)
    requires d < 10
    ensures IsDigit(c)
  {
    "0123456789"[d]
  }

  /** Amount in cents rendered as a DECIMAL(15,2) column value, "12.34". */
  function CentsToString(cents: int): string {
    var a := if cents < 0 then -cents else cents;
    var frac := a % 100;
    (if cents < 0 then "-" else "") + NatToString(a / 100) + "." + [Digit(frac / 10), Digit(frac % 10)]
  }
}

=== FILE: users.dfy ===
/**
 * The user directory (src/models/User.js): roles, approval capability,
 * serialisation without the password hash, and the lookups the workflow
 * engine performs against the users table.
 */
module Users {
  import opened Wrappers
  import opened Json
  import opened Seqs
  import Text

  /** The `role` column's ENUM. */
  datatype Role = Admin | Manager | Employee

  /** The column default. */
  const DefaultRole: Role := Employee

  function RoleName(r: Role): string {
    match r
    case Admin => "admin"
    case Manager => "manager"
    case Employee => "employee"
  }

  /** Reading the ENUM column: only the three declared names are accepted. */
  function ParseRole(s: string): (r: Option<Role>)
    ensures r.Some? <==> (s == "admin" || s == "manager" || s == "employee")
    ensures r.Some? ==> RoleName(r.value) == s
  {
    if s == "admin" then Some(Admin)
    else if s == "manager" then Some(Manager)
    else if s == "employee" then Some(Employee)
    else None
  }

  lemma RoleRoundTrip(r: Role)
    ensures ParseRole(RoleName(r)) == Some(r)
  {
  }

  datatype User = User(
    id: nat,
    companyId: nat,
    name: string,
    email: string,
    passwordHash: string,
    role: Role,
    managerId: Option<nat>,
    isManagerApprover: bool,
    department: Option<string>,
    isActive: bool)

  /** Whether the user may approve expenses at all. */
  predicate CanApprove(u: User) {
    u.role == Admin || u.role == Manager || u.isManagerApprover
  }

  /** Employees approve only when flagged as manager-approvers; admins and managers always. */
  lemma CanApproveByRole(u: User)
    ensures u.role != Employee ==> CanApprove(u)
    ensures u.role == Employee ==> (CanApprove(u) <==> u.isManagerApprover)
    ensures !u.isManagerApprover ==> (CanApprove(u) <==> RoleName(u.role) != "employee")
  {
  }

  /** `isManagerOf` as written: it compares the given id with the user's `company_id`. */
  predicate IsManagerOf(u: User, userId: int) {
    u.id == userId || (u.role == Manager && u.companyId == userId)
  }

  /**
   * The check ignores reporting lines: a manager "manages" any id equal to
   * their company id, and does not manage their own direct report.
   */
  lemma IsManagerOfIgnoresReportingLine(m: User, report: User)
    requires m.role == Manager && report.managerId == Some(m.id)
    requires report.id != m.id && report.id != m.companyId
    ensures !IsManagerOf(m, report.id)
    ensures IsManagerOf(m, m.companyId)
  {
  }

  /**
   * The user's columns as a JavaScript object.  `employee_id` and the
   * `created_at`/`updated_at` timestamps are not part of this row, so
   * properties of `ToJson(Row(u))` are about the other columns.
   */
  function Row(u: User): map<string, Json> {
    map[
      "id" := JNum(u.id),
      "company_id" := JNum(u.companyId),
      "name" := JStr(u.name),
      "email" := JStr(u.email),
      "password_hash" := JStr(u.passwordHash),
      "role" := JStr(RoleName(u.role)),
      "manager_id" := (if u.managerId.Some? then JNum(u.managerId.value) else JNull),
      "is_manager_approver" := JBool(u.isManagerApprover),
      "department" := (if u.department.Some? then JStr(u.department.value) else JNull),
      "is_active" := JBool(u.isActive)
    ]
  }

  /** `toJSON`: a copy of the object without `password_hash`. */
  function ToJson(values: map<string, Json>): (r: map<string, Json>)
    ensures "password_hash" !in r
    ensures r.Keys == values.Keys - {"password_hash"}
    ensures forall k :: k in r ==> r[k] == values[k]
  {
    map k | k in values && k != "password_hash" :: values[k]
  }

  /** Serialising a user hides the hash and keeps every other column. */
  lemma ToJsonOfUser(u: User)
    ensures "password_hash" !in ToJson(Row(u))
    ensures ToJson(Row(u))["email"] == JStr(u.email)
    ensures ToJson(Row(u))["role"] == JStr(RoleName(u.role))
    ensures |ToJson(Row(u)).Keys| == |Row(u).Keys| - 1
  {
    assert Row(u).Keys - {"password_hash"} + {"password_hash"} == Row(u).Keys;
  }

  /**
   * Two values of a text column are the same for a `where` clause or a
   * unique index: the database is created without a collation, so the
   * server's case-insensitive default applies (ASCII letters are folded).
   */
  predicate CollatedEq(a: string, b: string) {
    Text.Lower(a) == Text.Lower(b)
  }

  /** A nullable text column matched against a value that may be null (`IS NULL` for null). */
  predicate CollatedOptEq(a: Option<string>, b: Option<string>) {
    (a.None? && b.None?) || (a.Some? && b.Some? && CollatedEq(a.value, b.value))
  }

  /** The unique index `uk_user_email_company` on (email, company_id). */
  ghost predicate UniqueEmailPerCompany(users: seq<User>) {
    forall i, j :: 0 <= i < j < |users| ==>
      !(CollatedEq(users[i].email, users[j].email) && users[i].companyId == users[j].companyId)
  }

  predicate EmailTaken(users: seq<User>, email: string, companyId: nat) {
    exists i :: 0 <= i < |users| && CollatedEq(users[i].email, email) && users[i].companyId == companyId
  }

  /**
   * Inserting a user: the unique index refuses the row when the (email,
   * company) pair exists, in any case.  The column validators are not part
   * of this model.
   */
  function AddUser(users: seq<User>, u: User): (r: Result<seq<User>, string>)
    ensures r.Success? <==> !EmailTaken(users, u.email, u.companyId)
    ensures r.Success? ==> |r.value| == |users| + 1 && r.value[..|users|] == users && r.value[|users|] == u
    ensures r.Success? && UniqueEmailPerCompany(users) ==> UniqueEmailPerCompany(r.value)
  {
    if EmailTaken(users, u.email, u.companyId) then Failure("uk_user_email_company")
    else Success(users + [u])
  }

  // ---------------------------------------------------------------------
  // Directory lookups used by the workflow engine.
  // ---------------------------------------------------------------------

  /** `User.findByPk(id)`. */
  function FindUser(users: seq<User>, id: int): (r: Option<User>)
    ensures r.Some? ==> r.value in users && r.value.id == id
    ensures r.None? <==> forall j :: 0 <= j < |users| ==> users[j].id != id
  {
    FindFirst(users, (u: User) => u.id == id)
  }

  /**
   * `findAll({ company_id, role: roleName, is_active: true })`: the role
   * name is compared under the collation; a null role name matches nobody.
   */
  function RoleMembers(users: seq<User>, companyId: nat, roleName: Option<string>): (r: seq<User>)
    ensures forall u :: u in r <==> u in users && u.companyId == companyId && u.isActive
                                      && roleName.Some? && CollatedEq(roleName.value, RoleName(u.role))
  {
    Filter(users, (u: User) => u.companyId == companyId && u.isActive && roleName.Some? && CollatedEq(roleName.value, RoleName(u.role)))
  }

  /** Role names are lower case, so a name matches a role under the collation iff it lower-cases to the role's name. */
  lemma CollatedRoleName(name: string, role: Role)
    ensures CollatedEq(name, RoleName(role)) <==> Text.Lower(name) == RoleName(role)
  {
    Text.LowerOfLowercase(RoleName(role));
  }

  /** A role name in any case ("Admin", "ADMIN") finds exactly the active members of that role. */
  lemma RoleMembersAnyCase(users: seq<User>, companyId: nat, name: string, role: Role)
    requires Text.Lower(name) == RoleName(role)
    ensures forall u :: u in RoleMembers(users, companyId, Some(name)) <==>
              u in users && u.companyId == companyId && u.isActive && u.role == role
  {
    forall u | u in users ensures CollatedEq(name, RoleName(u.role)) <==> u.role == role {
      CollatedRoleName(name, u.role);
    }
  }

  /** Role names that lower-case to no ENUM value (such as "finance" and "cfo") have no members. */
  lemma RoleMembersOutsideEnum(users: seq<User>, companyId: nat, name: string)
    requires ParseRole(Text.Lower(name)).None?
    ensures RoleMembers(users, companyId, Some(name)) == []
  {
    if |RoleMembers(users, companyId, Some(name))| > 0 {
      var u := RoleMembers(users, companyId, Some(name))[0];
      CollatedRoleName(name, u.role);
      RoleRoundTrip(u.role);
    }
  }

  /**
   * `findOne` for the department head: an active manager of the company
   * whose department matches under the collation (both null also matches).
   */
  function DepartmentHead(users: seq<User>, companyId: nat, department: Option<string>): (r: Option<User>)
    ensures r.Some? ==> r.value in users && r.value.role == Manager && r.value.isActive
                        && r.value.companyId == companyId && CollatedOptEq(r.value.department, department)
    ensures r.None? ==> forall u :: u in users ==>
              !(u.role == Manager && u.isActive && u.companyId == companyId && CollatedOptEq(u.department, department))
  {
    FindFirst(users, (u: User) => u.companyId == companyId && CollatedOptEq(u.department, department) && u.role == Manager && u.isActive)
  }

  /** `findOne({ company_id, role: 'admin', is_active: true })`. */
  function ActiveAdmin(users: seq<User>, companyId: nat): (r: Option<User>)
    ensures r.Some? ==> r.value in users && r.value.role == Admin && r.value.isActive && r.value.companyId == companyId
    ensures r.None? ==> forall u :: u in users ==> !(u.role == Admin && u.isActive && u.companyId == companyId)
  {
    FindFirst(users, (u: User) => u.companyId == companyId && u.role == Admin && u.isActive)
  }
}

=== FILE: workflow_behaviour.dfy ===
/**
 * Consequences of the approval-workflow service as written that cut across
 * its operations: how rules interact, which tasks get notified, and the
 * invariant every operation keeps.
 */
module WorkflowBehaviour {
  import opened Wrappers
  import opened Json
  import opened Seqs
  import opened Expenses
  import opened ApprovalSteps
  import opened Rules
  import opened ServiceState
  import opened WorkflowRules
  import opened WorkflowTasks
  import opened WorkflowProcessing
  import opened WorkflowSweeps

  /**
   * An `auto_approve` rule does not end the rule loop: a later applicable
   * `add_approver` rule still appends its step, so the expense is approved
   * while the step list holds a plain-object step.
   */
  lemma AutoApproveDoesNotStopRules(s: Store, r1: Rule, r2: Rule, steps: seq<StepEntry>, expenseId: nat,
                                    workflowId: nat, dept: Json, now: int)
    requires expenseId in s.expenses
    requires r1.actionType == AutoApproveType && r2.actionType == AddApproverType
    requires Truthy(Field(r2.actionValue, "approver_id"))
    requires IsApplicable(r1, s.expenses[expenseId], Some(workflowId), dept)
    requires IsApplicable(r2, s.expenses[expenseId], Some(workflowId), dept)
    requires !ReadsApprovalColumns(r2.conditionField)
    ensures var a := ApplyRules(s, [r1, r2], steps, expenseId, workflowId, dept, now);
            && a.store.expenses[expenseId].status == ExpenseStatus.Approved
            && a.steps == [Added(1, "Additional Approver (Rule: " + r2.name + ")", Field(r2.actionValue, "approver_id"))]
  {
    var e := s.expenses[expenseId];
    var a1 := ApplyIfApplicable(s, r1, steps, expenseId, workflowId, dept, now);
    AutoApproveStep(s, r1, steps, expenseId, workflowId, dept, now);
    ApprovalKeepsApplicability(r2, e, workflowId, dept, now);
    AddApproverStep(a1.store, r2, expenseId, workflowId, dept, now);
    var a2 := ApplyIfApplicable(a1.store, r2, [], expenseId, workflowId, dept, now);
    assert a2.store.expenses[expenseId] == a1.store.expenses[expenseId];
    ApplyRulesStep(s, [r1, r2], steps, expenseId, workflowId, dept, now);
    assert [r1, r2][1..] == [r2];
    ApplyRulesStep(a1.store, [r2], [], expenseId, workflowId, dept, now);
    assert [r2][1..] == [];
  }

  /** The columns approving an expense writes: `status`, `approved_at` and `updated_at`. */
  predicate ReadsApprovalColumns(field: Option<string>) {
    field == Some("status") || field == Some("approved_at") || field == Some("updated_at")
  }

  /** Approving an expense does not change whether a rule on any column approval leaves alone applies to it. */
  lemma ApprovalKeepsApplicability(r: Rule, e: Expense, workflowId: nat, dept: Json, now: int)
    requires !ReadsApprovalColumns(r.conditionField)
    ensures IsApplicable(r, e.(status := ExpenseStatus.Approved, approvedAt := Some(now), updatedAt := now), Some(workflowId), dept)
            == IsApplicable(r, e, Some(workflowId), dept)
  {
    var e1 := e.(status := ExpenseStatus.Approved, approvedAt := Some(now), updatedAt := now);
    assert FieldValue(e1, r.conditionField, dept) == FieldValue(e, r.conditionField, dept);
  }

  /** An applicable `add_approver` rule with an approver appends one step and leaves the store alone. */
  lemma AddApproverStep(s: Store, r2: Rule, expenseId: nat, workflowId: nat, dept: Json, now: int)
    requires expenseId in s.expenses
    requires r2.actionType == AddApproverType
    requires Truthy(Field(r2.actionValue, "approver_id"))
    requires IsApplicable(r2, s.expenses[expenseId], Some(workflowId), dept)
    ensures var a := ApplyIfApplicable(s, r2, [], expenseId, workflowId, dept, now);
            && a.store == s
            && a.steps == [Added(1, "Additional Approver (Rule: " + r2.name + ")", Field(r2.actionValue, "approver_id"))]
  {
    assert ApplyIfApplicable(s, r2, [], expenseId, workflowId, dept, now) == ApplyRuleAction(s, ExecuteAction(r2), [], expenseId, r2, now);
  }

  /** An applicable `auto_approve` rule approves the expense and empties the step list. */
  lemma AutoApproveStep(s: Store, r1: Rule, steps: seq<StepEntry>, expenseId: nat, workflowId: nat, dept: Json, now: int)
    requires expenseId in s.expenses
    requires r1.actionType == AutoApproveType
    requires IsApplicable(r1, s.expenses[expenseId], Some(workflowId), dept)
    ensures var a := ApplyIfApplicable(s, r1, steps, expenseId, workflowId, dept, now);
            && a.steps == []
            && a.store.expenses[expenseId] == s.expenses[expenseId].(status := ExpenseStatus.Approved, approvedAt := Some(now), updatedAt := now)
  {
    assert ApplyIfApplicable(s, r1, steps, expenseId, workflowId, dept, now) == ApplyRuleAction(s, ExecuteAction(r1), steps, expenseId, r1, now);
  }

  /**
   * Any step list that reaches task creation holding a step appended by
   * `add_approver` makes the submission throw.
   */
  lemma AddedStepFailsSubmission(s: Store, expenseId: nat, w: Workflow, dept: Json, now: int)
    requires expenseId in s.expenses
    requires exists i :: 0 <= i < |Plan(s, expenseId, w, dept, now).steps| && Plan(s, expenseId, w, dept, now).steps[i].Added?
    ensures RunWorkflow(s, expenseId, w, dept, now).result.Failure?
  {
  }

  /**
   * `skip_step` compares step numbers with `!==`, so a step number given as
   * text in the rule's JSON removes nothing.
   */
  lemma SkipStepByTextRemovesNothing(s: Store, steps: seq<StepEntry>, expenseId: nat, rule: Rule, text: string, now: int)
    requires expenseId in s.expenses && text != ""
    ensures ApplyRuleAction(s, Some(SkipStepAction(JStr(text))), steps, expenseId, rule, now).steps == steps
  {
    FilterAll(steps, (x: StepEntry) => !StrictEq(JNum(EntryNumber(x)), JStr(text)));
  }

  /**
   * With the submitter's department not loaded (`undefined`), a department
   * condition compared by `=` with a string, or by any relational operator,
   * never holds.
   */
  lemma DepartmentRulesNeverFire(r: Rule, e: Expense)
    requires r.conditionField == Some("department")
    requires r.operator in {Gt, Ge, Lt, Le} || (r.operator == Eq && r.conditionValue.JStr?)
    ensures !EvaluateCondition(r, e, JUndefined)
  {
  }

  /**
   * Only tasks numbered 1 are notified when the approval starts, and the
   * current step is set to 1 regardless: if the lowest created step number
   * is not 1, nobody is notified.
   */
  lemma StartNotifiesOnlyStepOne(s: Store, expenseId: nat, tasks: seq<Task>, now: int)
    requires expenseId in s.expenses && |tasks| > 0
    requires forall t :: t in tasks ==> t.stepNumber != 1
    ensures var r := StartApprovalProcess(s, expenseId, tasks, now);
            r.notifications == s.notifications && r.expenses[expenseId].currentApprovalStep == 1
  {
  }

  /**
   * Any pending task may be approved by its approver, whatever the
   * expense's current step: the steps are not enforced in order.
   */
  lemma ApprovalIgnoresCurrentStep(s: Store, t: Task, comments: Option<string>, now: int)
    requires RefsOk(s) && t in s.tasks && UniqueIds(s.tasks) && t.status == Pending
    ensures ProcessApproval(s, t.id, t.approverId, "approve", comments, now).result.Success?
  {
    var f := FindTask(s, t.id);
    var i :| 0 <= i < |s.tasks| && s.tasks[i] == t;
    assert f.Some?;
    var j :| 0 <= j < |s.tasks| && s.tasks[j] == f.value;
    assert i == j;
  }

  /** Sending reminders keeps the store valid: it only adds notifications. */
  lemma SendReminderNotificationsValid(s: Store, days: int, now: int)
    requires Valid(s)
    ensures Valid(SendReminderNotifications(s, days, now))
  {
    FrameValid(s, SendReminderNotifications(s, days, now));
  }

  /** After a successful rejection nothing of the expense is left pending. */
  lemma RejectionClosesExpense(s: Store, taskId: int, approverId: int, reason: Option<string>, now: int)
    requires RefsOk(s)
    requires ProcessApproval(s, taskId, approverId, "reject", reason, now).result.Success?
    ensures var r := ProcessApproval(s, taskId, approverId, "reject", reason, now);
            var t := FindTask(s, taskId).value;
            && r.store.expenses[t.expenseId].status == ExpenseStatus.Rejected
            && r.store.expenses[t.expenseId].rejectionReason == reason
            && NonePending(r.store.tasks, t.expenseId)
  {
  }

  /**
   * `getStatusDate` follows the lifecycle: after submission it is the
   * submission time, after the last approval the approval time, and after a
   * rejection the rejection time.
   */
  lemma StatusDateFollowsLifecycle(s: Store, expenseId: nat, w: Workflow, task: Task, reason: string, now: int)
    requires expenseId in s.expenses
    ensures GetStatusDate(MarkSubmitted(s, expenseId, w, now).expenses[expenseId]) == Some(now)
    ensures GetStatusDate(CompleteApproval(s, expenseId, now).expenses[expenseId]) == Some(now)
    ensures TaskRefsOk(s, task) && CanBeProcessedBy(task, task.approverId) && !Text.Blank(reason)
            ==> GetStatusDate(RejectTask(s, task, reason, now).store.expenses[task.expenseId]) == Some(now)
  {
  }
}

=== FILE: workflow_processing.dfy ===
/**
 * Acting on an approval task (`processApproval`, `checkApprovalCompletion`
 * and `skipRemainingSteps` in src/services/approvalWorkflowService.js).
 */
module WorkflowProcessing {
  import opened Wrappers
  import opened Seqs
  import opened Sorting
  import opened Users
  import opened Expenses
  import opened History
  import opened Notifications
  import opened ApprovalSteps
  import opened ServiceState
  import opened WorkflowTasks
  import Text

  predicate PendingFor(t: Task, expenseId: nat) {
    t.expenseId == expenseId && t.status == Pending
  }

  /** No task of the expense is still pending. */
  predicate NonePending(tasks: seq<Task>, expenseId: nat) {
    forall i :: 0 <= i < |tasks| ==> !PendingFor(tasks[i], expenseId)
  }

  /**
   * `skipRemainingSteps`: one bulk update setting every pending task of the
   * expense to skipped with the reason as comment; nothing else changes.
   */
  function SkipRemainingSteps(s: Store, expenseId: nat, reason: string): (r: Store)
    ensures r.(tasks := s.tasks) == s && |r.tasks| == |s.tasks|
    ensures forall i :: 0 <= i < |s.tasks| ==>
              r.tasks[i] == (if PendingFor(s.tasks[i], expenseId)
                             then s.tasks[i].(status := Skipped, comments := Some(reason)) else s.tasks[i])
    ensures NonePending(r.tasks, expenseId)
  {
    s.(tasks := SkipAll(s.tasks, expenseId, reason))
  }

  function SkipAll(tasks: seq<Task>, expenseId: nat, reason: string): (r: seq<Task>)
    ensures |r| == |tasks|
    ensures forall i :: 0 <= i < |tasks| ==>
              r[i] == (if PendingFor(tasks[i], expenseId) then tasks[i].(status := Skipped, comments := Some(reason)) else tasks[i])
  {
    if |tasks| == 0 then []
    else [if PendingFor(tasks[0], expenseId) then tasks[0].(status := Skipped, comments := Some(reason)) else tasks[0]]
         + SkipAll(tasks[1..], expenseId, reason)
  }

  /** Skipping keeps keys and ids, so the store stays valid; other expenses' tasks are untouched. */
  lemma SkipRemainingStepsValid(s: Store, expenseId: nat, reason: string)
    requires Valid(s)
    ensures Valid(SkipRemainingSteps(s, expenseId, reason))
    ensures forall i :: 0 <= i < |s.tasks| && s.tasks[i].expenseId != expenseId ==>
              SkipRemainingSteps(s, expenseId, reason).tasks[i] == s.tasks[i]
  {
    var r := SkipRemainingSteps(s, expenseId, reason);
    assert r.expenses == s.expenses && r.users == s.users && r.nextTaskId == s.nextTaskId;
    forall i | 0 <= i < |r.tasks| ensures TaskRefsOk(r, r.tasks[i]) {
      assert TaskRefsOk(s, s.tasks[i]);
      assert SameKey(r.tasks[i], s.tasks[i]) && r.tasks[i].id == s.tasks[i].id;
    }
    forall i, j | 0 <= i < j < |r.tasks| ensures !SameKey(r.tasks[i], r.tasks[j]) && r.tasks[i].id != r.tasks[j].id {
      assert !SameKey(s.tasks[i], s.tasks[j]) && s.tasks[i].id != s.tasks[j].id;
      assert SameKey(r.tasks[i], s.tasks[i]) && r.tasks[i].id == s.tasks[i].id;
      assert SameKey(r.tasks[j], s.tasks[j]) && r.tasks[j].id == s.tasks[j].id;
    }
  }

  predicate TaskBefore(a: Task, b: Task) {
    a.stepNumber <= b.stepNumber
  }

  /** `ApprovalStep.findAll({ expense_id, status: 'pending' }, order step_number ASC)`. */
  function PendingSteps(s: Store, expenseId: nat): (r: seq<Task>)
    ensures forall t :: t in r <==> t in s.tasks && PendingFor(t, expenseId)
    ensures forall i, j :: 0 <= i < j < |r| ==> r[i].stepNumber <= r[j].stepNumber
  {
    assert TotalPreorder(TaskBefore);
    var c := Filter(s.tasks, (t: Task) => PendingFor(t, expenseId));
    var r := Sort(c, TaskBefore);
    SameMembers(r, c);
    r
  }

  const AllApprovalsCompleted: string := "All approvals completed"

  /**
   * `checkApprovalCompletion`: with nothing pending the expense is approved
   * and logged; otherwise the current step becomes the lowest pending step
   * number and every pending task with that number is notified (again).
   */
  function CheckApprovalCompletion(s: Store, expenseId: nat, now: int): (r: Store)
    requires expenseId in s.expenses
    ensures expenseId in r.expenses && ExpenseFactsKept(s.expenses, r.expenses)
    ensures r.users == s.users && |r.tasks| == |s.tasks|
  {
    var pending := PendingSteps(s, expenseId);
    if |pending| == 0 then CompleteApproval(s, expenseId, now)
    else
      var next := pending[0].stepNumber;
      AdvanceToStep(s, expenseId, next, Filter(pending, (t: Task) => t.stepNumber == next), now)
  }

  /** Nothing pending: the expense is approved and an `approved` history row written. */
  function CompleteApproval(s: Store, expenseId: nat, now: int): (r: Store)
    requires expenseId in s.expenses
    ensures expenseId in r.expenses && ExpenseFactsKept(s.expenses, r.expenses)
    ensures ConfigKept(s, r) && r.tasks == s.tasks && r.nextTaskId == s.nextTaskId
    ensures r.expenses[expenseId].status == ExpenseStatus.Approved && r.expenses[expenseId].approvedAt == Some(now)
    ensures |r.history| == |s.history| + 1 && r.history[|s.history|].action == HistoryAction.Approved
  {
    var e := s.expenses[expenseId];
    var s1 := PutExpense(s, expenseId, e.(status := ExpenseStatus.Approved, approvedAt := Some(now)), now);
    AddHistory(s1, CreateEntry(expenseId, e.userId, HistoryAction.Approved,
      EntryOptions(None, Some("in_approval"), Some("approved"), None, Some(map["reason" := MStr(AllApprovalsCompleted)]))))
  }

  /** Something pending: the current step moves to `next` and the batch of that step is notified. */
  function AdvanceToStep(s: Store, expenseId: nat, next: int, batch: seq<Task>, now: int): (r: Store)
    requires expenseId in s.expenses
    ensures expenseId in r.expenses && ExpenseFactsKept(s.expenses, r.expenses)
    ensures ConfigKept(s, r) && |r.tasks| == |s.tasks| && r.history == s.history
    ensures r.expenses[expenseId].status == s.expenses[expenseId].status
    ensures r.expenses[expenseId].currentApprovalStep == next
    ensures s.notifications <= r.notifications
    ensures forall t :: t in batch && Notifiable(s, t, expenseId) ==> NotifiedAfter(r, |s.notifications|, t)
  {
    var e := s.expenses[expenseId];
    NotifyAll(PutExpense(s, expenseId, e.(currentApprovalStep := next), now), batch, expenseId, now)
  }

  lemma AdvanceToStepValid(s: Store, expenseId: nat, next: int, batch: seq<Task>, now: int)
    requires Valid(s) && expenseId in s.expenses
    requires forall u :: u in batch ==> u in s.tasks
    ensures Valid(AdvanceToStep(s, expenseId, next, batch, now))
  {
    var e := s.expenses[expenseId];
    var s1 := PutExpense(s, expenseId, e.(currentApprovalStep := next), now);
    FrameValid(s, s1);
    forall u | u in batch ensures Tracked(s1, u) {
      StoredIsTracked(s1, u);
    }
    NotifyAllValid(s1, batch, expenseId, now);
  }

  /** With nothing pending the expense is approved and an `approved` history row is written. */
  lemma CompletionApproves(s: Store, expenseId: nat, now: int)
    requires expenseId in s.expenses && NonePending(s.tasks, expenseId)
    ensures var r := CheckApprovalCompletion(s, expenseId, now);
            && r.expenses[expenseId].status == ExpenseStatus.Approved
            && r.expenses[expenseId].approvedAt == Some(now)
            && r.tasks == s.tasks
            && |r.history| == |s.history| + 1
            && r.history[|s.history|].action == HistoryAction.Approved
  {
    assert forall t :: t in s.tasks ==> !PendingFor(t, expenseId);
    assert PendingSteps(s, expenseId) == [];
  }

  /**
   * With something pending the status stays, nothing is logged, and the
   * current step becomes the lowest step number among the pending tasks.
   */
  lemma CompletionAdvances(s: Store, expenseId: nat, now: int)
    requires expenseId in s.expenses && !NonePending(s.tasks, expenseId)
    ensures var r := CheckApprovalCompletion(s, expenseId, now);
            var c := r.expenses[expenseId].currentApprovalStep;
            && r.expenses[expenseId].status == s.expenses[expenseId].status
            && r.history == s.history
            && (exists i :: 0 <= i < |s.tasks| && PendingFor(s.tasks[i], expenseId) && s.tasks[i].stepNumber == c)
            && (forall i :: 0 <= i < |s.tasks| && PendingFor(s.tasks[i], expenseId) ==> c <= s.tasks[i].stepNumber)
            && (forall i ::
                  (0 <= i < |s.tasks| && PendingFor(s.tasks[i], expenseId) && s.tasks[i].stepNumber == c
                   && Notifiable(s, s.tasks[i], expenseId)) ==> NotifiedAfter(r, |s.notifications|, s.tasks[i]))
  {
    var pending := PendingSteps(s, expenseId);
    var k :| 0 <= k < |s.tasks| && PendingFor(s.tasks[k], expenseId);
    assert s.tasks[k] in pending;
    var next := pending[0].stepNumber;
    assert pending[0] in s.tasks;
    forall i | 0 <= i < |s.tasks| && PendingFor(s.tasks[i], expenseId) ensures next <= s.tasks[i].stepNumber {
      assert s.tasks[i] in pending;
    }
    var batch := Filter(pending, (t: Task) => t.stepNumber == next);
    forall i | 0 <= i < |s.tasks| && PendingFor(s.tasks[i], expenseId) && s.tasks[i].stepNumber == next
      ensures s.tasks[i] in batch
    {
      assert s.tasks[i] in pending;
    }
  }

  lemma CheckApprovalCompletionValid(s: Store, expenseId: nat, now: int)
    requires Valid(s) && expenseId in s.expenses
    ensures Valid(CheckApprovalCompletion(s, expenseId, now))
  {
    var pending := PendingSteps(s, expenseId);
    if |pending| == 0 {
      FrameValid(s, CompleteApproval(s, expenseId, now));
    } else {
      var next := pending[0].stepNumber;
      AdvanceToStepValid(s, expenseId, next, Filter(pending, (t: Task) => t.stepNumber == next), now);
    }
  }

  const ExpenseRejected: string := "Expense rejected"

  /** The writes of the `approve` branch before the completion check: task, history row, notice. */
  function RecordApproval(s: Store, task: Task, comments: Option<string>, now: int): (r: Store)
    requires TaskRefsOk(s, task) && CanBeProcessedBy(task, task.approverId)
    ensures r.(tasks := s.tasks, history := s.history, notifications := s.notifications) == s
    ensures |r.tasks| == |s.tasks|
    ensures forall i :: 0 <= i < |s.tasks| ==>
              if s.tasks[i].id == task.id then r.tasks[i] == Approve(task, task.approverId, comments, now).value
              else r.tasks[i] == s.tasks[i]
  {
    var e := s.expenses[task.expenseId];
    var approver := FindUser(s.users, task.approverId).value;
    var t' := Approve(task, task.approverId, comments, now).value;
    var s1 := PutTask(s, t');
    var s2 := AddHistory(s1, CreateEntry(task.expenseId, task.approverId, HistoryAction.Approved,
                EntryOptions(Some(task.stepNumber), Some("pending"), Some("approved"), comments, None)));
    AddNotification(s2, CreateApprovalResult(e.userId, task.expenseId, true, approver.name, comments, now))
  }

  /** The `approve` branch, after the step was found and authorised. */
  function ApproveTask(s: Store, task: Task, comments: Option<string>, now: int): (r: Outcome<Task>)
    requires TaskRefsOk(s, task) && CanBeProcessedBy(task, task.approverId)
    ensures r.result.Success? && r.result.value.status == ApprovalSteps.Approved
    ensures r.store.users == s.users && ExpenseFactsKept(s.expenses, r.store.expenses)
  {
    var s3 := RecordApproval(s, task, comments, now);
    Outcome(CheckApprovalCompletion(s3, task.expenseId, now), Success(Approve(task, task.approverId, comments, now).value))
  }

  /** Every pending task of the expense other than `task` (the one being approved). */
  predicate OtherPending(t: Task, task: Task) {
    PendingFor(t, task.expenseId) && t.id != task.id
  }

  /** Approving one task leaves pending exactly the other tasks that were pending. */
  lemma RecordApprovalPending(s: Store, task: Task, comments: Option<string>, now: int)
    requires TaskRefsOk(s, task) && CanBeProcessedBy(task, task.approverId)
    ensures var s3 := RecordApproval(s, task, comments, now);
            forall i :: 0 <= i < |s.tasks| ==> (PendingFor(s3.tasks[i], task.expenseId) <==> OtherPending(s.tasks[i], task))
  {
    var s3 := RecordApproval(s, task, comments, now);
    forall i | 0 <= i < |s.tasks| ensures PendingFor(s3.tasks[i], task.expenseId) <==> OtherPending(s.tasks[i], task) {
      if s.tasks[i].id == task.id {
        assert s3.tasks[i].status == ApprovalSteps.Approved;
      } else {
        assert s3.tasks[i] == s.tasks[i];
      }
    }
  }

  /** After the last pending task of an expense is approved, the expense is approved. */
  lemma LastApprovalCompletes(s: Store, task: Task, comments: Option<string>, now: int)
    requires TaskRefsOk(s, task) && CanBeProcessedBy(task, task.approverId)
    requires forall i :: 0 <= i < |s.tasks| ==> !OtherPending(s.tasks[i], task)
    ensures var e' := ApproveTask(s, task, comments, now).store.expenses[task.expenseId];
            e'.status == ExpenseStatus.Approved && e'.approvedAt == Some(now)
  {
    RecordApprovalPending(s, task, comments, now);
    CompletionApproves(RecordApproval(s, task, comments, now), task.expenseId, now);
  }

  /**
   * While other tasks of the expense are pending, an approval leaves the
   * status as it was and moves the current step to the lowest step number
   * among them.
   */
  lemma ApprovalAdvances(s: Store, task: Task, comments: Option<string>, now: int)
    requires TaskRefsOk(s, task) && CanBeProcessedBy(task, task.approverId)
    requires exists i :: 0 <= i < |s.tasks| && OtherPending(s.tasks[i], task)
    ensures var e' := ApproveTask(s, task, comments, now).store.expenses[task.expenseId];
            && e'.status == s.expenses[task.expenseId].status
            && (exists i :: 0 <= i < |s.tasks| && OtherPending(s.tasks[i], task) && s.tasks[i].stepNumber == e'.currentApprovalStep)
            && (forall i :: 0 <= i < |s.tasks| && OtherPending(s.tasks[i], task) ==> e'.currentApprovalStep <= s.tasks[i].stepNumber)
    ensures var r := ApproveTask(s, task, comments, now).store;
            forall i ::
              (0 <= i < |s.tasks| && OtherPending(s.tasks[i], task)
               && s.tasks[i].stepNumber == r.expenses[task.expenseId].currentApprovalStep
               && Notifiable(s, s.tasks[i], task.expenseId)) ==> NotifiedAfter(r, |s.notifications|, s.tasks[i])
  {
    var s3 := RecordApproval(s, task, comments, now);
    RecordApprovalPending(s, task, comments, now);
    var k :| 0 <= k < |s.tasks| && OtherPending(s.tasks[k], task);
    assert PendingFor(s3.tasks[k], task.expenseId);
    CompletionAdvances(s3, task.expenseId, now);
    var r := ApproveTask(s, task, comments, now).store;
    assert r == CheckApprovalCompletion(s3, task.expenseId, now);
    var c := r.expenses[task.expenseId].currentApprovalStep;
    var j :| 0 <= j < |s3.tasks| && PendingFor(s3.tasks[j], task.expenseId) && s3.tasks[j].stepNumber == c;
    assert OtherPending(s.tasks[j], task) && s.tasks[j].stepNumber == c;
    forall i | 0 <= i < |s.tasks| && OtherPending(s.tasks[i], task) ensures c <= s.tasks[i].stepNumber {
      assert PendingFor(s3.tasks[i], task.expenseId);
    }
    forall i | 0 <= i < |s.tasks| && OtherPending(s.tasks[i], task) && s.tasks[i].stepNumber == c
                 && Notifiable(s, s.tasks[i], task.expenseId)
      ensures NotifiedAfter(r, |s.notifications|, s.tasks[i])
    {
      assert PendingFor(s3.tasks[i], task.expenseId) && s3.tasks[i] == s.tasks[i];
      assert Notifiable(s3, s3.tasks[i], task.expenseId);
      var j :| |s3.notifications| <= j < |r.notifications| && r.notifications[j].userId == s.tasks[i].approverId;
    }
  }

  /**
   * The writes of the `reject` branch before the sweep: the step rejected,
   * the expense closed with the reason, a history row and the submitter's
   * notification.
   */
  function RecordRejection(s: Store, task: Task, reason: string, now: int): (r: Store)
    requires TaskRefsOk(s, task) && CanBeProcessedBy(task, task.approverId) && !Text.Blank(reason)
    ensures r.users == s.users && r.nextTaskId == s.nextTaskId
    ensures r.tasks == PutTask(s, Reject(task, task.approverId, Some(reason), now).value).tasks
    ensures ExpenseRefsKept(s.expenses, r.expenses)
    ensures var e' := r.expenses[task.expenseId];
            e'.status == ExpenseStatus.Rejected && e'.rejectionReason == Some(reason) && e'.rejectedAt == Some(now)
  {
    var t' := Reject(task, task.approverId, Some(reason), now).value;
    MarkRejected(PutTask(s, t'), task, reason, now)
  }

  /** The expense side of a rejection: the expense row, the history entry and the owner's notification. */
  function MarkRejected(s: Store, task: Task, reason: string, now: int): (r: Store)
    requires TaskRefsOk(s, task)
    ensures r.users == s.users && r.nextTaskId == s.nextTaskId && r.tasks == s.tasks
    ensures ExpenseRefsKept(s.expenses, r.expenses)
    ensures var e' := r.expenses[task.expenseId];
            e'.status == ExpenseStatus.Rejected && e'.rejectionReason == Some(reason) && e'.rejectedAt == Some(now)
  {
    var e := s.expenses[task.expenseId];
    var approver := FindUser(s.users, task.approverId).value;
    var s2 := PutExpense(s, task.expenseId,
                e.(status := ExpenseStatus.Rejected, rejectedAt := Some(now), rejectionReason := Some(reason)), now);
    var s3 := AddHistory(s2, CreateEntry(task.expenseId, task.approverId, HistoryAction.Rejected,
                EntryOptions(Some(task.stepNumber), Some("in_approval"), Some("rejected"), Some(reason), None)));
    AddNotification(s3, CreateApprovalResult(e.userId, task.expenseId, false, approver.name, Some(reason), now))
  }

  /** The `reject` branch, after the step was found and authorised and the reason checked. */
  function RejectTask(s: Store, task: Task, reason: string, now: int): (r: Outcome<Task>)
    requires TaskRefsOk(s, task) && CanBeProcessedBy(task, task.approverId) && !Text.Blank(reason)
    ensures r.result.Success? && r.result.value.status == ApprovalSteps.Rejected
    ensures r.store.users == s.users && ExpenseRefsKept(s.expenses, r.store.expenses)
    ensures var e' := r.store.expenses[task.expenseId];
            e'.status == ExpenseStatus.Rejected && e'.rejectionReason == Some(reason) && e'.rejectedAt == Some(now)
    ensures NonePending(r.store.tasks, task.expenseId)
  {
    var t' := Reject(task, task.approverId, Some(reason), now).value;
    Outcome(SkipRemainingSteps(RecordRejection(s, task, reason, now), task.expenseId, ExpenseRejected), Success(t'))
  }

  /** `processApproval(approvalStepId, approverId, action, comments)`. */
  function ProcessApproval(s: Store, taskId: int, approverId: int, action: string, comments: Option<string>, now: int): (r: Outcome<Task>)
    requires RefsOk(s)
    ensures FindTask(s, taskId).None? ==> r == Outcome(s, Failure(StepNotFound))
    ensures FindTask(s, taskId).Some? && !CanBeProcessedBy(FindTask(s, taskId).value, approverId) ==>
              r == Outcome(s, Failure(NotAuthorizedToProcess))
    ensures action != "approve" && action != "reject" && FindTask(s, taskId).Some? && CanBeProcessedBy(FindTask(s, taskId).value, approverId) ==>
              r == Outcome(s, Failure(InvalidAction))
    ensures action == "reject" && (comments.None? || Text.Blank(comments.value))
            && FindTask(s, taskId).Some? && CanBeProcessedBy(FindTask(s, taskId).value, approverId) ==>
              r == Outcome(s, Failure(RejectionReasonRequired))
    ensures r.result.Success? <==>
              && FindTask(s, taskId).Some? && CanBeProcessedBy(FindTask(s, taskId).value, approverId)
              && (action == "approve" || (action == "reject" && comments.Some? && !Text.Blank(comments.value)))
    ensures r.result.Failure? ==> r.store == s
    ensures r.result.Success? ==> r.result.value.id == taskId && r.result.value.approverId == approverId
  {
    match FindTask(s, taskId)
    case None => Outcome(s, Failure(StepNotFound))
    case Some(task) =>
      if !CanBeProcessedBy(task, approverId) then Outcome(s, Failure(NotAuthorizedToProcess))
      else
        assert TaskRefsOk(s, task);
        if action == "approve" then ApproveTask(s, task, comments, now)
        else if action == "reject" then
          if comments.None? || Text.Blank(comments.value) then Outcome(s, Failure(RejectionReasonRequired))
          else RejectTask(s, task, comments.value, now)
        else Outcome(s, Failure(InvalidAction))
  }

  /** The `approve` and `reject` branches keep the store valid. */
  lemma ProcessApprovalValid(s: Store, taskId: int, approverId: int, action: string, comments: Option<string>, now: int)
    requires Valid(s)
    ensures Valid(ProcessApproval(s, taskId, approverId, action, comments, now).store)
  {
    var r := ProcessApproval(s, taskId, approverId, action, comments, now);
    if r.result.Success? {
      var task := FindTask(s, taskId).value;
      assert TaskRefsOk(s, task);
      StoredIsTracked(s, task);
      if action == "approve" {
        var t' := Approve(task, task.approverId, comments, now).value;
        PutTaskValid(s, t');
        var s3 := RecordApproval(s, task, comments, now);
        FrameValid(PutTask(s, t'), s3);
        CheckApprovalCompletionValid(s3, task.expenseId, now);
      } else {
        var reason := comments.value;
        var t' := Reject(task, task.approverId, Some(reason), now).value;
        PutTaskValid(s, t');
        var s4 := RecordRejection(s, task, reason, now);
        FrameValid(PutTask(s, t'), s4);
        SkipRemainingStepsValid(s4, task.expenseId, ExpenseRejected);
      }
    }
  }
}

=== FILE: workflow_rules.dfy ===
/**
 * Applying the company's approval rules to a workflow's template steps
 * (`applyApprovalRules` and `applyRuleAction` in
 * src/services/approvalWorkflowService.js).  Rules run in priority order;
 * each applicable rule's action may auto-approve the expense, drop steps by
 * number, or append an extra approver step.
 */
module WorkflowRules {
  import opened Wrappers
  import opened Json
  import opened Seqs
  import opened Sorting
  import opened Expenses
  import opened History
  import opened WorkflowSteps
  import opened Rules
  import opened ServiceState

  /**
   * An entry of the step list being rewritten: a template step, or the plain
   * object `add_approver` appends, which has the step's data but none of
   * its methods.
   */
  datatype StepEntry = Template(step: WorkflowStep) | Added(stepNumber: int, stepName: string, approverId: Json)

  function EntryNumber(x: StepEntry): int {
    if x.Template? then x.step.stepNumber else x.stepNumber
  }

  /** `ORDER BY priority DESC`. */
  predicate RuleBefore(a: Rule, b: Rule) {
    a.priority >= b.priority
  }

  lemma RuleOrderIsPreorder()
    ensures TotalPreorder(RuleBefore)
  {
  }

  /** The `where` of the rule query: the company's active rules that are global or bound to the workflow. */
  predicate Selected(r: Rule, companyId: nat, workflowId: nat) {
    r.companyId == companyId && (r.workflowId.None? || r.workflowId == Some(workflowId)) && r.isActive
  }

  /** `ApprovalRule.findAll(...)` in priority order. */
  function ActiveRulesFor(s: Store, companyId: nat, workflowId: nat): (r: seq<Rule>)
    ensures SortedBy(r, RuleBefore)
    ensures forall x :: x in r <==> x in s.rules && Selected(x, companyId, workflowId)
  {
    RuleOrderIsPreorder();
    var c := Filter(s.rules, (x: Rule) => Selected(x, companyId, workflowId));
    var r := Sort(c, RuleBefore);
    SameMembers(r, c);
    r
  }

  const AutoApprovedByRule: string := "Auto-approved by rule"

  /** The state and step list after one or more rule actions. */
  datatype Applied = Applied(store: Store, steps: seq<StepEntry>)

  /** Only the status, approval date and update stamp of one expense, and the history, may change. */
  predicate RuleEffectsOnly(s: Store, s': Store, expenseId: nat) {
    && ConfigKept(s, s') && s'.tasks == s.tasks && s'.nextTaskId == s.nextTaskId && s'.notifications == s.notifications
    && ExpenseFactsKept(s.expenses, s'.expenses)
    && (forall id :: id in s.expenses && id != expenseId ==> s'.expenses[id] == s.expenses[id])
    && s.history <= s'.history
  }

  /** `applyRuleAction`. */
  function ApplyRuleAction(s: Store, action: Option<RuleAction>, steps: seq<StepEntry>, expenseId: nat,
                           rule: Rule, now: int): (r: Applied)
    requires expenseId in s.expenses
    ensures RuleEffectsOnly(s, r.store, expenseId)
    ensures action.Some? && action.value.AutoApproveAction? ==>
              && r.steps == []
              && r.store.expenses[expenseId].status == ExpenseStatus.Approved
              && r.store.expenses[expenseId].approvedAt == Some(now)
              && |r.store.history| == |s.history| + 1
              && r.store.history[|s.history|].action == AutoApproved
    ensures !(action.Some? && action.value.AutoApproveAction?) ==> r.store == s
    ensures action.Some? && action.value.SkipStepAction? && Truthy(action.value.stepNumber) ==>
              forall x :: x in r.steps <==> x in steps && !StrictEq(JNum(EntryNumber(x)), action.value.stepNumber)
    ensures action.Some? && action.value.AddApproverAction? && Truthy(action.value.approverId) ==>
              r.steps == steps + [Added(|steps| + 1, "Additional Approver (Rule: " + rule.name + ")", action.value.approverId)]
    ensures action.None? || action.value.RequireApprovalAction?
            || (action.value.SkipStepAction? && !Truthy(action.value.stepNumber))
            || (action.value.AddApproverAction? && !Truthy(action.value.approverId))
            ==> r.steps == steps
  {
    match action
    case None => Applied(s, steps)
    case Some(AutoApproveAction(_)) =>
      var e := s.expenses[expenseId];
      var s1 := PutExpense(s, expenseId, e.(status := ExpenseStatus.Approved, approvedAt := Some(now)), now);
      var h := CreateEntry(e.id, e.userId, AutoApproved,
                 EntryOptions(None, None, Some("approved"), None,
                              Some(map["rule_id" := MInt(rule.id), "reason" := MStr(AutoApprovedByRule)])));
      Applied(AddHistory(s1, h), [])
    case Some(SkipStepAction(n)) =>
      if Truthy(n) then Applied(s, Filter(steps, (x: StepEntry) => !StrictEq(JNum(EntryNumber(x)), n)))
      else Applied(s, steps)
    case Some(AddApproverAction(a)) =>
      if Truthy(a) then
        Applied(s, steps + [Added(|steps| + 1, "Additional Approver (Rule: " + rule.name + ")", a)])
      else Applied(s, steps)
    case Some(RequireApprovalAction(_)) => Applied(s, steps)
  }

  lemma RuleEffectsCompose(s: Store, s1: Store, s2: Store, expenseId: nat)
    requires RuleEffectsOnly(s, s1, expenseId) && RuleEffectsOnly(s1, s2, expenseId)
    ensures RuleEffectsOnly(s, s2, expenseId)
  {
    assert ExpenseFactsKept(s.expenses, s2.expenses) by {
      forall id | id in s.expenses
        ensures s2.expenses[id].companyId == s.expenses[id].companyId && s2.expenses[id].amount == s.expenses[id].amount
                && s2.expenses[id].amountInCompanyCurrency == s.expenses[id].amountInCompanyCurrency
                && s2.expenses[id].categoryId == s.expenses[id].categoryId
                && s2.expenses[id].workflowId == s.expenses[id].workflowId
                && s2.expenses[id].submittedAt == s.expenses[id].submittedAt
                && s2.expenses[id].id == s.expenses[id].id && s2.expenses[id].userId == s.expenses[id].userId
      {
        assert id in s1.expenses;
      }
    }
  }

  /** One turn of the loop: the rule's action when it applies to the expense as it now stands. */
  function ApplyIfApplicable(s: Store, rule: Rule, steps: seq<StepEntry>, expenseId: nat, workflowId: nat,
                             loadedDepartment: Json, now: int): (r: Applied)
    requires expenseId in s.expenses
    ensures RuleEffectsOnly(s, r.store, expenseId)
    ensures forall x :: x in r.steps ==> x in steps || x.Added?
    ensures rule.actionType != AddApproverType ==> forall x :: x in r.steps ==> x in steps
    ensures rule.actionType != AutoApproveType ==> r.store == s
  {
    if IsApplicable(rule, s.expenses[expenseId], Some(workflowId), loadedDepartment) then
      ApplyRuleAction(s, ExecuteAction(rule), steps, expenseId, rule, now)
    else Applied(s, steps)
  }

  /** The loop of `applyApprovalRules`: each rule sees the expense as earlier rules left it. */
  function ApplyRules(s: Store, rules: seq<Rule>, steps: seq<StepEntry>, expenseId: nat, workflowId: nat,
                      loadedDepartment: Json, now: int): (r: Applied)
    requires expenseId in s.expenses
    ensures RuleEffectsOnly(s, r.store, expenseId)
    ensures forall x :: x in r.steps ==> x in steps || x.Added?
    ensures (forall i :: 0 <= i < |rules| ==> rules[i].actionType != AddApproverType) ==>
              forall x :: x in r.steps ==> x in steps
    ensures (forall i :: 0 <= i < |rules| ==> rules[i].actionType != AutoApproveType) ==> r.store == s
    decreases |rules|
  {
    if |rules| == 0 then Applied(s, steps)
    else
      var a := ApplyIfApplicable(s, rules[0], steps, expenseId, workflowId, loadedDepartment, now);
      var r := ApplyRules(a.store, rules[1..], a.steps, expenseId, workflowId, loadedDepartment, now);
      RuleEffectsCompose(s, a.store, r.store, expenseId);
      assert forall i :: 1 <= i < |rules| ==> rules[i] == rules[1..][i - 1];
      r
  }

  /** The loop after its first turn: the remaining rules run on what the first one left. */
  lemma ApplyRulesStep(s: Store, rules: seq<Rule>, steps: seq<StepEntry>, expenseId: nat, workflowId: nat,
                       loadedDepartment: Json, now: int)
    requires expenseId in s.expenses && |rules| > 0
    ensures var a := ApplyIfApplicable(s, rules[0], steps, expenseId, workflowId, loadedDepartment, now);
            ApplyRules(s, rules, steps, expenseId, workflowId, loadedDepartment, now)
              == ApplyRules(a.store, rules[1..], a.steps, expenseId, workflowId, loadedDepartment, now)
  {
  }
}

=== FILE: workflow_selection.dfy ===
/**
 * Choosing the workflow for an expense (`getWorkflowForExpense` and
 * `isWorkflowApplicable` in src/services/approvalWorkflowService.js): the
 * company's active workflows, defaults first and newest first, and the
 * first that is applicable, falling back to a default or the first one.
 */
module WorkflowSelection {
  import opened Wrappers
  import opened Seqs
  import opened Sorting
  import opened Expenses
  import opened WorkflowSteps
  import opened ServiceState

  /** `ORDER BY is_default DESC, created_at DESC`. */
  predicate WorkflowBefore(a: Workflow, b: Workflow) {
    (a.isDefault && !b.isDefault) || (a.isDefault == b.isDefault && a.createdAt >= b.createdAt)
  }

  lemma WorkflowOrderIsPreorder()
    ensures TotalPreorder(WorkflowBefore)
  {
  }

  predicate IsCandidate(w: Workflow, companyId: nat) {
    w.companyId == companyId && w.isActive
  }

  /** The rows of `ApprovalWorkflow.findAll` for the company, in query order. */
  function Candidates(s: Store, companyId: nat): (r: seq<Workflow>)
    ensures multiset(r) == multiset(Filter(s.workflows, (w: Workflow) => IsCandidate(w, companyId)))
    ensures SortedBy(r, WorkflowBefore)
    ensures forall w :: w in r <==> w in s.workflows && IsCandidate(w, companyId)
  {
    WorkflowOrderIsPreorder();
    var c := Filter(s.workflows, (w: Workflow) => IsCandidate(w, companyId));
    var r := Sort(c, WorkflowBefore);
    SameMembers(r, c);
    r
  }

  /** The template steps of a workflow (the `steps` association, in storage order). */
  function StepsOf(s: Store, workflowId: nat): (r: seq<WorkflowStep>)
    ensures forall st :: st in r <==> st in s.workflowSteps && st.workflowId == workflowId
  {
    Filter(s.workflowSteps, (st: WorkflowStep) => st.workflowId == workflowId)
  }

  /** `isWorkflowApplicable`: some step applies, or it has no steps, or it is a default. */
  predicate IsWorkflowApplicable(s: Store, w: Workflow, e: Expense) {
    var steps := StepsOf(s, w.id);
    (exists i :: 0 <= i < |steps| && IsApplicableForExpense(steps[i], e)) || |steps| == 0 || w.isDefault
  }

  /** `getWorkflowForExpense`. */
  function GetWorkflowForExpense(s: Store, e: Expense): (r: Option<Workflow>)
    ensures r.None? <==> forall w :: w in s.workflows ==> !IsCandidate(w, e.companyId)
    ensures r.Some? ==> r.value in s.workflows && IsCandidate(r.value, e.companyId)
    ensures (exists w :: w in s.workflows && IsCandidate(w, e.companyId) && IsWorkflowApplicable(s, w, e))
            ==> r.Some? && IsWorkflowApplicable(s, r.value, e)
  {
    var cands := Candidates(s, e.companyId);
    match FindFirst(cands, (w: Workflow) => IsWorkflowApplicable(s, w, e))
    case Some(w) => Some(w)
    case None =>
      match FindFirst(cands, (w: Workflow) => w.isDefault)
      case Some(w) => Some(w)
      case None => if |cands| > 0 then Some(cands[0]) else None
  }

  /**
   * No candidate ordered strictly before the chosen workflow is applicable:
   * the choice is the first applicable workflow in query order.
   */
  lemma ChosenIsFirstApplicable(s: Store, e: Expense, w: Workflow)
    requires w in s.workflows && IsCandidate(w, e.companyId)
    requires WorkflowBefore(w, GetWorkflowForExpense(s, e).value) && !WorkflowBefore(GetWorkflowForExpense(s, e).value, w)
    ensures !IsWorkflowApplicable(s, w, e)
  {
    var cands := Candidates(s, e.companyId);
    var p := (x: Workflow) => IsWorkflowApplicable(s, x, e);
    var r := GetWorkflowForExpense(s, e).value;
    var j :| 0 <= j < |cands| && cands[j] == w;
    match FindIndex(cands, p)
    case Some(k) =>
      assert r == cands[k];
      WorkflowOrderIsPreorder();
      SortedIndexOrder(cands, WorkflowBefore, k, j);
    case None =>
      assert !p(cands[j]);
  }

  /**
   * A default workflow always wins: when the company has an active default,
   * the chosen workflow is a default and no active default is newer.
   */
  lemma DefaultWins(s: Store, e: Expense, d: Workflow)
    requires d in s.workflows && IsCandidate(d, e.companyId) && d.isDefault
    ensures var r := GetWorkflowForExpense(s, e);
            && r.Some? && r.value.isDefault
            && forall w :: w in s.workflows && IsCandidate(w, e.companyId) && w.isDefault ==> w.createdAt <= r.value.createdAt
  {
    var cands := Candidates(s, e.companyId);
    var j :| 0 <= j < |cands| && cands[j] == d;
    assert WorkflowBefore(cands[0], cands[j]) || j == 0;
    assert cands[0].isDefault;
    assert IsWorkflowApplicable(s, cands[0], e);
    var p := (x: Workflow) => IsWorkflowApplicable(s, x, e);
    assert FindIndex(cands, p) == Some(0);
    forall w | w in s.workflows && IsCandidate(w, e.companyId) && w.isDefault
      ensures w.createdAt <= cands[0].createdAt
    {
      var i :| 0 <= i < |cands| && cands[i] == w;
      assert WorkflowBefore(cands[0], cands[i]) || i == 0;
    }
  }

  /** With no applicable workflow the first in query order (the newest) is used anyway. */
  lemma FallsBackToNewest(s: Store, e: Expense)
    requires forall w :: w in s.workflows && IsCandidate(w, e.companyId) ==> !IsWorkflowApplicable(s, w, e)
    requires exists w :: w in s.workflows && IsCandidate(w, e.companyId)
    ensures var r := GetWorkflowForExpense(s, e);
            && r.Some? && !r.value.isDefault
            && forall w :: w in s.workflows && IsCandidate(w, e.companyId) ==> w.createdAt <= r.value.createdAt
  {
    var cands := Candidates(s, e.companyId);
    assert !IsWorkflowApplicable(s, cands[0], e);
    forall w | w in s.workflows && IsCandidate(w, e.companyId)
      ensures w.createdAt <= cands[0].createdAt
    {
      var i :| 0 <= i < |cands| && cands[i] == w;
      assert WorkflowBefore(cands[0], cands[i]) || i == 0;
    }
  }
}

=== FILE: workflow_steps.dfy ===
/**
 * Workflow template steps (src/models/ApprovalWorkflowStep.js): the amount
 * and category bounds that decide whether a step applies, the
 * auto-approval threshold, and the approver-type dispatch that resolves a
 * step to concrete users.  Amounts are integer cents; a bound of 0 is
 * falsy and therefore absent.
 */
module WorkflowSteps {
  import opened Wrappers
  import opened Seqs
  import opened Users
  import opened Expenses

  /** The `approver_type` column; `Unrecognised` stands for any text outside the ENUM. */
  datatype ApproverType = SpecificUser | RoleBased | ManagerOfSubmitter | DepartmentHeadType | Finance | Cfo | Unrecognised(text: string)

  function ApproverTypeName(t: ApproverType): string {
    match t
    case SpecificUser => "specific_user"
    case RoleBased => "role"
    case ManagerOfSubmitter => "manager"
    case DepartmentHeadType => "department_head"
    case Finance => "finance"
    case Cfo => "cfo"
    case Unrecognised(s) => s
  }

  datatype WorkflowStep = WorkflowStep(
    id: nat,
    workflowId: nat,
    stepNumber: int,
    stepName: string,
    approverType: ApproverType,
    approverId: Option<nat>,
    approverRole: Option<string>,
    isRequired: bool,
    amountMin: Option<int>,
    amountMax: Option<int>,
    categoryIds: Option<seq<int>>,
    autoApproveThreshold: Option<int>)

  /** A nullable DECIMAL column used as a condition: null and 0 are falsy. */
  predicate Present(x: Option<int>) {
    x.Some? && x.value != 0
  }

  /** The amount bounds: a present minimum above the amount or a present maximum below it excludes. */
  predicate AmountInBounds(s: WorkflowStep, amount: int) {
    !(Present(s.amountMin) && amount < s.amountMin.value)
    && !(Present(s.amountMax) && amount > s.amountMax.value)
  }

  /** The category restriction: a non-empty list must contain the category. */
  predicate CategoryAllowed(s: WorkflowStep, categoryId: int) {
    !(s.categoryIds.Some? && |s.categoryIds.value| > 0 && categoryId !in s.categoryIds.value)
  }

  /** `isApplicableForExpense`: compares `expense.amount`, not the company-currency amount. */
  function IsApplicableForExpense(s: WorkflowStep, e: Expense): (b: bool)
    ensures b <==> AmountInBounds(s, e.amount) && CategoryAllowed(s, e.categoryId)
    ensures Present(s.amountMin) && e.amount < s.amountMin.value ==> !b
    ensures Present(s.amountMax) && e.amount > s.amountMax.value ==> !b
    ensures s.categoryIds.Some? && |s.categoryIds.value| > 0 && e.categoryId !in s.categoryIds.value ==> !b
  {
    if Present(s.amountMin) && e.amount < s.amountMin.value then false
    else if Present(s.amountMax) && e.amount > s.amountMax.value then false
    else if s.categoryIds.Some? && |s.categoryIds.value| > 0 && e.categoryId !in s.categoryIds.value then false
    else true
  }

  /** A step with no bounds applies to every expense; zero bounds and an empty category list are no bounds. */
  lemma UnboundedStepApplies(s: WorkflowStep, e: Expense)
    requires s.amountMin in {None, Some(0)} && s.amountMax in {None, Some(0)}
    requires s.categoryIds in {None, Some([])}
    ensures IsApplicableForExpense(s, e)
  {
  }

  /** Applicability is monotone inside the amount range: between two applicable amounts every amount applies. */
  lemma ApplicabilityIsInterval(s: WorkflowStep, lo: Expense, mid: Expense, hi: Expense)
    requires lo.categoryId == mid.categoryId == hi.categoryId
    requires lo.amount <= mid.amount <= hi.amount
    requires IsApplicableForExpense(s, lo) && IsApplicableForExpense(s, hi)
    ensures IsApplicableForExpense(s, mid)
  {
  }

  /** `shouldAutoApprove(amount)`: a present threshold at or above the amount. */
  function ShouldAutoApprove(s: WorkflowStep, amount: int): (b: bool)
    ensures !Present(s.autoApproveThreshold) ==> !b
    ensures Present(s.autoApproveThreshold) ==> (b <==> amount <= s.autoApproveThreshold.value)
  {
    Present(s.autoApproveThreshold) && amount <= s.autoApproveThreshold.value
  }

  /** What `getApprover` returns: null, one user, or an array of users (possibly empty). */
  datatype Resolution = NoApprover | Single(user: User) | Many(users: seq<User>)

  /** The users a resolution stands for, in order. */
  function Approvers(r: Resolution): seq<User> {
    match r
    case NoApprover => []
    case Single(u) => [u]
    case Many(us) => us
  }

  /**
   * `getApprover(expense)`.  `department_head` dereferences the submitter
   * without a null check, so a missing submitter throws a TypeError.
   */
  function GetApprover(s: WorkflowStep, e: Expense, users: seq<User>): (r: Result<Resolution, string>)
    ensures r.Failure? <==> s.approverType == DepartmentHeadType && FindUser(users, e.userId).None?
    ensures s.approverType == SpecificUser ==>
              r == Success(if s.approverId.Some? && FindUser(users, s.approverId.value).Some?
                           then Single(FindUser(users, s.approverId.value).value) else NoApprover)
    ensures s.approverType == RoleBased ==> r == Success(Many(RoleMembers(users, e.companyId, s.approverRole)))
    ensures s.approverType == DepartmentHeadType && FindUser(users, e.userId).Some? ==>
              var h := DepartmentHead(users, e.companyId, FindUser(users, e.userId).value.department);
              r == Success(if h.Some? then Single(h.value) else NoApprover)
    ensures s.approverType == Finance ==> r == Success(Many(RoleMembers(users, e.companyId, Some("finance"))))
    ensures s.approverType == Cfo ==> r == Success(Many(RoleMembers(users, e.companyId, Some("cfo"))))
    ensures s.approverType.Unrecognised? ==> r == Success(NoApprover)
  {
    match s.approverType
    case SpecificUser =>
      var u := if s.approverId.Some? then FindUser(users, s.approverId.value) else None;
      Success(if u.Some? then Single(u.value) else NoApprover)
    case ManagerOfSubmitter =>
      var submitter := FindUser(users, e.userId);
      if submitter.Some? && submitter.value.managerId.Some? && submitter.value.managerId.value != 0 then
        var m := FindUser(users, submitter.value.managerId.value);
        Success(if m.Some? then Single(m.value) else NoApprover)
      else Success(NoApprover)
    case RoleBased => Success(Many(RoleMembers(users, e.companyId, s.approverRole)))
    case DepartmentHeadType =>
      var submitter := FindUser(users, e.userId);
      if submitter.None? then Failure("Cannot read properties of null (reading 'department')")
      else
        var head := DepartmentHead(users, e.companyId, submitter.value.department);
        Success(if head.Some? then Single(head.value) else NoApprover)
    case Finance => Success(Many(RoleMembers(users, e.companyId, Some("finance"))))
    case Cfo => Success(Many(RoleMembers(users, e.companyId, Some("cfo"))))
    case Unrecognised(_) => Success(NoApprover)
  }

  /** The `manager` type yields the submitter's manager, or nothing when the submitter has none. */
  lemma ManagerResolution(s: WorkflowStep, e: Expense, users: seq<User>, submitter: User)
    requires s.approverType == ManagerOfSubmitter
    requires FindUser(users, e.userId) == Some(submitter)
    ensures submitter.managerId.None? ==> GetApprover(s, e, users) == Success(NoApprover)
    ensures submitter.managerId.Some? && submitter.managerId.value != 0 ==>
              Approvers(GetApprover(s, e, users).value) ==
                (if FindUser(users, submitter.managerId.value).Some? then [FindUser(users, submitter.managerId.value).value] else [])
  {
  }

  /** `finance` and `cfo` filter on role names the role ENUM cannot hold, so they never resolve anyone. */
  lemma FinanceAndCfoNeverResolve(s: WorkflowStep, e: Expense, users: seq<User>)
    requires s.approverType == Finance || s.approverType == Cfo
    ensures GetApprover(s, e, users).Success?
    ensures Approvers(GetApprover(s, e, users).value) == []
  {
    Text.LowerOfLowercase("finance");
    Text.LowerOfLowercase("cfo");
    RoleMembersOutsideEnum(users, e.companyId, "finance");
    RoleMembersOutsideEnum(users, e.companyId, "cfo");
  }

  /** Every resolved approver is an active manager-in-department, a role member, or an existing user. */
  lemma ResolvedApproversExist(s: WorkflowStep, e: Expense, users: seq<User>)
    requires GetApprover(s, e, users).Success?
    ensures forall u :: u in Approvers(GetApprover(s, e, users).value) ==> u in users
    ensures s.approverType in {RoleBased, DepartmentHeadType} ==>
              forall u :: u in Approvers(GetApprover(s, e, users).value) ==> u.isActive && u.companyId == e.companyId
    ensures s.approverType == DepartmentHeadType ==>
              forall u :: u in Approvers(GetApprover(s, e, users).value) ==>
                u.role == Manager && CollatedOptEq(u.department, FindUser(users, e.userId).value.department)
  {
  }
}

=== FILE: workflow_sweeps.dfy ===
/**
 * The periodic sweeps over pending tasks (`escalateOverdueApprovals`,
 * `findEscalationTarget` and `sendReminderNotifications` in
 * src/services/approvalWorkflowService.js).
 */
module WorkflowSweeps {
  import opened Wrappers
  import opened Seqs
  import opened Users
  import opened History
  import opened Notifications
  import opened ApprovalSteps
  import opened ServiceState
  import Text

  const MillisPerDay: int := 86400000

  /** `findEscalationTarget(approver)`: the approver's active manager, else the company's first active admin. */
  function FindEscalationTarget(users: seq<User>, approver: User): (r: Option<User>)
    ensures r.Some? ==> r.value in users && r.value.isActive
    ensures var m := if approver.managerId.Some? && approver.managerId.value != 0
                     then FindUser(users, approver.managerId.value) else None;
            && (m.Some? && m.value.isActive ==> r == m)
            && (!(m.Some? && m.value.isActive) ==> r == ActiveAdmin(users, approver.companyId))
  {
    if approver.managerId.Some? && approver.managerId.value != 0 then
      var m := FindUser(users, approver.managerId.value);
      if m.Some? && m.value.isActive then m else ActiveAdmin(users, approver.companyId)
    else ActiveAdmin(users, approver.companyId)
  }

  /** The escalation sweep's query: pending tasks created more than `hours` hours before `now`. */
  function OverdueTasks(s: Store, hours: int, now: int): (r: seq<Task>)
    ensures forall t :: t in r <==> t in s.tasks && IsOverdue(t, hours, now)
  {
    Filter(s.tasks, (t: Task) => t.status == Pending && t.createdAt < now - hours * MillisPerHour)
  }

  /** One record of the sweep's result. */
  datatype Escalation = Escalation(original: Task, escalated: Task, target: User)

  /**
   * The escalation task of a record: a fresh pending `escalated` task for the
   * target, at the original task's expense and step.
   */
  predicate EscalatedFor(x: Escalation) {
    && x.escalated.status == Pending && x.escalated.approverType == "escalated"
    && x.escalated.expenseId == x.original.expenseId && x.escalated.stepNumber == x.original.stepNumber
    && x.escalated.approverId == x.target.id && x.escalated.notifiedAt.None?
  }

  function EscalationComment(hours: int): string {
    "Escalated due to " + Text.IntToString(hours) + "h timeout"
  }

  /** An overdue task as the sweep leaves it once escalated: skipped, with the timeout comment. */
  function SkippedOriginal(t: Task, hours: int): Task {
    t.(status := Skipped, comments := Some(EscalationComment(hours)))
  }

  /** Where the sweep sends a task: its approver's target, when the approver is found and has one. */
  function TargetOf(users: seq<User>, t: Task): Option<User> {
    match FindUser(users, t.approverId)
    case None => None
    case Some(approver) => FindEscalationTarget(users, approver)
  }

  /** The writes for one overdue task once its escalation task exists. */
  function RecordEscalation(s: Store, t: Task, target: User, hours: int, now: int): (r: Store)
    ensures ConfigKept(s, r) && r.expenses == s.expenses && r.nextTaskId == s.nextTaskId
    ensures r.tasks == PutTask(s, SkippedOriginal(t, hours)).tasks
    ensures |r.tasks| == |s.tasks|
    ensures |r.history| == |s.history| + 1 && r.history[|s.history|].action == HistoryAction.Escalated
    ensures |r.notifications| == |s.notifications| + 1 && r.notifications[|s.notifications|].ntype == NotificationType.Escalated
            && r.notifications[|s.notifications|].userId == target.id
  {
    var s1 := PutTask(s, SkippedOriginal(t, hours));
    var s2 := AddHistory(s1, CreateEntry(t.expenseId, target.id, HistoryAction.Escalated,
                EntryOptions(Some(t.stepNumber), Some("pending"), Some("escalated"), None,
                  Some(map["original_approver_id" := MInt(t.approverId), "escalation_reason" := MStr("Timeout"),
                           "hours_overdue" := MInt(hours)]))));
    AddNotification(s2, CreateEscalation(target.id, t.expenseId, "Approval overdue for " + Text.IntToString(hours) + " hours", now))
  }

  const NoApproverLoaded: string := "Cannot read properties of null (reading 'manager_id')"

  /**
   * One iteration of the loop of `escalateOverdueApprovals`: a task whose
   * approver has a target gets a new pending `escalated` task for the
   * target, is itself skipped, and is logged and notified.  A failing create
   * throws.
   */
  function EscalateOne(s: Store, t: Task, hours: int, now: int): (r: Outcome<Option<Escalation>>)
    ensures r.store.users == s.users && r.store.expenses == s.expenses
    ensures |s.tasks| <= |r.store.tasks|
    ensures s.nextTaskId <= r.store.nextTaskId
    ensures r.result.Success? && r.result.value.Some? ==>
              r.result.value.value.original == t && EscalatedFor(r.result.value.value)
    ensures FindUser(s.users, t.approverId).None? ==> r == Outcome(s, Failure(TypeError(NoApproverLoaded)))
    ensures FindUser(s.users, t.approverId).Some? && TargetOf(s.users, t).None? ==> r == Outcome(s, Success(None))
    ensures TargetOf(s.users, t).Some? ==>
              var target := TargetOf(s.users, t).value;
              && (r.result.Failure? <==> KeyTaken(s.tasks, t.expenseId, t.stepNumber, target.id))
              && (r.result.Failure? ==> r.store == s && r.result.error == UniqueViolation(t.expenseId, t.stepNumber, target.id))
              && (r.result.Success? ==>
                    && r.result.value.Some? && r.result.value.value.target == target
                    && |r.store.tasks| == |s.tasks| + 1
                    && (t.id != s.nextTaskId ==> r.store.tasks[|s.tasks|] == r.result.value.value.escalated)
                    && forall i :: 0 <= i < |s.tasks| ==>
                         r.store.tasks[i] == if s.tasks[i].id == t.id then SkippedOriginal(t, hours) else s.tasks[i])
  {
    match FindUser(s.users, t.approverId)
    case None => Outcome(s, Failure(TypeError(NoApproverLoaded)))
    case Some(approver) =>
      match FindEscalationTarget(s.users, approver)
      case None => Outcome(s, Success(None))
      case Some(target) =>
        var o := CreateTask(s, t.expenseId, None, t.stepNumber, target.id, "escalated", now);
        if o.result.Failure? then Outcome(o.store, Failure(o.result.error))
        else Outcome(RecordEscalation(o.store, t, target, hours, now), Success(Some(Escalation(t, o.result.value, target))))
  }

  /** The loop of `escalateOverdueApprovals` over the tasks read at its start; a throw ends the sweep. */
  function EscalateEach(s: Store, overdue: seq<Task>, hours: int, now: int): (r: Outcome<seq<Escalation>>)
    ensures r.store.users == s.users && r.store.expenses == s.expenses
    ensures |s.tasks| <= |r.store.tasks| && s.nextTaskId <= r.store.nextTaskId
    ensures r.result.Success? ==> |r.result.value| <= |overdue|
    ensures r.result.Success? ==> forall x :: x in r.result.value ==> x.original in overdue && EscalatedFor(x)
    decreases |overdue|
  {
    if |overdue| == 0 then Outcome(s, Success([]))
    else
      var o := EscalateOne(s, overdue[0], hours, now);
      if o.result.Failure? then Outcome(o.store, Failure(o.result.error))
      else JoinEscalations(s, overdue, o, EscalateEach(o.store, overdue[1..], hours, now))
  }

  /** The record of the first overdue task, if any, in front of the records of the rest. */
  function JoinEscalations(s: Store, overdue: seq<Task>, o: Outcome<Option<Escalation>>, rest: Outcome<seq<Escalation>>)
    : (r: Outcome<seq<Escalation>>)
    requires |overdue| > 0 && o.result.Success?
    requires o.store.users == s.users && o.store.expenses == s.expenses && |s.tasks| <= |o.store.tasks|
    requires o.result.value.Some? ==> o.result.value.value.original == overdue[0] && EscalatedFor(o.result.value.value)
    requires rest.store.users == s.users && rest.store.expenses == s.expenses && |o.store.tasks| <= |rest.store.tasks|
    requires rest.result.Success? ==> |rest.result.value| <= |overdue| - 1
    requires rest.result.Success? ==> forall x :: x in rest.result.value ==> x.original in overdue[1..] && EscalatedFor(x)
    ensures r.store == rest.store && (rest.result.Failure? ==> r == rest)
    ensures rest.result.Success? ==>
              r.result == Success((if o.result.value.Some? then [o.result.value.value] else []) + rest.result.value)
    ensures r.result.Success? ==> |r.result.value| <= |overdue|
    ensures r.result.Success? ==> forall x :: x in r.result.value ==> x.original in overdue && EscalatedFor(x)
  {
    if rest.result.Failure? then rest
    else
      var head := if o.result.value.Some? then [o.result.value.value] else [];
      assert forall x :: x in rest.result.value ==> x.original in overdue;
      Outcome(rest.store, Success(head + rest.result.value))
  }

  /** Some task of the list with the given id has an escalation target. */
  predicate IdEscalated(users: seq<User>, ts: seq<Task>, id: nat) {
    exists k :: 0 <= k < |ts| && ts[k].id == id && TargetOf(users, ts[k]).Some?
  }

  /** No two records of a sweep are about the same task. */
  predicate OriginalsDistinct(xs: seq<Escalation>) {
    forall i, j :: 0 <= i < j < |xs| ==> xs[i].original.id != xs[j].original.id
  }

  lemma IdEscalatedTail(users: seq<User>, ts: seq<Task>, id: nat)
    requires |ts| > 0 && IdEscalated(users, ts[1..], id)
    ensures IdEscalated(users, ts, id)
  {
    var k :| 0 <= k < |ts[1..]| && ts[1..][k].id == id && TargetOf(users, ts[1..][k]).Some?;
    assert ts[k + 1] == ts[1..][k];
  }

  lemma UniqueIdsTail(ts: seq<Task>)
    requires |ts| > 0 && UniqueIds(ts)
    ensures UniqueIds(ts[1..]) && forall k :: 0 <= k < |ts[1..]| ==> ts[1..][k].id != ts[0].id
  {
    forall i, j | 0 <= i < j < |ts[1..]| ensures ts[1..][i].id != ts[1..][j].id {
      assert ts[1..][i] == ts[i + 1] && ts[1..][j] == ts[j + 1];
    }
    forall k | 0 <= k < |ts[1..]| ensures ts[1..][k].id != ts[0].id {
      assert ts[1..][k] == ts[k + 1];
    }
  }

  /**
   * What the sweep does to the stored rows: the row of every listed task
   * with a target ends up skipped with the timeout comment, and every other
   * row that existed before is left as it was, even when the sweep throws.
   */
  lemma {:induction false} EscalateEachRows(s: Store, overdue: seq<Task>, hours: int, now: int)
    requires UniqueIds(overdue)
    ensures var r := EscalateEach(s, overdue, hours, now);
            forall i :: 0 <= i < |s.tasks| && !IdEscalated(s.users, overdue, s.tasks[i].id) ==> r.store.tasks[i] == s.tasks[i]
    ensures var r := EscalateEach(s, overdue, hours, now);
            r.result.Success? ==>
              forall k, i ::
                (0 <= k < |overdue| && TargetOf(s.users, overdue[k]).Some? && 0 <= i < |s.tasks|
                 && s.tasks[i].id == overdue[k].id) ==> r.store.tasks[i] == SkippedOriginal(overdue[k], hours)
    decreases |overdue|
  {
    if |overdue| > 0 {
      var r := EscalateEach(s, overdue, hours, now);
      var o := EscalateOne(s, overdue[0], hours, now);
      if o.result.Success? {
        var ts := overdue[1..];
        UniqueIdsTail(overdue);
        EscalateEachRows(o.store, ts, hours, now);
        assert r.store == EscalateEach(o.store, ts, hours, now).store;
        forall i | 0 <= i < |s.tasks| && !IdEscalated(s.users, overdue, s.tasks[i].id) ensures r.store.tasks[i] == s.tasks[i] {
          if IdEscalated(s.users, ts, s.tasks[i].id) {
            IdEscalatedTail(s.users, overdue, s.tasks[i].id);
          }
          assert !(s.tasks[i].id == overdue[0].id && TargetOf(s.users, overdue[0]).Some?);
        }
        if r.result.Success? {
          forall k, i | 0 <= k < |overdue| && TargetOf(s.users, overdue[k]).Some? && 0 <= i < |s.tasks| && s.tasks[i].id == overdue[k].id
            ensures r.store.tasks[i] == SkippedOriginal(overdue[k], hours)
          {
            if k == 0 {
              assert o.store.tasks[i] == SkippedOriginal(overdue[0], hours);
            } else {
              assert ts[k - 1] == overdue[k];
              assert o.store.tasks[i] == s.tasks[i];
            }
          }
        }
      }
    }
  }

  /** The records of a sweep over `ts` as `EscalateEachComplete` describes them. */
  predicate RecordsComplete(users: seq<User>, ts: seq<Task>, xs: seq<Escalation>) {
    && OriginalsDistinct(xs)
    && (forall x :: x in xs ==> TargetOf(users, x.original) == Some(x.target))
    && (forall k :: 0 <= k < |ts| && TargetOf(users, ts[k]).Some? ==> exists x :: x in xs && x.original == ts[k])
  }

  /**
   * A sweep that returns records every listed task with an escalation
   * target exactly once, with that target, and no other task.
   */
  lemma {:induction false} EscalateEachComplete(s: Store, overdue: seq<Task>, hours: int, now: int)
    requires UniqueIds(overdue)
    ensures var r := EscalateEach(s, overdue, hours, now);
            r.result.Success? ==> RecordsComplete(s.users, overdue, r.result.value)
    decreases |overdue|
  {
    if |overdue| > 0 {
      var r := EscalateEach(s, overdue, hours, now);
      var o := EscalateOne(s, overdue[0], hours, now);
      if o.result.Success? {
        var ts := overdue[1..];
        var rest := EscalateEach(o.store, ts, hours, now);
        UniqueIdsTail(overdue);
        EscalateEachComplete(o.store, ts, hours, now);
        assert r == JoinEscalations(s, overdue, o, rest);
        if rest.result.Success? {
          JoinComplete(s.users, overdue, o.result.value, rest.result.value);
        }
      }
    }
  }

  /** The first task's record, if any, in front of complete records of the rest are complete records of all. */
  lemma JoinComplete(users: seq<User>, overdue: seq<Task>, first: Option<Escalation>, rest: seq<Escalation>)
    requires |overdue| > 0 && UniqueIds(overdue)
    requires first.Some? ==> first.value.original == overdue[0] && TargetOf(users, overdue[0]) == Some(first.value.target)
    requires TargetOf(users, overdue[0]).Some? ==> first.Some?
    requires forall x :: x in rest ==> x.original in overdue[1..]
    requires RecordsComplete(users, overdue[1..], rest)
    ensures RecordsComplete(users, overdue, (if first.Some? then [first.value] else []) + rest)
  {
    var head := if first.Some? then [first.value] else [];
    JoinDistinct(overdue, head, rest);
    JoinCovers(users, overdue, head, rest);
  }

  lemma JoinDistinct(overdue: seq<Task>, head: seq<Escalation>, rest: seq<Escalation>)
    requires |overdue| > 0 && UniqueIds(overdue)
    requires |head| <= 1 && forall x :: x in head ==> x.original == overdue[0]
    requires forall x :: x in rest ==> x.original in overdue[1..]
    requires OriginalsDistinct(rest)
    ensures OriginalsDistinct(head + rest)
  {
    var xs := head + rest;
    forall i, j | 0 <= i < j < |xs| ensures xs[i].original.id != xs[j].original.id {
      if i < |head| {
        assert xs[i] in head;
        assert xs[j] == rest[j - |head|] && xs[j] in rest;
        var k :| 1 <= k < |overdue| && overdue[k] == xs[j].original;
      } else {
        assert xs[i] == rest[i - |head|] && xs[j] == rest[j - |head|];
      }
    }
  }

  lemma JoinCovers(users: seq<User>, overdue: seq<Task>, head: seq<Escalation>, rest: seq<Escalation>)
    requires |overdue| > 0
    requires TargetOf(users, overdue[0]).Some? ==> |head| > 0 && head[0].original == overdue[0]
    requires forall k :: 0 <= k < |overdue[1..]| && TargetOf(users, overdue[1..][k]).Some? ==>
               exists x :: x in rest && x.original == overdue[1..][k]
    ensures forall k :: 0 <= k < |overdue| && TargetOf(users, overdue[k]).Some? ==>
              exists x :: x in head + rest && x.original == overdue[k]
  {
    forall k | 0 <= k < |overdue| && TargetOf(users, overdue[k]).Some?
      ensures exists x :: x in head + rest && x.original == overdue[k]
    {
      if k == 0 {
        assert (head + rest)[0] == head[0];
      } else {
        assert overdue[1..][k - 1] == overdue[k];
        var x :| x in rest && x.original == overdue[k];
        assert x in head + rest;
      }
    }
  }

  /** `escalateOverdueApprovals(hours)`. */
  function EscalateOverdueApprovals(s: Store, hours: int, now: int): (r: Outcome<seq<Escalation>>)
    ensures r.store.users == s.users && r.store.expenses == s.expenses
    ensures r.result.Success? ==> forall x :: x in r.result.value ==> x.original in s.tasks && IsOverdue(x.original, hours, now)
  {
    EscalateEach(s, OverdueTasks(s, hours, now), hours, now)
  }

  /** `Math.ceil(x / d)` for a positive divisor. */
  function CeilDiv(x: int, d: int): (q: int)
    requires d > 0
    ensures (q - 1) * d < x <= q * d
  {
    -((-x) / d)
  }

  /** The reminder sweep's query: pending, notified, and created more than `days` days before `now`. */
  predicate NeedsReminder(t: Task, days: int, now: int) {
    t.status == Pending && t.createdAt < now - days * MillisPerDay && t.notifiedAt.Some?
  }

  /** The reminder for one due task, with the whole days elapsed rounded up. */
  function ReminderFor(t: Task, now: int): (n: Notification)
    ensures n.ntype == Reminder && n.userId == t.approverId && n.expenseId == Some(t.expenseId)
  {
    CreateReminder(t.approverId, t.expenseId, CeilDiv(now - t.createdAt, MillisPerDay), now)
  }

  /** The reminders of the due tasks, in order. */
  function Reminders(due: seq<Task>, now: int): (ns: seq<Notification>)
    ensures |ns| == |due|
    ensures forall i :: 0 <= i < |due| ==> ns[i] == ReminderFor(due[i], now)
    decreases |due|
  {
    if |due| == 0 then [] else [ReminderFor(due[0], now)] + Reminders(due[1..], now)
  }

  /** The sweep's query result: the stored tasks that need a reminder, in stored order. */
  function DueForReminder(s: Store, days: int, now: int): (due: seq<Task>)
    ensures forall t :: t in due <==> t in s.tasks && NeedsReminder(t, days, now)
  {
    Filter(s.tasks, (t: Task) => NeedsReminder(t, days, now))
  }

  /**
   * `sendReminderNotifications(days)`: one reminder per due task, to its
   * approver about its expense; the tasks themselves are not touched.
   */
  function SendReminderNotifications(s: Store, days: int, now: int): (r: Store)
    ensures r.(notifications := s.notifications) == s
    ensures var due := DueForReminder(s, days, now);
            && |r.notifications| == |s.notifications| + |due|
            && r.notifications[..|s.notifications|] == s.notifications
            && forall i :: 0 <= i < |due| ==>
                 var n := r.notifications[|s.notifications| + i];
                 n.ntype == Reminder && n.userId == due[i].approverId && n.expenseId == Some(due[i].expenseId)
  {
    s.(notifications := s.notifications + Reminders(DueForReminder(s, days, now), now))
  }

  /** A copy of a stored task whose references resolve. */
  ghost predicate Snapshot(s: Store, t: Task) {
    Tracked(s, t) && TaskRefsOk(s, t)
  }

  /** Every task of a list read earlier is still a usable snapshot. */
  ghost predicate Snapshots(s: Store, ts: seq<Task>) {
    forall i :: 0 <= i < |ts| ==> Snapshot(s, ts[i])
  }

  lemma RecordEscalationValid(s: Store, t: Task, target: User, hours: int, now: int, rest: seq<Task>)
    requires Valid(s) && Snapshot(s, t)
    requires Snapshots(s, rest)
    ensures var r := RecordEscalation(s, t, target, hours, now);
            Valid(r) && Snapshots(r, rest)
  {
    var t' := t.(status := Skipped, comments := Some(EscalationComment(hours)));
    var s1 := PutTask(s, t');
    PutTaskValid(s, t');
    var r := RecordEscalation(s, t, target, hours, now);
    forall i | 0 <= i < |rest| ensures Snapshot(r, rest[i]) {
      PutTaskKeepsTracked(s, t', rest[i]);
      assert Snapshot(s1, rest[i]);
    }
    FrameValid(s1, r);
  }

  /** One escalation (create, skip, log, notify) keeps the store valid and the remaining snapshot usable. */
  lemma EscalateOneValid(s: Store, t: Task, hours: int, now: int, rest: seq<Task>)
    requires Valid(s) && Snapshot(s, t)
    requires Snapshots(s, rest)
    ensures var r := EscalateOne(s, t, hours, now).store;
            Valid(r) && Snapshots(r, rest)
  {
    var approver := FindUser(s.users, t.approverId);
    if approver.Some? {
      var target := FindEscalationTarget(s.users, approver.value);
      if target.Some? {
        EscalateToValid(s, t, target.value, hours, now, rest);
      }
    }
  }

  /** Escalating to a known target: the create and the record both keep the store valid. */
  lemma EscalateToValid(s: Store, t: Task, target: User, hours: int, now: int, rest: seq<Task>)
    requires Valid(s) && Snapshot(s, t)
    requires Snapshots(s, rest)
    requires FindUser(s.users, target.id).Some?
    ensures var o := CreateTask(s, t.expenseId, None, t.stepNumber, target.id, "escalated", now);
            && Valid(o.store) && Snapshots(o.store, rest)
            && (o.result.Success? ==> var r := RecordEscalation(o.store, t, target, hours, now); Valid(r) && Snapshots(r, rest))
  {
    var o := CreateTask(s, t.expenseId, None, t.stepNumber, target.id, "escalated", now);
    CreateTaskValid(s, t.expenseId, None, t.stepNumber, target.id, "escalated", now);
    CreateTaskKeepsSnapshots(s, t.expenseId, t.stepNumber, target.id, now, rest);
    if o.result.Success? {
      CreateTaskKeepsTracked(s, t.expenseId, None, t.stepNumber, target.id, "escalated", now, t);
      RecordEscalationValid(o.store, t, target, hours, now, rest);
    }
  }

  /** Creating a task leaves every earlier snapshot usable. */
  lemma CreateTaskKeepsSnapshots(s: Store, expenseId: nat, stepNumber: int, approverId: nat, now: int, rest: seq<Task>)
    requires Snapshots(s, rest)
    ensures Snapshots(CreateTask(s, expenseId, None, stepNumber, approverId, "escalated", now).store, rest)
  {
    var o := CreateTask(s, expenseId, None, stepNumber, approverId, "escalated", now);
    forall i | 0 <= i < |rest| ensures Snapshot(o.store, rest[i]) {
      CreateTaskKeepsTracked(s, expenseId, None, stepNumber, approverId, "escalated", now, rest[i]);
    }
  }

  /** The tasks a query keeps from a table with unique ids have unique ids. */
  lemma {:induction false} FilterUniqueIds(ts: seq<Task>, p: Task -> bool)
    requires UniqueIds(ts)
    ensures UniqueIds(Filter(ts, p))
    decreases |ts|
  {
    if |ts| > 0 {
      UniqueIdsTail(ts);
      FilterUniqueIds(ts[1..], p);
      var f := Filter(ts[1..], p);
      forall k | 0 <= k < |f| ensures f[k].id != ts[0].id {
        var j :| 0 <= j < |ts[1..]| && ts[1..][j] == f[k];
      }
    }
  }

  /** A stored row that is not both overdue and escalatable shares its id with no escalatable overdue task. */
  lemma NotEscalatedRow(s: Store, hours: int, now: int, i: int)
    requires UniqueIds(s.tasks) && 0 <= i < |s.tasks|
    requires !(IsOverdue(s.tasks[i], hours, now) && TargetOf(s.users, s.tasks[i]).Some?)
    ensures !IdEscalated(s.users, OverdueTasks(s, hours, now), s.tasks[i].id)
  {
    var overdue := OverdueTasks(s, hours, now);
    forall k | 0 <= k < |overdue| && overdue[k].id == s.tasks[i].id ensures TargetOf(s.users, overdue[k]).None? {
      assert overdue[k] in s.tasks;
      var j :| 0 <= j < |s.tasks| && s.tasks[j] == overdue[k];
      assert j == i;
    }
  }

  /**
   * `escalateOverdueApprovals` touches no stored row except those of
   * overdue tasks whose approver has an escalation target, even when it
   * throws part-way.
   */
  lemma EscalateOverdueApprovalsFrame(s: Store, hours: int, now: int)
    requires Valid(s)
    ensures var r := EscalateOverdueApprovals(s, hours, now);
            forall i ::
              (0 <= i < |s.tasks| && !(IsOverdue(s.tasks[i], hours, now) && TargetOf(s.users, s.tasks[i]).Some?))
              ==> r.store.tasks[i] == s.tasks[i]
  {
    var overdue := OverdueTasks(s, hours, now);
    FilterUniqueIds(s.tasks, (t: Task) => t.status == Pending && t.createdAt < now - hours * MillisPerHour);
    EscalateEachRows(s, overdue, hours, now);
    forall i | 0 <= i < |s.tasks| && !(IsOverdue(s.tasks[i], hours, now) && TargetOf(s.users, s.tasks[i]).Some?)
      ensures !IdEscalated(s.users, overdue, s.tasks[i].id)
    {
      NotEscalatedRow(s, hours, now, i);
    }
  }

  /**
   * `escalateOverdueApprovals`, when it returns: every stored overdue task
   * whose approver has an escalation target is recorded exactly once, with
   * that target, and its row is left skipped with the timeout comment.
   */
  lemma EscalateOverdueApprovalsComplete(s: Store, hours: int, now: int)
    requires Valid(s)
    ensures var r := EscalateOverdueApprovals(s, hours, now);
            r.result.Success? ==>
              && OriginalsDistinct(r.result.value)
              && (forall x :: x in r.result.value ==> TargetOf(s.users, x.original) == Some(x.target))
              && forall i ::
                   (0 <= i < |s.tasks| && IsOverdue(s.tasks[i], hours, now) && TargetOf(s.users, s.tasks[i]).Some?) ==>
                     && r.store.tasks[i] == SkippedOriginal(s.tasks[i], hours)
                     && exists x :: x in r.result.value && x.original == s.tasks[i]
  {
    var overdue := OverdueTasks(s, hours, now);
    var r := EscalateOverdueApprovals(s, hours, now);
    FilterUniqueIds(s.tasks, (t: Task) => t.status == Pending && t.createdAt < now - hours * MillisPerHour);
    EscalateEachRows(s, overdue, hours, now);
    EscalateEachComplete(s, overdue, hours, now);
    if r.result.Success? {
      forall i | 0 <= i < |s.tasks| && IsOverdue(s.tasks[i], hours, now) && TargetOf(s.users, s.tasks[i]).Some?
        ensures r.store.tasks[i] == SkippedOriginal(s.tasks[i], hours)
        ensures exists x :: x in r.result.value && x.original == s.tasks[i]
      {
        assert s.tasks[i] in overdue;
        var k :| 0 <= k < |overdue| && overdue[k] == s.tasks[i];
      }
    }
  }

  /** The sweep keeps the store valid, including when a create throws part-way. */
  lemma {:induction false} EscalateEachValid(s: Store, overdue: seq<Task>, hours: int, now: int)
    requires Valid(s)
    requires Snapshots(s, overdue)
    ensures Valid(EscalateEach(s, overdue, hours, now).store)
    decreases |overdue|
  {
    if |overdue| > 0 {
      var rest := overdue[1..];
      SnapshotsTail(s, overdue);
      EscalateOneValid(s, overdue[0], hours, now, rest);
      var o := EscalateOne(s, overdue[0], hours, now);
      EscalateEachStep(s, overdue, hours, now);
      if o.result.Success? {
        EscalateEachValid(o.store, rest, hours, now);
      }
    }
  }

  /** The sweep's store after its first iteration. */
  lemma EscalateEachStep(s: Store, overdue: seq<Task>, hours: int, now: int)
    requires |overdue| > 0
    ensures var o := EscalateOne(s, overdue[0], hours, now);
            EscalateEach(s, overdue, hours, now).store
              == if o.result.Failure? then o.store else EscalateEach(o.store, overdue[1..], hours, now).store
  {
  }

  lemma SnapshotsTail(s: Store, ts: seq<Task>)
    requires |ts| > 0 && Snapshots(s, ts)
    ensures Snapshot(s, ts[0]) && Snapshots(s, ts[1..])
  {
    forall i | 0 <= i < |ts| - 1 ensures Snapshot(s, ts[1..][i]) {
      assert ts[1..][i] == ts[i + 1];
    }
  }

  lemma EscalateOverdueApprovalsValid(s: Store, hours: int, now: int)
    requires Valid(s)
    ensures Valid(EscalateOverdueApprovals(s, hours, now).store)
  {
    var overdue := OverdueTasks(s, hours, now);
    forall i | 0 <= i < |overdue| ensures Snapshot(s, overdue[i]) {
      assert overdue[i] in overdue;
      StoredIsTracked(s, overdue[i]);
    }
    EscalateEachValid(s, OverdueTasks(s, hours, now), hours, now);
  }

  /**
   * When an overdue task's escalation target is its own approver (an
   * approver without an active manager who is the company's first active
   * admin), creating the escalation task hits the unique index on
   * (expense, step number, approver) and the sweep throws.
   */
  lemma EscalationToSelfAborts(s: Store, overdue: seq<Task>, hours: int, now: int)
    requires |overdue| > 0 && overdue[0] in s.tasks
    requires FindUser(s.users, overdue[0].approverId).Some?
    requires var target := FindEscalationTarget(s.users, FindUser(s.users, overdue[0].approverId).value);
             target.Some? && target.value.id == overdue[0].approverId
    ensures var t := overdue[0];
            EscalateEach(s, overdue, hours, now).result == Failure(UniqueViolation(t.expenseId, t.stepNumber, t.approverId))
  {
    var t := overdue[0];
    var i :| 0 <= i < |s.tasks| && s.tasks[i] == t;
    assert KeyTaken(s.tasks, t.expenseId, t.stepNumber, t.approverId);
    assert EscalateOne(s, t, hours, now).result.Failure?;
  }

  /** An approver with no manager who is the first active admin of the company is their own escalation target. */
  lemma LoneAdminTargetsSelf(users: seq<User>, a: User)
    requires a.managerId.None? && ActiveAdmin(users, a.companyId) == Some(a)
    ensures FindEscalationTarget(users, a) == Some(a)
  {
  }

  /** Tasks created by escalation are never notified, so the reminder sweep never picks them up. */
  lemma EscalatedTasksNeverReminded(s: Store, hours: int, now: int, days: int, later: int)
    ensures var r := EscalateOverdueApprovals(s, hours, now);
            r.result.Success? ==> forall x :: x in r.result.value ==> !NeedsReminder(x.escalated, days, later)
  {
  }

  /** The reminder sweep is not idempotent: a second run sends the same reminders again. */
  lemma RemindersRepeat(s: Store, days: int, now: int)
    ensures var r1 := SendReminderNotifications(s, days, now);
            var r2 := SendReminderNotifications(r1, days, now);
            var sent := r1.notifications[|s.notifications|..];
            r2.notifications == s.notifications + sent + sent && r2.tasks == s.tasks
  {
    var r1 := SendReminderNotifications(s, days, now);
    assert r1.tasks == s.tasks;
    assert r1.notifications[|s.notifications|..] == Reminders(DueForReminder(s, days, now), now);
  }

  /** The escalation query picks exactly the tasks `isOverdue` calls overdue. */
  lemma OverdueQueryMatchesIsOverdue(s: Store, hours: int, now: int, t: Task)
    requires t in s.tasks
    ensures t in OverdueTasks(s, hours, now) <==> t.status == Pending && now - t.createdAt > hours * MillisPerHour
  {
  }
}

=== FILE: workflow_tasks.dfy ===
/**
 * Turning a submitted expense's step list into approval tasks and starting
 * the approval (`initializeWorkflow`, `createApprovalSteps`,
 * `startApprovalProcess` and `notifyApprover` in
 * src/services/approvalWorkflowService.js).
 */
module WorkflowTasks {
  import opened Wrappers
  import opened Json
  import opened Seqs
  import opened Sorting
  import opened Users
  import opened Expenses
  import opened History
  import opened Notifications
  import opened ApprovalSteps
  import opened WorkflowSteps
  import opened ServiceState
  import opened WorkflowSelection
  import opened WorkflowRules
  import Text

  /** Steps are materialised in `step_number` order. */
  predicate StepBefore(a: WorkflowStep, b: WorkflowStep) {
    a.stepNumber <= b.stepNumber
  }

  lemma StepOrderIsPreorder()
    ensures TotalPreorder(StepBefore)
  {
  }

  /** `ApprovalWorkflowStep.findAll({ workflow_id }, order step_number ASC)`, as step entries. */
  function OrderedSteps(s: Store, workflowId: nat): (r: seq<StepEntry>)
    ensures forall i :: 0 <= i < |r| ==> r[i].Template? && r[i].step in s.workflowSteps && r[i].step.workflowId == workflowId
    ensures forall st :: st in s.workflowSteps && st.workflowId == workflowId ==> Template(st) in r
    ensures forall i, j :: 0 <= i < j < |r| ==> r[i].step.stepNumber <= r[j].step.stepNumber
  {
    StepOrderIsPreorder();
    var steps := StepsOf(s, workflowId);
    var sorted := Sort(steps, StepBefore);
    SameMembers(sorted, steps);
    AsEntries(sorted)
  }

  function AsEntries(steps: seq<WorkflowStep>): (r: seq<StepEntry>)
    ensures |r| == |steps| && forall i :: 0 <= i < |r| ==> r[i] == Template(steps[i])
  {
    if |steps| == 0 then [] else [Template(steps[0])] + AsEntries(steps[1..])
  }

  /** A template step of an expense that neither is skipped nor auto-approves, and names `approverId`. */
  predicate Yields(st: WorkflowStep, e: Expense, users: seq<User>, approverId: nat) {
    && IsApplicableForExpense(st, e)
    && !ShouldAutoApprove(st, e.amountInCompanyCurrency)
    && GetApprover(st, e, users).Success?
    && exists u :: u in Approvers(GetApprover(st, e, users).value) && u.id == approverId
  }

  /** A task as `createApprovalSteps` leaves it: pending, never notified, for the expense. */
  predicate FreshTaskFor(t: Task, expenseId: nat) {
    t.expenseId == expenseId && t.status == Pending && t.notifiedAt.None? && t.comments.None?
  }

  /** Only tasks are added and history appended. */
  predicate CreationEffectsOnly(s: Store, s': Store) {
    && s'.expenses == s.expenses && s'.users == s.users && s'.workflows == s.workflows
    && s'.workflowSteps == s.workflowSteps && s'.rules == s.rules && s'.notifications == s.notifications
    && s.tasks <= s'.tasks && s.history <= s'.history
    && s'.nextTaskId == s.nextTaskId + |s'.tasks| - |s.tasks|
  }

  /** The inner loop: one task per approver of a step, in order. */
  function CreateForApprovers(s: Store, expenseId: nat, st: WorkflowStep, approvers: seq<User>, now: int): (r: Outcome<seq<Task>>)
    ensures CreationEffectsOnly(s, r.store) && r.store.history == s.history
    ensures r.result.Failure? ==> r.result.error.UniqueViolation?
    ensures r.result.Success? ==>
              && r.store.tasks == s.tasks + r.result.value
              && |r.result.value| == |approvers|
              && forall i :: 0 <= i < |approvers| ==>
                   && FreshTaskFor(r.result.value[i], expenseId)
                   && r.result.value[i].approverId == approvers[i].id
                   && r.result.value[i].stepNumber == st.stepNumber
                   && r.result.value[i].workflowStepId == Some(st.id)
    decreases |approvers|
  {
    if |approvers| == 0 then Outcome(s, Success([]))
    else
      var o1 := CreateTask(s, expenseId, Some(st.id), st.stepNumber, approvers[0].id, ApproverTypeName(st.approverType), now);
      if o1.result.Failure? then Outcome(o1.store, Failure(o1.result.error))
      else
        var o2 := CreateForApprovers(o1.store, expenseId, st, approvers[1..], now);
        if o2.result.Failure? then o2
        else Outcome(o2.store, Success([o1.result.value] + o2.result.value))
  }

  const ThresholdReason: string := "Auto-approved due to threshold"

  /** The `auto_approved` history row a threshold writes. */
  function ThresholdEntry(e: Expense, st: WorkflowStep): HistoryEntry {
    CreateEntry(e.id, e.userId, AutoApproved,
      EntryOptions(Some(st.stepNumber), None, Some("approved"), None,
        Some(map["reason" := MStr(ThresholdReason), "threshold" := MInt(st.autoApproveThreshold.GetOr(0))])))
  }

  const NotAFunction: string := "workflowStep.isApplicableForExpense is not a function"

  /**
   * One template step of `createApprovalSteps`: nothing when it does not
   * apply, an `auto_approved` history row when under its threshold,
   * otherwise one task per resolved approver.
   */
  function MaterializeStep(s: Store, expenseId: nat, st: WorkflowStep, now: int): (r: Outcome<seq<Task>>)
    requires expenseId in s.expenses
    ensures CreationEffectsOnly(s, r.store)
    ensures r.result.Success? ==> r.store.tasks == s.tasks + r.result.value
    ensures r.result.Success? ==> forall i :: 0 <= i < |r.result.value| ==> FreshTaskFor(r.result.value[i], expenseId)
    ensures r.result.Failure? ==> r.result.error.TypeError? || r.result.error.UniqueViolation?
    ensures !IsApplicableForExpense(st, s.expenses[expenseId]) ==> r == Outcome(s, Success([]))
    ensures IsApplicableForExpense(st, s.expenses[expenseId]) && ShouldAutoApprove(st, s.expenses[expenseId].amountInCompanyCurrency) ==>
              && r.result == Success([]) && r.store.tasks == s.tasks
              && |r.store.history| == |s.history| + 1 && r.store.history[|s.history|].action == AutoApproved
  {
    var e := s.expenses[expenseId];
    if !IsApplicableForExpense(st, e) then Outcome(s, Success([]))
    else if ShouldAutoApprove(st, e.amountInCompanyCurrency) then Outcome(AddHistory(s, ThresholdEntry(e, st)), Success([]))
    else
      match GetApprover(st, e, s.users)
      case Failure(msg) => Outcome(s, Failure(TypeError(msg)))
      case Success(res) => CreateForApprovers(s, expenseId, st, Approvers(res), now)
  }

  /** A successful step followed by the rest: the rest's error, or both steps' tasks. */
  function Chain(s: Store, o1: Outcome<seq<Task>>, o2: Outcome<seq<Task>>): (r: Outcome<seq<Task>>)
    requires o1.result.Success? && CreationEffectsOnly(s, o1.store) && o1.store.tasks == s.tasks + o1.result.value
    requires CreationEffectsOnly(o1.store, o2.store)
    requires o2.result.Success? ==> o2.store.tasks == o1.store.tasks + o2.result.value
    ensures CreationEffectsOnly(s, r.store)
    ensures r.result.Success? ==> r.store.tasks == s.tasks + r.result.value
    ensures r.result.Failure? ==> r == o2
  {
    if o2.result.Failure? then o2
    else
      assert (s.tasks + o1.result.value) + o2.result.value == s.tasks + (o1.result.value + o2.result.value);
      Outcome(o2.store, Success(o1.result.value + o2.result.value))
  }

  /**
   * `createApprovalSteps`: the template steps in order, each materialized
   * in turn.  An appended plain-object step has no `isApplicableForExpense`,
   * so reaching one throws.
   */
  function CreateApprovalSteps(s: Store, expenseId: nat, entries: seq<StepEntry>, now: int): (r: Outcome<seq<Task>>)
    requires expenseId in s.expenses
    ensures CreationEffectsOnly(s, r.store)
    ensures r.result.Success? ==> r.store.tasks == s.tasks + r.result.value
    ensures r.result.Success? ==> forall i :: 0 <= i < |r.result.value| ==> FreshTaskFor(r.result.value[i], expenseId)
    ensures (exists i :: 0 <= i < |entries| && entries[i].Added?) ==> r.result.Failure?
    ensures r.result.Failure? ==> r.result.error.TypeError? || r.result.error.UniqueViolation?
    decreases |entries|
  {
    if |entries| == 0 then Outcome(s, Success([]))
    else
      match entries[0]
      case Added(_, _, _) => Outcome(s, Failure(TypeError(NotAFunction)))
      case Template(st) =>
        var o1 := MaterializeStep(s, expenseId, st, now);
        if o1.result.Failure? then o1
        else
          Chain(s, o1, CreateApprovalSteps(o1.store, expenseId, entries[1..], now))
  }

  /** Every created task comes from an applicable, non-auto-approved template step and one of its approvers. */
  ghost predicate TasksJustified(tasks: seq<Task>, entries: seq<StepEntry>, e: Expense, users: seq<User>) {
    forall t :: t in tasks ==>
      exists k :: 0 <= k < |entries| && entries[k].Template? && entries[k].step.stepNumber == t.stepNumber
                  && Yields(entries[k].step, e, users, t.approverId)
  }

  /** Every (step, approver) pair the template steps name has a task. */
  ghost predicate TasksComplete(tasks: seq<Task>, entries: seq<StepEntry>, e: Expense, users: seq<User>) {
    forall k, a :: 0 <= k < |entries| && entries[k].Template? && Yields(entries[k].step, e, users, a) ==>
      exists t :: t in tasks && t.stepNumber == entries[k].step.stepNumber && t.approverId == a
  }

  /** The tasks of a successful `createApprovalSteps` come from the template steps that yield them. */
  lemma {:induction false} CreatedTasksJustified(s: Store, expenseId: nat, entries: seq<StepEntry>, now: int)
    requires expenseId in s.expenses
    ensures var r := CreateApprovalSteps(s, expenseId, entries, now);
            r.result.Success? ==> TasksJustified(r.result.value, entries, s.expenses[expenseId], s.users)
    decreases |entries|
  {
    var r := CreateApprovalSteps(s, expenseId, entries, now);
    var e := s.expenses[expenseId];
    if |entries| == 0 || r.result.Failure? {
      return;
    }
    var st := entries[0].step;
    var o1 := MaterializeStep(s, expenseId, st, now);
    var o2 := CreateApprovalSteps(o1.store, expenseId, entries[1..], now);
    assert r.result.value == o1.result.value + o2.result.value;
    CreatedTasksJustified(o1.store, expenseId, entries[1..], now);
    ShiftJustified(o2.result.value, entries, e, s.users);
    forall t | t in o1.result.value
      ensures exists k :: 0 <= k < |entries| && entries[k].Template? && entries[k].step.stepNumber == t.stepNumber
                          && Yields(entries[k].step, e, s.users, t.approverId)
    {
      var approvers := Approvers(GetApprover(st, e, s.users).value);
      var i :| 0 <= i < |o1.result.value| && o1.result.value[i] == t;
      assert approvers[i] in approvers && approvers[i].id == t.approverId;
      assert Yields(entries[0].step, e, s.users, t.approverId);
    }
  }

  lemma ShiftJustified(tasks: seq<Task>, entries: seq<StepEntry>, e: Expense, users: seq<User>)
    requires |entries| > 0 && TasksJustified(tasks, entries[1..], e, users)
    ensures TasksJustified(tasks, entries, e, users)
  {
    forall t | t in tasks
      ensures exists k :: 0 <= k < |entries| && entries[k].Template? && entries[k].step.stepNumber == t.stepNumber
                          && Yields(entries[k].step, e, users, t.approverId)
    {
      var k :| 0 <= k < |entries[1..]| && entries[1..][k].Template? && entries[1..][k].step.stepNumber == t.stepNumber
               && Yields(entries[1..][k].step, e, users, t.approverId);
      assert entries[k + 1] == entries[1..][k];
    }
  }

  /** A successful `createApprovalSteps` leaves no (step, approver) pair of the template steps without a task. */
  lemma {:induction false} CreatedTasksComplete(s: Store, expenseId: nat, entries: seq<StepEntry>, now: int)
    requires expenseId in s.expenses
    ensures var r := CreateApprovalSteps(s, expenseId, entries, now);
            r.result.Success? ==> TasksComplete(r.result.value, entries, s.expenses[expenseId], s.users)
    decreases |entries|
  {
    var r := CreateApprovalSteps(s, expenseId, entries, now);
    var e := s.expenses[expenseId];
    if |entries| == 0 || r.result.Failure? {
      return;
    }
    var st := entries[0].step;
    var o1 := MaterializeStep(s, expenseId, st, now);
    var o2 := CreateApprovalSteps(o1.store, expenseId, entries[1..], now);
    assert r.result.value == o1.result.value + o2.result.value;
    CreatedTasksComplete(o1.store, expenseId, entries[1..], now);
    forall a | Yields(st, e, s.users, a)
      ensures exists t :: t in o1.result.value && t.stepNumber == st.stepNumber && t.approverId == a
    {
      var approvers := Approvers(GetApprover(st, e, s.users).value);
      var u :| u in approvers && u.id == a;
      var i :| 0 <= i < |approvers| && approvers[i] == u;
      assert o1.result.value[i] in o1.result.value;
    }
    ShiftComplete(o1.result.value, o2.result.value, entries, e, s.users);
  }

  lemma ShiftComplete(head: seq<Task>, rest: seq<Task>, entries: seq<StepEntry>, e: Expense, users: seq<User>)
    requires |entries| > 0 && TasksComplete(rest, entries[1..], e, users)
    requires entries[0].Template? ==>
               forall a :: Yields(entries[0].step, e, users, a) ==>
                 exists t :: t in head && t.stepNumber == entries[0].step.stepNumber && t.approverId == a
    ensures TasksComplete(head + rest, entries, e, users)
  {
    forall k, a | 0 <= k < |entries| && entries[k].Template? && Yields(entries[k].step, e, users, a)
      ensures exists t :: t in head + rest && t.stepNumber == entries[k].step.stepNumber && t.approverId == a
    {
      if k == 0 {
        var t :| t in head && t.stepNumber == entries[0].step.stepNumber && t.approverId == a;
        assert t in head + rest;
      } else {
        assert entries[1..][k - 1] == entries[k];
        var t :| t in rest && t.stepNumber == entries[k].step.stepNumber && t.approverId == a;
        assert t in head + rest;
      }
    }
  }

  /** `createApprovalSteps` keeps the store valid: every approver it resolves is a stored user. */
  lemma {:induction false} CreateForApproversValid(s: Store, expenseId: nat, st: WorkflowStep, approvers: seq<User>, now: int)
    requires Valid(s) && expenseId in s.expenses
    requires forall u :: u in approvers ==> u in s.users
    ensures Valid(CreateForApprovers(s, expenseId, st, approvers, now).store)
    decreases |approvers|
  {
    if |approvers| > 0 {
      var o1 := CreateTask(s, expenseId, Some(st.id), st.stepNumber, approvers[0].id, ApproverTypeName(st.approverType), now);
      assert approvers[0] in s.users;
      CreateTaskValid(s, expenseId, Some(st.id), st.stepNumber, approvers[0].id, ApproverTypeName(st.approverType), now);
      if o1.result.Success? {
        CreateForApproversValid(o1.store, expenseId, st, approvers[1..], now);
      }
    }
  }

  lemma MaterializeStepValid(s: Store, expenseId: nat, st: WorkflowStep, now: int)
    requires Valid(s) && expenseId in s.expenses
    ensures Valid(MaterializeStep(s, expenseId, st, now).store)
  {
    var e := s.expenses[expenseId];
    if !IsApplicableForExpense(st, e) {
    } else if ShouldAutoApprove(st, e.amountInCompanyCurrency) {
      FrameValid(s, AddHistory(s, ThresholdEntry(e, st)));
    } else if GetApprover(st, e, s.users).Success? {
      ResolvedApproversExist(st, e, s.users);
      CreateForApproversValid(s, expenseId, st, Approvers(GetApprover(st, e, s.users).value), now);
    }
  }

  lemma {:induction false} CreateApprovalStepsValid(s: Store, expenseId: nat, entries: seq<StepEntry>, now: int)
    requires Valid(s) && expenseId in s.expenses
    ensures Valid(CreateApprovalSteps(s, expenseId, entries, now).store)
    decreases |entries|
  {
    if |entries| > 0 && entries[0].Template? {
      var o1 := MaterializeStep(s, expenseId, entries[0].step, now);
      MaterializeStepValid(s, expenseId, entries[0].step, now);
      if o1.result.Success? {
        CreateApprovalStepsValid(o1.store, expenseId, entries[1..], now);
      }
    }
  }

  /** `notifyApprover` writes only when both the approver and the expense's submitter are found. */
  predicate Notifiable(s: Store, t: Task, expenseId: nat)
    requires expenseId in s.expenses
  {
    FindUser(s.users, t.approverId).Some? && FindUser(s.users, s.expenses[expenseId].userId).Some?
  }

  /** Some notification written after the first `before` ones is addressed to `t`'s approver. */
  predicate NotifiedAfter(r: Store, before: nat, t: Task) {
    exists i :: before <= i < |r.notifications| && r.notifications[i].userId == t.approverId
  }

  /**
   * `notifyApprover`: when both the approver and the submitter exist, send
   * the approver an approval request and stamp its `notified_at`.
   */
  function NotifyApprover(s: Store, t: Task, expenseId: nat, now: int): (r: Store)
    requires expenseId in s.expenses
    ensures ConfigKept(s, r) && r.expenses == s.expenses && r.history == s.history && r.nextTaskId == s.nextTaskId
    ensures var notified := Notifiable(s, t, expenseId);
            && (notified ==> && |r.notifications| == |s.notifications| + 1
                             && s.notifications <= r.notifications
                             && r.tasks == PutTask(s, t.(notifiedAt := Some(now))).tasks
                             && r.notifications[|s.notifications|].ntype == ApprovalRequest
                             && r.notifications[|s.notifications|].userId == t.approverId
                             && r.notifications[|s.notifications|].expenseId == Some(expenseId))
            && (!notified ==> r == s)
  {
    var e := s.expenses[expenseId];
    var approver := FindUser(s.users, t.approverId);
    var submitter := FindUser(s.users, e.userId);
    if approver.Some? && submitter.Some? then
      var n := CreateApprovalRequest(approver.value.id, expenseId, Text.CentsToString(e.amountInCompanyCurrency),
                                     submitter.value.name, now);
      PutTask(AddNotification(s, n), t.(notifiedAt := Some(now)))
    else s
  }

  /** Notifying tracked tasks keeps the store valid and every other tracked copy tracked. */
  lemma NotifyApproverValid(s: Store, t: Task, expenseId: nat, now: int, others: seq<Task>)
    requires Valid(s) && expenseId in s.expenses && Tracked(s, t)
    requires forall u :: u in others ==> Tracked(s, u)
    ensures var r := NotifyApprover(s, t, expenseId, now);
            Valid(r) && forall u :: u in others ==> Tracked(r, u)
  {
    var r := NotifyApprover(s, t, expenseId, now);
    if FindUser(s.users, t.approverId).Some? && FindUser(s.users, s.expenses[expenseId].userId).Some? {
      var t' := t.(notifiedAt := Some(now));
      var s1 := PutTask(s, t');
      PutTaskValid(s, t');
      FrameValid(s1, r);
      forall u | u in others ensures Tracked(r, u) {
        PutTaskKeepsTracked(s, t', u);
      }
    }
  }

  /** The `for ... of` loop over approvers to notify. */
  function NotifyAll(s: Store, ts: seq<Task>, expenseId: nat, now: int): (r: Store)
    requires expenseId in s.expenses
    ensures ConfigKept(s, r) && r.expenses == s.expenses && r.history == s.history && r.nextTaskId == s.nextTaskId
    ensures s.notifications <= r.notifications && |r.notifications| <= |s.notifications| + |ts|
    ensures |r.tasks| == |s.tasks|
    ensures forall i :: |s.notifications| <= i < |r.notifications| ==>
              r.notifications[i].ntype == ApprovalRequest && r.notifications[i].expenseId == Some(expenseId)
              && exists t :: t in ts && t.approverId == r.notifications[i].userId
    ensures forall t :: t in ts && Notifiable(s, t, expenseId) ==> NotifiedAfter(r, |s.notifications|, t)
    decreases |ts|
  {
    if |ts| == 0 then s
    else
      var s1 := NotifyApprover(s, ts[0], expenseId, now);
      var r := NotifyAll(s1, ts[1..], expenseId, now);
      NotifiedCompose(s, s1, ts, expenseId, r);
      NotifiedComplete(s, s1, ts, expenseId, r);
      r
  }

  /** Notifying the first approver and then the rest reaches every approver `notifyApprover` can reach. */
  lemma NotifiedComplete(s: Store, s1: Store, ts: seq<Task>, expenseId: nat, rest: Store)
    requires |ts| > 0 && expenseId in s.expenses
    requires s1.users == s.users && s1.expenses == s.expenses && s.notifications <= s1.notifications
    requires Notifiable(s, ts[0], expenseId) ==>
               |s1.notifications| > |s.notifications| && s1.notifications[|s.notifications|].userId == ts[0].approverId
    requires s1.notifications <= rest.notifications
    requires forall t :: t in ts[1..] && Notifiable(s1, t, expenseId) ==> NotifiedAfter(rest, |s1.notifications|, t)
    ensures forall t :: t in ts && Notifiable(s, t, expenseId) ==> NotifiedAfter(rest, |s.notifications|, t)
  {
    forall t | t in ts && Notifiable(s, t, expenseId) ensures NotifiedAfter(rest, |s.notifications|, t) {
      if t == ts[0] {
        assert rest.notifications[|s.notifications|] == s1.notifications[|s.notifications|];
      } else {
        assert t in ts[1..];
        var i :| |s1.notifications| <= i < |rest.notifications| && rest.notifications[i].userId == t.approverId;
      }
    }
  }

  /** Notifying the first approver and then the rest: the frames and the notifications compose. */
  lemma NotifiedCompose(s: Store, s1: Store, ts: seq<Task>, expenseId: nat, rest: Store)
    requires |ts| > 0
    requires ConfigKept(s, s1) && s1.expenses == s.expenses && s1.history == s.history && s1.nextTaskId == s.nextTaskId
    requires s.notifications <= s1.notifications && |s1.notifications| <= |s.notifications| + 1 && |s1.tasks| == |s.tasks|
    requires |s1.notifications| > |s.notifications| ==>
               && s1.notifications[|s.notifications|].ntype == ApprovalRequest
               && s1.notifications[|s.notifications|].userId == ts[0].approverId
               && s1.notifications[|s.notifications|].expenseId == Some(expenseId)
    requires ConfigKept(s1, rest) && rest.expenses == s1.expenses && rest.history == s1.history && rest.nextTaskId == s1.nextTaskId
    requires s1.notifications <= rest.notifications && |rest.notifications| <= |s1.notifications| + |ts| - 1
    requires |rest.tasks| == |s1.tasks|
    requires forall i :: |s1.notifications| <= i < |rest.notifications| ==>
               rest.notifications[i].ntype == ApprovalRequest && rest.notifications[i].expenseId == Some(expenseId)
               && exists t :: t in ts[1..] && t.approverId == rest.notifications[i].userId
    ensures ConfigKept(s, rest) && rest.expenses == s.expenses && rest.history == s.history && rest.nextTaskId == s.nextTaskId
    ensures s.notifications <= rest.notifications && |rest.notifications| <= |s.notifications| + |ts|
    ensures |rest.tasks| == |s.tasks|
    ensures forall i :: |s.notifications| <= i < |rest.notifications| ==>
              rest.notifications[i].ntype == ApprovalRequest && rest.notifications[i].expenseId == Some(expenseId)
              && exists t :: t in ts && t.approverId == rest.notifications[i].userId
  {
    forall i | |s.notifications| <= i < |rest.notifications|
      ensures rest.notifications[i].ntype == ApprovalRequest && rest.notifications[i].expenseId == Some(expenseId)
      ensures exists t :: t in ts && t.approverId == rest.notifications[i].userId
    {
      if i < |s1.notifications| {
        assert rest.notifications[i] == s1.notifications[i];
        assert ts[0] in ts;
      } else {
        var n := rest.notifications[i];
        assert exists t :: t in ts[1..] && t.approverId == n.userId;
        var t :| t in ts[1..] && t.approverId == n.userId;
        assert t in ts;
      }
    }
  }

  lemma {:induction false} NotifyAllValid(s: Store, ts: seq<Task>, expenseId: nat, now: int)
    requires Valid(s) && expenseId in s.expenses
    requires forall u :: u in ts ==> Tracked(s, u)
    ensures Valid(NotifyAll(s, ts, expenseId, now))
    decreases |ts|
  {
    if |ts| > 0 {
      NotifyApproverValid(s, ts[0], expenseId, now, ts[1..]);
      NotifyAllValid(NotifyApprover(s, ts[0], expenseId, now), ts[1..], expenseId, now);
    }
  }

  /**
   * `startApprovalProcess`: no tasks approves the expense outright;
   * otherwise the expense goes to `in_approval` at step 1 and the tasks
   * numbered 1 are notified.
   */
  function StartApprovalProcess(s: Store, expenseId: nat, tasks: seq<Task>, now: int): (r: Store)
    requires expenseId in s.expenses
    ensures expenseId in r.expenses && ExpenseFactsKept(s.expenses, r.expenses)
    ensures forall id :: id in s.expenses && id != expenseId ==> r.expenses[id] == s.expenses[id]
    ensures ConfigKept(s, r) && r.history == s.history && r.nextTaskId == s.nextTaskId
    ensures |tasks| == 0 ==> && r.expenses[expenseId].status == ExpenseStatus.Approved
                             && r.expenses[expenseId].approvedAt == Some(now)
                             && r.notifications == s.notifications && r.tasks == s.tasks
    ensures |tasks| > 0 ==> && r.expenses[expenseId].status == InApproval
                            && r.expenses[expenseId].currentApprovalStep == 1
    ensures s.notifications <= r.notifications
    ensures forall i :: |s.notifications| <= i < |r.notifications| ==>
              exists t :: t in tasks && t.stepNumber == 1 && t.approverId == r.notifications[i].userId
    ensures forall t :: t in tasks && t.stepNumber == 1 && Notifiable(s, t, expenseId) ==>
              NotifiedAfter(r, |s.notifications|, t)
  {
    var e := s.expenses[expenseId];
    if |tasks| == 0 then
      PutExpense(s, expenseId, e.(status := ExpenseStatus.Approved, approvedAt := Some(now)), now)
    else
      var s1 := PutExpense(s, expenseId, e.(status := InApproval, currentApprovalStep := 1), now);
      NotifyStepOne(s1, expenseId, tasks, now)
  }

  /** The approvers of the tasks numbered 1 are notified. */
  function NotifyStepOne(s: Store, expenseId: nat, tasks: seq<Task>, now: int): (r: Store)
    requires expenseId in s.expenses
    ensures ConfigKept(s, r) && r.expenses == s.expenses && r.history == s.history && r.nextTaskId == s.nextTaskId
    ensures s.notifications <= r.notifications
    ensures forall i :: |s.notifications| <= i < |r.notifications| ==>
              exists t :: t in tasks && t.stepNumber == 1 && t.approverId == r.notifications[i].userId
    ensures forall t :: t in tasks && t.stepNumber == 1 && Notifiable(s, t, expenseId) ==>
              NotifiedAfter(r, |s.notifications|, t)
  {
    NotifyAll(s, Filter(tasks, (t: Task) => t.stepNumber == 1), expenseId, now)
  }

  /** Starting keeps the store valid when the tasks are stored ones. */
  lemma StartApprovalProcessValid(s: Store, expenseId: nat, tasks: seq<Task>, now: int)
    requires Valid(s) && expenseId in s.expenses
    requires forall t :: t in tasks ==> t in s.tasks
    ensures Valid(StartApprovalProcess(s, expenseId, tasks, now))
  {
    var e := s.expenses[expenseId];
    if |tasks| == 0 {
      FrameValid(s, StartApprovalProcess(s, expenseId, tasks, now));
    } else {
      var s1 := PutExpense(s, expenseId, e.(status := InApproval, currentApprovalStep := 1), now);
      FrameValid(s, s1);
      var first := Filter(tasks, (t: Task) => t.stepNumber == 1);
      forall u | u in first ensures Tracked(s1, u) {
        StoredIsTracked(s1, u);
      }
      NotifyAllValid(s1, first, expenseId, now);
      assert StartApprovalProcess(s, expenseId, tasks, now) == NotifyAll(s1, first, expenseId, now);
    }
  }

  /** The result of `initializeWorkflow`: the workflow, the tasks created and the first of them. */
  datatype Initialized = Initialized(workflow: Workflow, tasks: seq<Task>, nextApprover: Option<Task>)

  /** The expense as `initializeWorkflow` first updates it. */
  function MarkSubmitted(s: Store, expenseId: nat, w: Workflow, now: int): (r: Store)
    requires expenseId in s.expenses
    ensures ExpenseRefsKept(s.expenses, r.expenses)
    ensures ConfigKept(s, r) && r.tasks == s.tasks && r.history == s.history
    ensures r.notifications == s.notifications && r.nextTaskId == s.nextTaskId
    ensures forall id :: id in s.expenses && id != expenseId ==> r.expenses[id] == s.expenses[id]
    ensures var e := s.expenses[expenseId]; var e' := r.expenses[expenseId];
            && e'.status == ExpenseStatus.Submitted && e'.workflowId == Some(w.id) && e'.submittedAt == Some(now)
            && e'.companyId == e.companyId && e'.amount == e.amount && e'.categoryId == e.categoryId
            && e'.amountInCompanyCurrency == e.amountInCompanyCurrency
  {
    var e := s.expenses[expenseId];
    PutExpense(s, expenseId, e.(workflowId := Some(w.id), status := ExpenseStatus.Submitted, submittedAt := Some(now)), now)
  }

  /** The step list after the rules: the workflow's steps in order, rewritten by each applicable rule. */
  function Plan(s: Store, expenseId: nat, w: Workflow, loadedDepartment: Json, now: int): (r: Applied)
    requires expenseId in s.expenses
    ensures ExpenseRefsKept(s.expenses, r.store.expenses)
    ensures ConfigKept(s, r.store) && r.store.tasks == s.tasks
    ensures r.store.notifications == s.notifications && r.store.nextTaskId == s.nextTaskId
    ensures r.store.expenses[expenseId].workflowId == Some(w.id) && r.store.expenses[expenseId].submittedAt == Some(now)
  {
    var s1 := MarkSubmitted(s, expenseId, w, now);
    ApplyRules(s1, ActiveRulesFor(s1, s.expenses[expenseId].companyId, w.id), OrderedSteps(s1, w.id),
               expenseId, w.id, loadedDepartment, now)
  }

  /** The `submitted` history row, whose new status is always `in_approval`. */
  function SubmittedEntry(e: Expense, w: Workflow): HistoryEntry {
    CreateEntry(e.id, e.userId, HistoryAction.Submitted,
      EntryOptions(None, None, Some("in_approval"), None, Some(map["workflow_id" := MInt(w.id)])))
  }

  /** What `initializeWorkflow` reports back. */
  predicate InitializedAsPromised(s': Store, expenseId: nat, res: Initialized, now: int)
    requires expenseId in s'.expenses
  {
    var e' := s'.expenses[expenseId];
    var tasks := res.tasks;
    && e'.workflowId == Some(res.workflow.id) && e'.submittedAt == Some(now)
    && (|tasks| == 0 ==> e'.status == ExpenseStatus.Approved)
    && (|tasks| > 0 ==> e'.status == InApproval && e'.currentApprovalStep == 1)
    && (forall i :: 0 <= i < |tasks| ==> tasks[i].expenseId == expenseId && tasks[i].status == Pending)
    && |s'.history| > 0
    && s'.history[|s'.history| - 1].action == HistoryAction.Submitted
    && s'.history[|s'.history| - 1].newStatus == "in_approval"
  }

  /** The part of `initializeWorkflow` after a workflow was found. */
  function RunWorkflow(s: Store, expenseId: nat, w: Workflow, loadedDepartment: Json, now: int): (r: Outcome<Initialized>)
    requires expenseId in s.expenses
    ensures expenseId in r.store.expenses && ExpenseRefsKept(s.expenses, r.store.expenses)
    ensures r.result.Success? ==> r.result.value.workflow == w && InitializedAsPromised(r.store, expenseId, r.result.value, now)
    ensures r.result.Failure? ==> r.result.error.TypeError? || r.result.error.UniqueViolation?
  {
    var a := Plan(s, expenseId, w, loadedDepartment, now);
    Launch(a.store, expenseId, a.steps, w, SubmittedEntry(s.expenses[expenseId], w), now)
  }

  /** After planning: create the tasks, start the approval and log the submission. */
  function Launch(s: Store, expenseId: nat, steps: seq<StepEntry>, w: Workflow, submitted: HistoryEntry, now: int)
    : (r: Outcome<Initialized>)
    requires expenseId in s.expenses
    requires s.expenses[expenseId].workflowId == Some(w.id) && s.expenses[expenseId].submittedAt == Some(now)
    requires submitted.action == HistoryAction.Submitted && submitted.newStatus == "in_approval"
    ensures expenseId in r.store.expenses && ExpenseRefsKept(s.expenses, r.store.expenses)
    ensures r.result.Success? ==> r.result.value.workflow == w && InitializedAsPromised(r.store, expenseId, r.result.value, now)
    ensures r.result.Failure? ==> r.result.error.TypeError? || r.result.error.UniqueViolation?
  {
    var o := CreateApprovalSteps(s, expenseId, steps, now);
    if o.result.Failure? then Outcome(o.store, Failure(o.result.error))
    else
      var tasks := o.result.value;
      Outcome(Finish(o.store, expenseId, tasks, submitted, now),
              Success(Initialized(w, tasks, if |tasks| > 0 then Some(tasks[0]) else None)))
  }

  /** The tail of `initializeWorkflow` once the tasks exist: start the approval, then log the submission. */
  function Finish(s: Store, expenseId: nat, tasks: seq<Task>, submitted: HistoryEntry, now: int): (r: Store)
    requires expenseId in s.expenses
    ensures expenseId in r.expenses && ExpenseFactsKept(s.expenses, r.expenses)
    ensures |tasks| == 0 ==> r.expenses[expenseId].status == ExpenseStatus.Approved
    ensures |tasks| > 0 ==> r.expenses[expenseId].status == InApproval && r.expenses[expenseId].currentApprovalStep == 1
    ensures |r.history| > 0 && r.history[|r.history| - 1] == submitted
  {
    AddHistory(StartApprovalProcess(s, expenseId, tasks, now), submitted)
  }

  /**
   * `initializeWorkflow(expense)`.  `loadedDepartment` is the submitter's
   * department as loaded with the expense; every caller loads the expense
   * without its `user`, so they supply `undefined`.
   */
  function InitializeWorkflow(s: Store, expenseId: nat, loadedDepartment: Json, now: int): (r: Outcome<Initialized>)
    requires expenseId in s.expenses
    ensures r.result == Failure(NoSuitableWorkflow) <==> forall w :: w in s.workflows ==> !IsCandidate(w, s.expenses[expenseId].companyId)
    ensures r.result == Failure(NoSuitableWorkflow) ==> r.store == s
    ensures expenseId in r.store.expenses && ExpenseRefsKept(s.expenses, r.store.expenses)
    ensures r.result.Success? ==>
              && r.result.value.workflow in s.workflows
              && IsCandidate(r.result.value.workflow, s.expenses[expenseId].companyId)
              && InitializedAsPromised(r.store, expenseId, r.result.value, now)
  {
    match GetWorkflowForExpense(s, s.expenses[expenseId])
    case None => Outcome(s, Failure(NoSuitableWorkflow))
    case Some(w) => RunWorkflow(s, expenseId, w, loadedDepartment, now)
  }

  lemma RunWorkflowValid(s: Store, expenseId: nat, w: Workflow, loadedDepartment: Json, now: int)
    requires Valid(s) && expenseId in s.expenses
    ensures Valid(RunWorkflow(s, expenseId, w, loadedDepartment, now).store)
  {
    var a := Plan(s, expenseId, w, loadedDepartment, now);
    FrameValid(s, a.store);
    LaunchValid(a.store, expenseId, a.steps, w, SubmittedEntry(s.expenses[expenseId], w), now);
  }

  lemma LaunchValid(s: Store, expenseId: nat, steps: seq<StepEntry>, w: Workflow, submitted: HistoryEntry, now: int)
    requires Valid(s) && expenseId in s.expenses
    requires s.expenses[expenseId].workflowId == Some(w.id) && s.expenses[expenseId].submittedAt == Some(now)
    requires submitted.action == HistoryAction.Submitted && submitted.newStatus == "in_approval"
    ensures Valid(Launch(s, expenseId, steps, w, submitted, now).store)
  {
    var o := CreateApprovalSteps(s, expenseId, steps, now);
    CreateApprovalStepsValid(s, expenseId, steps, now);
    if o.result.Success? {
      assert forall t :: t in o.result.value ==> t in o.store.tasks;
      StartApprovalProcessValid(o.store, expenseId, o.result.value, now);
      var s3 := StartApprovalProcess(o.store, expenseId, o.result.value, now);
      FrameValid(s3, AddHistory(s3, submitted));
    }
  }

  /** `initializeWorkflow` keeps the store valid, whatever it returns. */
  lemma InitializeWorkflowValid(s: Store, expenseId: nat, loadedDepartment: Json, now: int)
    requires Valid(s) && expenseId in s.expenses
    ensures Valid(InitializeWorkflow(s, expenseId, loadedDepartment, now).store)
  {
    match GetWorkflowForExpense(s, s.expenses[expenseId])
    case None =>
    case Some(w) => RunWorkflowValid(s, expenseId, w, loadedDepartment, now);
  }
}

=== FILE: wrappers.dfy ===
/** Failure-compatible wrappers shared by every module of the model. */
module Wrappers {

  /** A value that may be absent: JavaScript's `null`/`undefined` for a nullable column. */
  datatype Option<+T> = None | Some(value: T) {

    /** Returns the value, or `default` when absent. */
    function GetOr(default: T): T {
      match this
      case Some(v) => v
      case None => default
    }
  }

  /** The result of an operation that may throw. */
  datatype Result<+R, +E> = Success(value: R) | Failure(error: E) {

    predicate IsFailure() {
      Failure?
    }

    function PropagateFailure<U>(): Result<U, E>
      requires Failure?
    {
      Failure(error)
    }

    function Extract(): R
      requires Success?
    {
      value
    }
  }
}
